=== FILE: README.md ===
# py-fractals: a Dafny model of the navigation, animation and state logic

py-fractals is a Qt/OpenGL explorer for fractals. It covers the 2D Mandelbrot and Julia sets, the
3D Mandelbulb and quaternion Julia set, and the Mandelbox. The drawing happens in fragment shaders;
what the Python code itself decides is the state the shaders are given. This project models that
state and the operations that change it, over `real`:

- **Geometry, Fractal2D, Fractal3D.** The navigable view of `fractals/abstract/fractal_2d.py` and
  its verbatim copy in `fractal_3d.py`. This covers the widget-to-fractal point map
  `_translate_point` (built on `rotate_point` of `util/geometry.py`) and the drag, right-click and
  wheel handlers built on it.
- **Animation, AnimWidget, Julia2D.** The animation engine of `animated_fractal.py`: stepping,
  jumping to the start or end state, and the recording schedule. It also covers the widget
  (`animation_param_widget.py`) that seeds each parameter's config, and the configs, setters,
  sliders and saved record of the 2D Julia set.
- **Camera, Mandelbox.** The fly camera of `mandelbox.py`: six direction flags, a moving mode, mouse
  look with a bounded pitch, a speed the wheel keeps positive, and the per-frame `do_move`.
- **Orbit, Mandelbrot2D.** The perturbation reference orbit: an imperative loop over a 100000-entry
  array, with its invariants. Mandelbrot2D adds the drawing gate, the setters and the saved record
  of the 2D Mandelbrot set.
- **Json, Records2D, Julia3D, Mandelbrot3D.** The JSON records written by `_save_state` and read back
  by `_load_state`. Loading is modelled as the code does it: one assignment at a time, stopping at
  the first missing entry. These modules also cover the parameters, setters and panel sliders of the
  3D fractals.
- **Sliders.** The slider-position and parameter-value conversions of the control panels.
- **Registry.** The fractal registry of `frontend/main_window.py`.
- **Legacy2D, LegacyFractals.** The older settings-dictionary design of `fractals/__fractal_2d.py`
  and `Fractals.py`:
  - default merging, `change_parameter`, `_change_offset` and the scaled-point map;
  - the mouse and wheel handlers, `animate`, `update_frame` and the `save_video` schedule;
  - `input_position` and the per-class `animation_params`;
  - the legacy orbit, the Julia C helpers, and the legacy Mandelbox camera.

  The legacy handlers are related to the newer ones by lemmas wherever they agree.

Sine, cosine, `**`/`pow` and `exp` cannot be defined in Dafny. Every operation that uses one takes it
as a parameter. The laws a proof needs (cos² + sin² = 1, the power laws, positivity of `exp`) are
stated once, in `RealMath`, as predicates the lemmas require. Both older classes
`fractals/mandelbrot2d.py` and `fractals/julia2d.py` have the same fields, defaults, setters, orbit
and C as their newer counterparts. Their `name()` strings are the constants
`Mandelbrot2D.LegacyName` ("Mandelbrot 2D") and `Julia2D.LegacyName` ("Julia 2D").

## Model

| member | source | states |
|---|---|---|
| Geometry.RotatePoint | src/util/geometry.py:6-18 | Rotating the centre itself gives the origin: the centre is not added back. |
| Geometry.RotateDefaultCentre | src/util/geometry.py:7-8 | A missing centre means the origin. |
| Geometry.RotateByZero | src/util/geometry.py:13-16 | Angle 0 gives `p - centre`, so rotating the centre itself gives the origin. |
| Geometry.RotateByHalfTurn | src/util/geometry.py:13 | The angle is in half-turns: angle 1 gives `-(p - centre)`. |
| Geometry.RotatePreservesNorm | src/util/geometry.py:15-16 | Rotation about the origin keeps the squared length, given cos² + sin² = 1. |
| Geometry.RotatePointPreservesDistance | src/util/geometry.py:13-16 | The squared distance to the centre is preserved. |
| Geometry.RotateBackInverts | src/util/geometry.py:15-16 | Turning by the opposite angle undoes a turn. |
| Geometry.RotateMinus | src/util/geometry.py:15-16 | Rotation about the origin is linear: it commutes with taking differences. |
| Geometry.RotatePointDifference | src/util/geometry.py:15-16 | `rotate(p) - rotate(q)` is `p - q` rotated about the origin, whatever the centre. |
| Geometry.RotatePointNegated | src/util/geometry.py:15-16 | Rotating a negated offset gives the negated rotation. |
| Fractal2D.Get | src/fractals/abstract/fractal_2d.py:45-106 | Each property getter yields a value of that property's type. |
| Fractal2D.Set | src/fractals/abstract/fractal_2d.py:45-106 | A setter writes its own property, and every other property and the recorded cursor keep their values. |
| Fractal2D.ViewsAgreeOnFields | src/fractals/abstract/fractal_2d.py:34-43 | Two views agreeing on every property and on the recorded cursor are equal, so `Set`'s frame is complete. |
| Fractal2D.SetOwnValue | src/fractals/abstract/fractal_2d.py:45-106 | Setting a property to its current value changes nothing. |
| Fractal2D.Factor | src/fractals/abstract/fractal_2d.py:207 | The factor is non-zero for a navigable view (a non-empty widget and a non-zero zoom). |
| Fractal2D.TranslateRoundTrip | src/fractals/abstract/fractal_2d.py:201-212 | `TranslatePoint` models `_translate_point`, and `UntranslatePoint` is its inverse: The point map is a bijection, and its inverse undoes it in both orders. |
| Fractal2D.UntranslateAfterTranslate | src/fractals/abstract/fractal_2d.py:201-212 | Mapping a widget point to the fractal and back returns the widget point. |
| Fractal2D.TranslateAfterUntranslate | src/fractals/abstract/fractal_2d.py:201-212 | Mapping a fractal point to the widget and back returns the fractal point. |
| Fractal2D.TranslateDifference | src/fractals/abstract/fractal_2d.py:201-212 | The difference of two mapped points does not involve the offset: it is the pixel difference rotated, scaled and flipped. |
| Fractal2D.DragIncrementIgnoresOffset | src/fractals/abstract/fractal_2d.py:156-166 | Views that differ only in their offset see the same drag increment. |
| Fractal2D.MouseMove | src/fractals/abstract/fractal_2d.py:156-166 | The cursor is recorded and only the offset may change besides it; without exactly the left button held the offset is kept. |
| Fractal2D.MousePress | src/fractals/abstract/fractal_2d.py:168-175 | A left press only records the cursor. A right press keeps the recorded cursor and adds the translated cursor to the offset. Other buttons change nothing. |
| Fractal2D.Wheel | src/fractals/abstract/fractal_2d.py:182-183 | Only the zoom changes. |
| Fractal2D.ZoomStepsCompose | src/fractals/abstract/fractal_2d.py:182-183 | The factors of two deltas multiply to the factor of their sum. |
| Fractal2D.DragRoundTrip | src/fractals/abstract/fractal_2d.py:156-166 | Dragging from A to B and back to A restores the offset, for any rotation and zoom. |
| Fractal2D.DragWithoutRotation | src/fractals/abstract/fractal_2d.py:156-164 | At rotation 0, a left drag by (dx, dy) pixels moves the offset by (-dx f, +dy f). |
| Fractal2D.RightClickAtCentre | src/fractals/abstract/fractal_2d.py:174-175 | A right click on the widget centre at rotation 0 scales the offset by `1 - f` in x and `1 + f` in y; it does not keep the offset. |
| Fractal2D.RightClickFixedPoint | src/fractals/abstract/fractal_2d.py:174-175 | A right click on the widget point that `_translate_point` sends to 0 leaves the view unchanged. |
| Fractal2D.WheelKeepsZoomPositive | src/fractals/abstract/fractal_2d.py:182-183 | A positive zoom stays positive, and delta 0 changes nothing. |
| Fractal2D.WheelCompose | src/fractals/abstract/fractal_2d.py:182-183 | Two wheel events equal one event with the summed delta, in either order. |
| Fractal2D.WheelSequence | src/fractals/abstract/fractal_2d.py:182-183 | `WheelAll` applies `wheelEvent` to each delta in turn: Any sequence of wheel events multiplies the zoom by `1.1 ** (sum / 100)`. |
| Fractal3D.Init3D | src/fractals/abstract/fractal_3d.py:24-33 | The 3D base view has the same defaults as the 2D view: 100 iterations, offset (0, 0), zoom 1, no rotation, no lines, no antialiasing. |
| Fractal3D.TranslatePoint3D | src/fractals/abstract/fractal_3d.py:179-190 | The copied point map equals the 2D one, and needs the same non-empty widget and non-zero zoom. |
| Fractal3D.MouseMove3D | src/fractals/abstract/fractal_3d.py:142-152 | The copied mouse-move handler equals the 2D one. |
| Fractal3D.MousePress3D | src/fractals/abstract/fractal_3d.py:154-161 | The copied press handler equals the 2D one, including the right-click re-centring. |
| Fractal3D.Wheel3D | src/fractals/abstract/fractal_3d.py:168-169 | The copied wheel handler equals the 2D one. |
| Fractal3D.DragRoundTrip3D | src/fractals/abstract/fractal_3d.py:142-152 | Drag A to B to A restores the offset in the 3D base too. |
| Fractal3D.WheelKeepsZoomPositive3D | src/fractals/abstract/fractal_3d.py:168-169 | The wheel keeps a positive zoom positive. |
| Fractal3D.CurrentState | src/fractals/abstract/fractal_3d.py:132-133 | Asking for the state always fails with `RuntimeError`. |
| Fractal3D.LoadState | src/fractals/abstract/fractal_3d.py:135-136 | Loading through the 3D base always fails. |
| Animation.Speed | src/fractals/julia_2d.py:29-40 | A speed exists exactly when the step count is non-zero and, for the geometric kind, the start is non-zero and `end / start` positive. A zero step count, or a geometric start of 0, is a division by zero. |
| Animation.SpeedCoversTheWay | src/fractals/julia_2d.py:29-40 | `steps` additive steps add up to `end - start`, and the geometric speed is positive. |
| Animation.StepFromKeeps | src/fractals/abstract/animated_fractal.py:62-64 | `StepFrom` models the loop of `_step_params` from a given position on: Stepping never writes an unused parameter, nor one before the loop's position. |
| Animation.StepFromFails | src/fractals/abstract/animated_fractal.py:62-68 | Stepping fails exactly when some used config has no defined speed. |
| Animation.StepFromMoves | src/fractals/abstract/animated_fractal.py:62-68 | A used parameter moves by exactly one step unless an earlier config failed, and then it is untouched. |
| Animation.StepParamsMeaning | src/fractals/abstract/animated_fractal.py:60-68 | `StepParams` models `_step_params`: A step moves every used parameter by one step of its own config and leaves unused ones alone. On an error the failing parameter is untouched. |
| Animation.JumpsMeaning | src/fractals/abstract/animated_fractal.py:85-95 | `ShowStart` and `ShowEnd` model `_show_start_animation_state` and `_show_end_animation_state` through the shared loop `JumpFrom`: The start and end jumps set exactly the used parameters, to their start or end values. |
| Animation.JumpsIdempotent | src/fractals/abstract/animated_fractal.py:91-95 | Jumping to the end twice is jumping once, and likewise for the start. |
| Animation.RecordAnimation | src/fractals/abstract/animated_fractal.py:72-77 | Recording jumps to the start, then captures `1 + ceil(duration * 60)` frames. Frame `k` shows the values after `k` steps, and the first error stops the recording. |
| Animation.RecordingSteps | src/fractals/abstract/animated_fractal.py:76-77 | The default duration gives 60 steps, and any positive duration gives at least one. |
| Animation.DurationFromSpinBox | src/fractals/abstract/animated_fractal.py:46-51 | The spin box's lower bound of 1 keeps the step count at 60 or more, so the additive speed is always defined. |
| Animation.ParameterWalks | src/fractals/abstract/animated_fractal.py:61-68 | `Advance` gives the values after `k` calls of `_step_params`, and `Walk` is one parameter's own walk: After `k` steps each used parameter has taken `k` steps of its own config, independently of the others. |
| Animation.AdditiveWalk | src/fractals/julia_2d.py:29-36 | An additive walk of `k` steps moves `k` times the speed. |
| Animation.GeometricWalk | src/fractals/julia_2d.py:37-40 | A geometric walk of `k` steps multiplies by `(end / start) ** (k / steps)`. |
| Animation.AdditiveArrival | src/fractals/abstract/animated_fractal.py:61-77 | An additive walk of `ceil(steps)` steps lands on the end exactly when `steps` is whole. |
| Animation.GeometricArrival | src/fractals/julia_2d.py:37-40 | A geometric walk of a whole number `steps` of steps lands on the end. |
| Animation.AdditiveEndsOnEnd | src/fractals/abstract/animated_fractal.py:61-77 | A recording ends on the end value of a moving additive parameter if and only if `duration * 60` is whole. |
| Animation.GeometricEndsOnEnd | src/fractals/abstract/animated_fractal.py:61-77 | With a whole `duration * 60`, a geometric parameter ends exactly on its end value. |
| AnimWidget.Fresh | src/fractals/julia_2d.py:28-41 | A config is created with its kind only; `use`, `start` and `end` are absent. |
| AnimWidget.Read | src/fractals/abstract/animated_fractal.py:62-66 | A config reads as complete exactly when `use` is present and, if it is true, `start` and `end` are too; otherwise the missing key is reported. |
| AnimWidget.Clamp | src/frontend/components/animation_param_widget.py:33-39 | A spin box keeps a value inside its range: values inside are kept and values outside go to the nearer bound. |
| AnimWidget.Construct | src/frontend/components/animation_param_widget.py:22-71 | After construction `use` is false, `start` and `end` both hold the converted `initial`, the box is unticked and the inputs are disabled. |
| AnimWidget.Check | src/frontend/components/animation_param_widget.py:24-28 | Ticking stores `use` only on a change of state. The boxes and bounds are kept. |
| AnimWidget.EditStart | src/frontend/components/animation_param_widget.py:33-42 | An edit is clamped into the scope. The converted value is stored only when what the box shows changes. |
| AnimWidget.EditEnd | src/frontend/components/animation_param_widget.py:44-53 | The same as `EditStart`, for the end box. |
| AnimWidget.ConstructConsistent | src/frontend/components/animation_param_widget.py:22-71 | Right after construction, the enabled state follows the check box, both boxes show values inside their range, and the config is complete and unused. |
| AnimWidget.ConstructOutOfRange | src/frontend/components/animation_param_widget.py:41-53 | An `initial` outside the scope is stored unclamped by the hand-run handlers, while the boxes show the clamped value. |
| AnimWidget.ApplyKeeps | src/frontend/components/animation_param_widget.py:73-75 | Every user action keeps the range, keeps both boxes inside it, keeps the inputs enabled exactly when the box is ticked, keeps `use` in step with the box, and keeps a synced config synced. |
| AnimWidget.ApplyAllKeeps | src/frontend/components/animation_param_widget.py:22-75 | `Apply` runs the handler of one user action and `ApplyAll` a sequence of them: Through any sequence of actions the range is kept and boxes inside it stay inside it; the other invariants hold and the config stays readable. |
| AnimWidget.ExpWidgetDefinesSpeed | src/fractals/julia_2d.py:165-172 | The zoom widget stores `exp` of its values, so both bounds are positive and the geometric speed is defined whatever the user does. |
| AnimWidget.ExpKeepsPositive | src/fractals/julia_2d.py:169-170 | Edits through an `exp` widget keep every stored bound positive. |
| Sliders.ScaleRoundTrip | src/fractals/julia_3d.py:126-131 | `ToPosition` models a slider's initial position and `ToValue` its handler's conversion: A linear slider's initial position and its handler are mutually inverse. |
| Sliders.ScaleMonotone | src/fractals/julia_3d.py:126-131 | With a positive scale, a larger position stands for a larger value. |
| Sliders.Mirror | src/fractals/julia_3d.py:160-165 | A mirrored slider's position and value add up to the mirror constant. |
| Sliders.MirrorInvolution | src/fractals/julia_3d.py:160-165 | The mirror undoes itself and maps a scope symmetric about half the constant onto itself. |
| Sliders.PanelScalesInvertible | src/fractals/mandelbox.py:291-314 | The thousandths, five-thousandths, half-turn and full-turn scales are invertible. |
| Sliders.HalfTurnsRange | src/fractals/julia_2d.py:126-131 | Arg(C) positions 0 to 10000 cover angles 0 to 2 pi, ends included. |
| Sliders.FullTurnsRange | src/fractals/julia_3d.py:172-177 | Rotate-Y positions 0 to 10000 cover one full turn, ends included. |
| Sliders.AoRange | src/fractals/julia_3d.py:160-165 | The ambient-occlusion slider maps 100..500 onto 100..500 and its conversion undoes itself. |
| Sliders.RotationPositionAsWritten | src/fractals/abstract/fractal_2d.py:117-122 | The rotation slider starts at the angle itself, which the handler reads as `angle / 5000`. |
| Sliders.SliderPosition | src/frontend/components/named_slider.py:26 | A fractional initial position handed to `setValue` loses its fraction toward zero: the integer lies within 1 of the position, on the side of 0. |
| Sliders.RotationPositionMisplaced | src/fractals/abstract/fractal_2d.py:117-122 | At rotation 0.5 (the angle is in half turns, so a quarter turn) the slider is built at position 0.5, which the handler would read as 0.0001. The slider drops the fraction, so it stands at position 0, that is for 0.0, not 0.5. |
| Sliders.RotationSliderShowsZero | src/fractals/abstract/fractal_2d.py:117-122 | For any rotation strictly between -1 and 1 the slider as built stands at position 0 and shows 0.0, which is right only for rotation 0. |
| Sliders.RotationPosition | src/fractals/abstract/fractal_2d.py:117-122 | The corrected initial position is read back by the handler as the angle, and it lies within -5000..5000 for angles in [-1, 1]. |
| Julia2D.Init | src/fractals/julia_2d.py:22-41 | The defaults: the view's, C at (pi, 0.7) in polar form, power 2, and unseeded configs for `arg_c`, `abs_c` and `zoom_factor`. |
| Julia2D.SetArgC | src/fractals/julia_2d.py:47-50 | The setter changes only the angle of C. |
| Julia2D.SetAbsC | src/fractals/julia_2d.py:56-59 | The setter changes only the modulus of C. |
| Julia2D.SetPower | src/fractals/julia_2d.py:70-73 | The setter changes only the power. |
| Julia2D.PolarSettersIndependent | src/fractals/julia_2d.py:47-59 | The two polar setters commute, and each leaves the other component alone. |
| Julia2D.CartesianC | src/fractals/julia_2d.py:61-64 | C lies at distance `abs_c` from the origin in direction `arg_c`: its squared length is `abs_c` squared whenever cos^2 + sin^2 = 1. |
| Julia2D.CartesianModulus | src/fractals/julia2d.py:38-41 | Cartesian C has squared length `abs_c` squared; at angle 0 it is `(abs_c, 0)`, and the default `(pi, 0.7)` gives `(-0.7, 0)`. |
| Julia2D.Save | src/fractals/julia_2d.py:75-93 | The record's `c_polar` entry holds `arg` and `abs` of C, and `power` holds the power. |
| Julia2D.Load | src/fractals/julia_2d.py:95-116 | Loading never writes the animation configs or the recorded cursor. |
| Julia2D.SaveLoadRoundTrip | src/fractals/julia_2d.py:75-116 | Loading a saved record restores every saved field. Only the recorded cursor and the animation configs stay as they were. |
| Julia2D.LoadWithoutC | src/fractals/julia_2d.py:109-116 | A record without `c_polar` raises only after the view and power are assigned, and leaves C as it was. |
| Julia2D.AnimValuesRoundTrip | src/fractals/julia_2d.py:28-41 | Writing the animated values and reading them back gives them unchanged, and the other fields are kept. |
| Julia2D.Configs | src/fractals/julia_2d.py:28-41 | The configs are read exactly when all three widgets are readable, and come in the order `arg_c`, `abs_c`, zoom. |
| Julia2D.InitConfigsUnread | src/fractals/julia_2d.py:28-41 | Before the widgets run, no config can be read: `use` is missing. |
| Julia2D.AnimationControls | src/fractals/julia_2d.py:147-173 | The three widgets store their values into the configs; the zoom widget stores `exp` of its values. |
| Julia2D.ControlsSeedConfigs | src/fractals/julia_2d.py:147-173 | After the widgets are built, every config is readable and unused, with start equal to end: 0.1 for C and `exp(0) = 1` for the zoom. |
| Julia2D.AnimStep | src/fractals/abstract/animated_fractal.py:60-70 | A step succeeds exactly when the three configs are readable, and each animated value then takes its config's next value. |
| Julia2D.AnimJump | src/fractals/abstract/animated_fractal.py:85-95 | A jump succeeds exactly when the three configs are readable, and each animated value then takes the value its config reaches at that frame. |
| Julia2D.JumpToEnd | src/fractals/abstract/animated_fractal.py:91-95 | With all three values animated, the jump to the end sets C to the end angle and modulus and the zoom to its end value. |
| Julia2D.ArgSlider | src/fractals/julia_2d.py:126-131 | The Arg(C) conversions `value / 5000 * pi` and `arg * 5000 / pi` are inverse, and the default angle pi sits at 5000. |
| Julia2D.AbsSlider | src/fractals/julia_2d.py:132-137 | The Abs(C) conversions `value / 5000` and `abs * 5000` are inverse, and 0.7 sits at 3500. |
| Json.Lookup | src/fractals/mandelbrot_2d.py:167-179 | A nested lookup fails only on a key of its path, and finds an entry one level deep. |
| Json.GetReal | src/fractals/mandelbrot_2d.py:167-179 | A float read succeeds exactly when the entry is a number; an integer is accepted. |
| Json.GetInt | src/fractals/mandelbrot_2d.py:167 | An integer read succeeds exactly when the entry is an integer, and yields it. |
| Json.GetBool | src/fractals/mandelbrot_2d.py:169 | A boolean read succeeds exactly when the entry is a boolean, and yields it. |
| Json.ReadBack | src/fractals/mandelbrot_2d.py:144-181 | A written float, integer or boolean reads back unchanged, one level deep or two. |
| Records2D.ViewEntries | src/fractals/mandelbrot_2d.py:145-159 | The record has exactly the eight top-level keys the base saves; the colour and the offset are nested objects. |
| Records2D.LoadView | src/fractals/mandelbrot_2d.py:163-181 | Loading never writes the recorded cursor. |
| Records2D.LoadColorAndRest | src/fractals/mandelbrot_2d.py:172-179 | Loading the colour and the later entries never writes the recorded cursor. |
| Records2D.ViewEntriesReadBack | src/fractals/mandelbrot_2d.py:145-159 | Every written entry reads back as the value it came from, even with extra keys present. |
| Records2D.ColorEntriesReadBack | src/fractals/mandelbrot_2d.py:150-155 | The four colour channels read back from the nested object. |
| Records2D.LoadViewRoundTrip | src/fractals/mandelbrot_2d.py:144-181 | Loading a saved record restores the view and the power; only the recorded cursor stays as it was. |
| Records2D.LoadViewWithoutPower | src/fractals/mandelbrot_2d.py:167-177 | A record without `power` raises `KeyError` after the first eight assignments. The power, offset and antialiasing keep their values. |
| Records2D.ColorThenNoPower | src/fractals/mandelbrot_2d.py:172-177 | Past the first four entries, a record without `power` yields the colour and then `KeyError`. |
| Orbit.SquareSquaresModulus | src/fractals/mandelbrot_2d.py:89-90 | `Square` models `zsqr`: The complex square `zsqr` squares the modulus: its squared length is the square of the input's squared length. |
| Orbit.CountFromMeaning | src/fractals/mandelbrot_2d.py:95-104 | From `i` written points, the loop runs to the first escaping iterate, or to `max_iter`. |
| Orbit.CountMeaning | src/fractals/mandelbrot_2d.py:95-104 | `Iterate` gives the iterates of the loop in `_update_perturbation_values`, and `Count` the number of points it writes: The number of points written is the position of the first iterate with `|z|^2 >= 512`, or `max_iter`. No earlier iterate escapes. |
| Orbit.FirstPoints | src/fractals/mandelbrot_2d.py:92-99 | The first point is `c` itself, and the second is `c^2 + c`. |
| Orbit.Put | src/fractals/mandelbrot_2d.py:100-101 | Writing a point keeps the array length. |
| Orbit.WriteNextPoint | src/fractals/mandelbrot_2d.py:97-102 | Writing point `i + 1` at `2i` and `2i + 1` turns the array holding `i` points into the one holding `i + 1`; the rest stays 5. |
| Orbit.UpdateOrbit | src/fractals/mandelbrot_2d.py:85-104 | The array holds 100000 entries: the first `min(count, 50000)` points pairwise, then 5. `IndexError` is raised exactly when the orbit outgrows the array. |
| Orbit.NothingWritten | src/fractals/mandelbrot2d.py:74-85 | With `max_iter <= 0`, the array is all 5. |
| Orbit.NoOverflowWithinCapacity | src/fractals/mandelbrot_2d.py:28 | With `max_iter` at most 50000, the orbit fits the array. |
| Orbit.ZeroOrbit | src/fractals/mandelbrot2d.py:84-93 | For `c = 0` every iterate is 0 and all `max_iter` points are written. |
| Orbit.ZeroIterates | src/fractals/mandelbrot2d.py:86-88 | Every iterate of 0 is 0. |
| Orbit.ZeroCountFrom | src/fractals/mandelbrot2d.py:85-93 | For `c = 0` the loop never stops early. |
| Mandelbrot2D.Init | src/fractals/mandelbrot_2d.py:22-28 | The view's defaults, power 2, perturbation off, and 100000 zeros. |
| Mandelbrot2D.SetPower | src/fractals/mandelbrot2d.py:39-42 | The setter changes only the power. |
| Mandelbrot2D.SetPerturbation | src/fractals/mandelbrot2d.py:48-51 | The setter changes only the switch. |
| Mandelbrot2D.SettersCommute | src/fractals/mandelbrot_2d.py:46-58 | The two setters commute. |
| Mandelbrot2D.Save | src/fractals/mandelbrot_2d.py:144-161 | The record has exactly the keys of the saved view with its power; `power` and `max_iter` hold the current values. |
| Mandelbrot2D.Load | src/fractals/mandelbrot_2d.py:163-181 | The load never touches the switch or the orbit, nor the recorded cursor. |
| Mandelbrot2D.SaveLoadRoundTrip | src/fractals/mandelbrot_2d.py:144-181 | Loading a saved record restores the view and the power. The switch, the orbit and the cursor stay as they were. |
| Mandelbrot2D.LoadWithoutPower | src/fractals/mandelbrot_2d.py:163-181 | Loading is not atomic: a record without `power` raises after the earlier fields were assigned, and the later ones keep their values. |
| Mandelbrot2D.Paint | src/fractals/mandelbrot_2d.py:133-140 | The orbit is recomputed only with perturbation on, and is then the orbit of the offset; with it off, the array is kept. |
| Julia3D.Init | src/fractals/julia_3d.py:23-34 | The defaults: 7 iterations, C with modulus 0.8776 at angles 2 and 2.67, depth 400, ambient occlusion 120, power 7, and no y rotation. |
| Julia3D.Get | src/fractals/julia_3d.py:36-115 | Each getter yields a value of its property's type. |
| Julia3D.Set | src/fractals/julia_3d.py:36-115 | A setter writes its own property and nothing else. |
| Julia3D.StatesAgreeOnParams | src/fractals/julia_3d.py:36-115 | A state is determined by its view and its properties, so `Set`'s frame is complete. |
| Julia3D.GetC | src/fractals/julia_3d.py:224-226 | C lies at distance `abs_c` from the origin, at angles `argx_c` and `argy_c`: its squared length is `abs_c` squared whenever cos^2 + sin^2 = 1. |
| Julia3D.GetCNorm | src/fractals/julia_3d.py:224-226 | C's squared length is `abs_c` squared. |
| Julia3D.SphericalNorm | src/fractals/julia_3d.py:226 | A spherical point of radius `r` has squared length `r^2`, given cos² + sin² = 1. |
| Julia3D.Save | src/fractals/julia_3d.py:228-258 | The record holds no offset, central lines or rotation angle. |
| Julia3D.LoadColor | src/fractals/julia_3d.py:267-274 | A load without error read all four channels, and gives the colour they hold. A missing red channel stops the load with the colour unchanged. |
| Julia3D.LoadHead | src/fractals/julia_3d.py:264-266 | The iteration limit and the camera angles are loaded; nothing else is assigned. |
| Julia3D.LoadMiddle | src/fractals/julia_3d.py:275-280 | Zoom, power, cut and C are loaded; nothing else is assigned. |
| Julia3D.LoadTail | src/fractals/julia_3d.py:281-285 | Depth, y rotation, ambient occlusion, shadows and antialiasing are loaded; nothing else is assigned. |
| Julia3D.Load | src/fractals/julia_3d.py:260-286 | The offset, central lines, rotation angle and cursor are never written. |
| Julia3D.LoadColorRoundTrip | src/fractals/julia_3d.py:233-244 | A saved colour loads back. |
| Julia3D.SavedColors | src/fractals/julia_3d.py:233-244 | A saved record holds both colours, channel by channel. |
| Julia3D.SavedHead | src/fractals/julia_3d.py:230-232 | A saved record reads back the iteration limit and the angles. |
| Julia3D.SavedZoomPowerCut | src/fractals/julia_3d.py:245-247 | A saved record reads back the zoom, the power and the cut. |
| Julia3D.SavedC | src/fractals/julia_3d.py:248-250 | A saved record reads back C's modulus and angles. |
| Julia3D.SavedDepthRotationAo | src/fractals/julia_3d.py:251-253 | A saved record reads back the depth, the y rotation and the ambient occlusion. |
| Julia3D.SavedSwitches | src/fractals/julia_3d.py:254-255 | A saved record reads back the shadows and antialiasing switches. |
| Julia3D.SaveLoadRoundTrip | src/fractals/julia_3d.py:228-286 | Loading a saved record restores all sixteen saved entries, and keeps the rest. |
| Julia3D.LoadMiddleRoundTrip | src/fractals/julia_3d.py:275-280 | The middle stage reads back what was saved. |
| Julia3D.LoadTailRoundTrip | src/fractals/julia_3d.py:281-285 | The last stage reads back what was saved. |
| Julia3D.HeadDespiteBackground | src/fractals/julia_3d.py:264-270 | Replacing the saved background does not change how the first entries load. |
| Julia3D.LoadWithoutBackgroundRed | src/fractals/julia_3d.py:264-271 | A record missing the background's red channel raises after the limit, the angles and the colour are assigned, and leaves the rest. |
| Julia3D.PanelSliders | src/fractals/julia_3d.py:126-177 | The Abs(C), ArgX(C), ArgY(C), AO and Rotate-Y conversions undo their initial positions. |
| Julia3D.DefaultsWithinScopes | src/fractals/julia_3d.py:126-177 | For the defaults, every slider starts inside its scope. |
| Mandelbrot3D.Init | src/fractals/mandelbrot_3d.py:14-23 | The defaults: 10 iterations, power 9, black background, no z rotation, no cut, shadows on, depth 400, ambient occlusion 150. |
| Mandelbrot3D.Get | src/fractals/mandelbrot_3d.py:25-77 | Each getter yields a value of its property's type. |
| Mandelbrot3D.Set | src/fractals/mandelbrot_3d.py:25-77 | A setter writes its own property only; the view, the angles and the background are never written. |
| Mandelbrot3D.StatesAgreeOnParams | src/fractals/mandelbrot_3d.py:25-77 | A state is determined by its view, angles, background and properties. |
| Mandelbrot3D.PanelSliders | src/fractals/mandelbrot_3d.py:88-122 | The Z-rotation and AO conversions undo their initial positions, and every default starts inside its scope. |
| Camera.Init | src/fractals/mandelbox.py:32-43 | Speed 0.1, offset (0, 0, 50), every flag down, not moving. |
| Camera.Displacement | src/fractals/mandelbox.py:129-147 | Up and down step vertically by the speed. Left and right stay level. |
| Camera.OppositesCancel | src/fractals/mandelbox.py:129-147 | Opposite directions step by opposite vectors. |
| Camera.ForwardLength | src/fractals/mandelbox.py:130-133 | The forward step has squared length `speed^2`. |
| Camera.DoMove | src/fractals/mandelbox.py:129-147 | Only the offset changes. With no flag raised it stays put, and with no horizontal flag raised only its height can change. |
| Camera.PairCancels | src/fractals/mandelbox.py:129-147 | Raising a direction together with its opposite moves the camera as raising neither. |
| Camera.SidewaysAndVertical | src/fractals/mandelbox.py:138-147 | Left and right never change the height. Up and down change only the height, by the speed. |
| Camera.KeyDirection | src/fractals/mandelbox.py:180-193 | W, S, A, D, Shift and Control name the six directions; other keys name none. |
| Camera.KeyPress | src/fractals/mandelbox.py:180-193 | A press raises its key's flag in either mode; other keys change nothing. |
| Camera.KeyRelease | src/fractals/mandelbox.py:195-219 | Outside moving mode nothing changes. While moving, the flag is lowered, and Escape lowers every flag and leaves the mode. |
| Camera.PressReleaseRoundTrip | src/fractals/mandelbox.py:180-209 | While moving, pressing and releasing a key whose flag was down restores the flags. |
| Camera.MousePress | src/fractals/mandelbox.py:161-174 | A left press outside moving mode enters it with the cursor centred. A press while moving changes nothing. No press leaves the mode or changes anything else. |
| Camera.MouseMove | src/fractals/mandelbox.py:149-159 | While moving, the heading turns by `dx / 100`, and the pitch turns only if it stays inside (-pi/2, pi/2). Outside moving mode nothing changes. |
| Camera.Wheel | src/fractals/mandelbox.py:176-178 | The speed changes only if the result is positive. |
| Camera.HandleAllValid | src/fractals/mandelbox.py:149-219 | `Handle` dispatches one event to the handlers of `mandelbox.py`, and `HandleAll` a sequence of events: No sequence of events makes the speed non-positive or takes the pitch out of its bound. |
| Mandelbox.Init | src/fractals/mandelbox.py:22-43 | The defaults: 20 iterations, depth 300, ambient occlusion 250, folding 4.245, scale 2.051, radii 5 and 3.238, no shadows, and the camera's defaults. |
| Mandelbox.Get | src/fractals/mandelbox.py:48-109 | Each getter yields a value of its property's type. |
| Mandelbox.Set | src/fractals/mandelbox.py:48-109 | A setter writes its own property only. |
| Mandelbox.StatesAgreeOnParams | src/fractals/mandelbox.py:48-109 | A state is determined by its view, background, camera and properties. |
| Mandelbox.SetOffset | src/fractals/mandelbox.py:111-118 | The setter changes only the camera's offset. |
| Mandelbox.SetSpeed | src/fractals/mandelbox.py:120-127 | The setter changes only the camera's speed, to any value: a speed at or below 0 leaves the camera invalid, which the wheel never does. |
| Mandelbox.PanelSliders | src/fractals/mandelbox.py:273-314 | The AO mirror and the thousandths conversions undo their initial positions, and every default starts inside its scope. |
| Registry.Names | src/frontend/main_window.py:114 | The labels, in item order. |
| Registry.Registered | src/frontend/main_window.py:110-111 | The fractals, in index order. |
| Registry.Register | src/frontend/main_window.py:113-117 | A taken name is an error that keeps the list. Otherwise the fractal is appended and earlier entries keep their order. |
| Registry.RegisterKeepsDistinct | src/frontend/main_window.py:113-117 | Successful registration keeps the names pairwise distinct. |
| Registry.RegisterAllMeaning | src/frontend/main_window.py:113-117 | `RegisterAll` calls `register_fractal` for each new item in turn, stopping at the first error: Registering a list in turn succeeds exactly when all names are distinct. The new items then follow the old ones. |
| Legacy2D.Lookup | src/fractals/__fractal_2d.py:260-261 | A settings lookup fails with `KeyError` exactly on a missing key. |
| Legacy2D.Merge | src/fractals/__fractal_2d.py:31-39 | With no settings the defaults are taken. Otherwise every given entry is kept and every missing default is added. |
| Legacy2D.MergeIdempotent | src/fractals/__fractal_2d.py:31-36 | Merging twice is merging once, and settings that hold every default come through unchanged. |
| Legacy2D.AddFrom | src/fractals/__fractal_2d.py:296-298 | The element-wise addition covers the value's indices and stops with `IndexError` where the target is too short. |
| Legacy2D.ChangeParameter | src/fractals/__fractal_2d.py:294-302 | Without difference the entry is overwritten. With it the value is added element-wise, or as a number when its length is at most 1. Only the named entry changes. |
| Legacy2D.DifferenceUndone | src/fractals/__fractal_2d.py:294-300 | Adding a list and then its negation restores the entry. |
| Legacy2D.RotateIgnoresDirection | src/fractals/__fractal_2d.py:335-346 | `RotatePoint` models `_rotate_point`: `clock_wise` makes no difference, and the legacy rotation is `rotate_point` about the offset. |
| Legacy2D.ViewOf | src/fractals/__fractal_2d.py:322-333 | The newer view with the settings' offset and zoom. |
| Legacy2D.ScaledPointIsTranslatePoint | src/fractals/__fractal_2d.py:322-333 | `ScaledPoint` models `_get_scaled_points`: A centred, rotated and scaled point lands where the newer `_translate_point` sends it. |
| Legacy2D.ChangeOffset | src/fractals/__fractal_2d.py:276-292 | Only the offset entry changes; zoom and angle stay. An unscaled absolute change sets the offset to the point. |
| Legacy2D.ChangeOffsetUndone | src/fractals/__fractal_2d.py:285-290 | A relative scaled change is undone by the opposite change. |
| Legacy2D.MouseMove | src/fractals/__fractal_2d.py:157-164 | Without exactly the left button nothing changes. With it, a redraw is requested, the rotated cursor is recorded, and only the offset entry may change. |
| Legacy2D.MousePress | src/fractals/__fractal_2d.py:167-176 | A left press only records the rotated cursor. A right press requests a redraw and keeps the cursor. Other buttons change nothing. Only the offset entry can change. |
| Legacy2D.RightClickAsNewer | src/fractals/__fractal_2d.py:172-175 | A right click moves the offset as the newer widget's right click does. |
| Legacy2D.Wheel | src/fractals/__fractal_2d.py:183-185 | Only the zoom entry changes; a redraw is requested and the cursor and animation length are kept. |
| Legacy2D.WheelCompose | src/fractals/__fractal_2d.py:183-185 | Wheel events compose into one with the summed delta and keep the zoom positive. |
| Legacy2D.FirstDragStep | src/fractals/__fractal_2d.py:157-164 | At rotation 0 a drag step moves the offset by the scaled displacement of `cursor - offset`. |
| Legacy2D.DragRoundTripFails | src/fractals/__fractal_2d.py:157-169 | A drag from `a` to `b` and back leaves the offset moved by `-(b - a) f^2`. |
| Legacy2D.DragRoundTripFailsExample | src/fractals/__fractal_2d.py:157-169 | At zoom 1 in a 2 x 2 widget, one pixel right and back leaves the offset at (-1, 0). |
| Legacy2D.CorrectedMouseMove | src/fractals/__fractal_2d.py:157-164 | The corrected drag moves the offset as the newer widget's drag does. |
| Legacy2D.CorrectedDragRoundTrip | src/fractals/__fractal_2d.py:157-169 | With the correction, a drag from `a` to `b` and back restores the offset. |
| Legacy2D.IterateAdds | src/fractals/__fractal_2d.py:262-263 | `Iterate` applies a parameter's step lambda `n` times: `n + m` steps are `m` steps after `n`. |
| Legacy2D.AdditiveIterate | src/fractals/__fractal_2d.py:262-263 | An additive step function walks in a straight line. |
| Legacy2D.Animate | src/fractals/__fractal_2d.py:268-274 | `Select` models the lookup of the animated parameter, its step function and its speed: The selected parameter takes one step and nothing else changes. The redraw flag is raised even when a lookup fails. |
| Legacy2D.AnimateTimesMeaning | src/fractals/__fractal_2d.py:268-274 | `AnimateTimes` is `n` calls of `animate`: `n` calls leave the selected parameter `n` steps further on. |
| Legacy2D.UpdateFrame | src/fractals/__fractal_2d.py:256-266 | The reported end value is the step function iterated `animation_length * 60` times. |
| Legacy2D.RecordFrames | src/fractals/__fractal_2d.py:370-374 | Frame `i` animates only in the window, then records the value it shows. |
| Legacy2D.SaveVideo | src/fractals/__fractal_2d.py:370-372 | As written, `60 L + 1` steps are taken, ending one step past the reported end value. |
| Legacy2D.SaveVideoCorrected | src/fractals/__fractal_2d.py:370-372 | With the corrected window, the video ends exactly on the reported end value. |
| Legacy2D.SaveVideoOvershoots | src/fractals/__fractal_2d.py:370-372 | The overshoot happens whenever a step moves: a one-second rotation ends at 0.061, not 0.06. |
| Legacy2D.Split | src/fractals/__fractal_2d.py:409 | One more piece than separators, none holding the separator, and joining gives the text back. |
| Legacy2D.SplitJoin | src/fractals/__fractal_2d.py:409 | Pieces free of the separator come back out of their join. |
| Legacy2D.SplitPiece | src/fractals/__fractal_2d.py:409 | A text free of the separator splits into itself. |
| Legacy2D.SplitPrefix | src/fractals/__fractal_2d.py:409 | A first piece free of the separator comes off the front. |
| Legacy2D.InputFields | src/fractals/__fractal_2d.py:410-419 | Empty fields are skipped. A number is assigned to its target, and anything else raises `ValueError`, keeping earlier assignments. |
| Legacy2D.InputPosition | src/fractals/__fractal_2d.py:406-419 | A rejected dialog changes nothing. An accepted text with fewer than two separators raises. On success each non-empty field holds the new x, y or zoom, and each empty one keeps the old value. |
| Legacy2D.EmptyFieldsChangeNothing | src/fractals/__fractal_2d.py:406-419 | A text of separators only changes nothing and raises nothing. |
| LegacyFractals.PlaneParams | src/Fractals.py:93-96 | The 2D classes animate the zoom and the rotation. |
| LegacyFractals.JuliaParams | src/Fractals.py:193-198 | The Julia set animates its zoom, the rotation and both polar components of C. |
| LegacyFractals.SpaceParams | src/Fractals.py:284-287 | The 3D Mandelbulb animates the two camera angles only. |
| LegacyFractals.Julia3Params | src/Fractals.py:372-378 | The 3D Julia set animates the angles and the three components of C. |
| LegacyFractals.BoxParams | src/Fractals.py:551-556 | The Mandelbox animates its radii, folding and scale. |
| LegacyFractals.ZoomIterate | src/Fractals.py:29-32 | `ZoomTimes` models the 2D classes' `ZOOM` lambda: `n` zoom steps multiply by `1.01 ** (n sp)`. |
| LegacyFractals.JuliaZoomIterate | src/Fractals.py:194 | `JuliaZoom` models the Julia set's `ZOOM` lambda: `n` Julia zoom steps raise to `1.01 ** (n sp)`. |
| LegacyFractals.JuliaZoomFixedPoint | src/Fractals.py:194 | 1 is a fixed point of the Julia zoom step. |
| LegacyFractals.PlaneRates | src/Fractals.py:193-198 | Every other 2D parameter walks in a straight line at its lambda's rate. |
| LegacyFractals.SpaceRates | src/Fractals.py:372-378 | The camera angles walk at 0.05 per unit of speed, C's components at 0.1. |
| LegacyFractals.BoxRates | src/Fractals.py:543-556 | Radii, folding and scale walk at 0.02, and at the default speed 0 the animation stands still. |
| LegacyFractals.JuliaDefaults | src/Fractals.py:174-191 | The Julia defaults, with tuples as lists. |
| LegacyFractals.JuliaDefaultAnimationStill | src/Fractals.py:174-198 | The default animation changes nothing: the zoom starts at its fixed point 1. |
| LegacyFractals.SpaceZoomNotAnimated | src/Fractals.py:256-287 | The 3D Mandelbulb selects the zoom, which its map cannot animate: `animate` raises `KeyError`. |
| LegacyFractals.PairOf | src/Fractals.py:160-166 | `OFFSET` read as a pair: a list of at least two numbers, otherwise an error. |
| LegacyFractals.GetPerturbationValues | src/Fractals.py:152-170 | A missing `MAX_ITER` keeps the previous array and raises `KeyError`. Otherwise the array has 100000 entries: all 5 for an unreadable limit or offset, or a limit of at most 0 (a missing `OFFSET` raises `KeyError`, and with one present a non-numeric limit raises `TypeError`); else the orbit of the offset, with `IndexError` exactly when it outgrows the array. |
| LegacyFractals.FirstMissing | src/Fractals.py:113-122 | A run of `settings[key]` reads stops at the first absent key: none is reported exactly when every key is present, and a reported key is absent while every key before it is present. |
| LegacyFractals.PaintOrbit | src/Fractals.py:113-126 | The uniform uploads read `MAX_ITER`, `ZOOM`, `LINES`, `PHI`, `COLOR`, `POWER`, `PERTURBATION`, `OFFSET` and `AA` in that order, and the first absent one raises `KeyError` with the array untouched. With all present, the array is kept while `PERTURBATION` is falsy. Otherwise it holds 100000 entries: `TypeError` and all 5s for a non-numeric `MAX_ITER`; for a readable offset, no error exactly when the limit is at most 0 or the orbit fits, and then the orbit of the offset. |
| LegacyFractals.JuliaC | src/Fractals.py:249-253 | C is `(ABS_C cos ARG_C, ABS_C sin ARG_C)`; a missing entry is `KeyError` and a non-number `TypeError`. |
| LegacyFractals.JuliaCModulus | src/Fractals.py:249-253 | C's modulus is `ABS_C`, as in the newer widget. |
| LegacyFractals.Julia3C | src/Fractals.py:441-443 | C exists exactly when the three entries are numbers. Missing entries raise `KeyError` in the order `ARGX_C`, `ARGY_C`, `ABS_C`. |
| LegacyFractals.SphericalPointNorm | src/Fractals.py:443 | `SphericalPoint` models the spherical C of the 3D Julia set: The spherical point's length is its radius. |
| LegacyFractals.Julia3CNorm | src/Fractals.py:441-443 | C's length is `ABS_C`. |
| LegacyFractals.Julia3CIsGetC | src/Fractals.py:441-443 | C equals the newer widget's `_get_c` of the same values. |
| LegacyFractals.InitCamera | src/Fractals.py:522-568 | The defaults equal the newer camera's at angles 0, and are valid. |
| LegacyFractals.KeyDirection | src/Fractals.py:636-649 | Space is up, and Shift names no direction. |
| LegacyFractals.KeyPress | src/Fractals.py:636-649 | A press raises the redraw flag and its key's flag. |
| LegacyFractals.KeyPressIdempotent | src/Fractals.py:636-649 | Pressing twice is pressing once, and the raised flag matches the newer widget's apart from Space and Shift. |
| LegacyFractals.KeyRelease | src/Fractals.py:651-683 | A release lowers the flag in either mode. Escape while moving lowers all flags and leaves the mode. |
| LegacyFractals.PressReleaseRoundTrip | src/Fractals.py:636-663 | Press then release of a lowered flag restores the camera in either mode. |
| LegacyFractals.MousePress | src/Fractals.py:619-630 | Any press outside moving mode enters it. In either mode the cursor is re-measured. |
| LegacyFractals.MouseMove | src/Fractals.py:608-617 | Mouse look turns the camera as the newer widget's does. |
| LegacyFractals.Wheel | src/Fractals.py:632-634 | The speed changes as the newer wheel changes it, so it stays positive. |
| LegacyFractals.CheckMove | src/Fractals.py:570-601 | The offset moves as in the newer `do_move`. With no flag raised nothing changes, not even the redraw flag. |
| LegacyFractals.CheckMovePairsCancel | src/Fractals.py:570-601 | Opposite flags cancel, and speed, angles and flags are kept. |
| LegacyFractals.HandleAllValid | src/Fractals.py:607-683 | `Handle` dispatches one event as `eventFilter` does, and `HandleAll` a sequence of events: No event sequence makes `SPEED` non-positive or `THETA` leave (-pi/2, pi/2). |
| LegacyFractals.InputPosition | src/Fractals.py:717-729 | Fields 0, 1 and 2 set the offset's x, y and z, and empty fields are skipped. |

## Left out

- OpenGL: shader compilation, `paintGL` uniform uploads and buffer transfers. Of the uploads, only the settings reads and their `KeyError`s are modelled (`LegacyFractals.PaintOrbit`), along with the orbit array's contents.
- Qt widgets and layout: colour pickers, message boxes (the legacy quit dialog on Escape changes no modelled state), status-bar text, the combo box of `Window.py`, and tab building. The `animation_param_widget.py` handler contract is the exception; it is modelled.
- Files and video: JSON text and files, screenshots, `save_position`, ffmpeg and `util/create_video.py`, and file dialogs. Frames are modelled as the parameter values they show.
- Cursor grabbing, warping and recentring, and the 16 ms timer of `mandelbox.py`. The cursor position after a warp is a parameter.
- Floating point: values are `real`, and rounding is not modelled. `sin`, `cos`, `**`/`pow` and `exp` are parameters constrained only by the laws in `RealMath`.
- `util/use_setter.py` reflection: setters are direct field updates.
- The capability mixins and `burning_ship_2d.py`: these hold only setters, Qt controls and GL uploads. The burning ship's legacy zoom and rotation lambdas are the same as the legacy Mandelbrot's.
- `fractals/__fractals.py`: a line-for-line duplicate of the legacy Mandelbox that cannot be imported. `FractalEngine` is not part of this model; `Legacy2D` models its relevant parts from `fractals/__fractal_2d.py`.
- Fractal2D.MouseMove: a left drag on an empty widget or at zoom 0 raises `ZeroDivisionError` in `_translate_point` (`abstract/fractal_2d.py:207`); `requires Navigable` excludes it. A zoom of 0 is reachable by loading a record whose `zoom_factor` is 0.
- Fractal2D.MousePress: a right press on an empty widget or at zoom 0 raises `ZeroDivisionError` in `_translate_point` (`abstract/fractal_2d.py:207`); `requires Navigable` excludes it.
- Fractal3D.MouseMove3D: the copied drag handler raises `ZeroDivisionError` on an empty widget or at zoom 0 in its own `_translate_point` (`abstract/fractal_3d.py:185`), as the 2D one does; `requires Navigable` excludes it.
- Fractal3D.MousePress3D: the copied press handler raises `ZeroDivisionError` on a right press on an empty widget or at zoom 0 in its own `_translate_point` (`abstract/fractal_3d.py:185`), as the 2D one does; `requires Navigable` excludes it.
- Julia3D.Init, Mandelbrot3D.Init, Mandelbox.Init and Camera.Init: the initial heading and pitch (`h_angle`, `v_angle`) are parameters. No source file shown assigns them at construction; the only assignment is in `_load_state` (`julia_3d.py:265-266`). So on a fresh widget the source raises `AttributeError` at the first read. The reads are in `paintGL` (`julia_3d.py:193`, `mandelbrot_3d.py:139`, `mandelbox.py:232`), in `_get_state` (`julia_3d.py:231`), in `do_move` (`mandelbox.py:131`) and in the mouse handler (`mandelbox.py:157`). The model does not raise this error.
- Julia2D.AnimStep and Julia2D.AnimJump: `_step_params` and the jumps read each config just before writing its parameter, so an unreadable later config raises `KeyError` after the earlier parameters were written. The model reads all three configs first and reports the error with no state. After construction every config is readable (`Julia2D.ControlsSeedConfigs`), so the difference cannot arise through the widgets.
- Julia2D.Load and the other loaders: Python stores a value of the wrong JSON type blindly. The model reports `WrongType` at that entry instead.
- Legacy2D.Merge: the Python code mutates the given dictionary in place and deep-copies the defaults. The model returns the merged settings as a value. Tuples (colours) are lists in the model.
- Legacy2D.ChangeParameter: with `difference`, a value of length at most 1 fails the `len(value) > 1` test and reaches `self.settings[param] += value` (`__fractal_2d.py:300`), which extends a list, concatenates onto a text, and raises `TypeError` on a number. The model's lists hold numbers only, so a one-character or empty text added to a list, which Python appends character by character, is reported as `TypeError`.
- Legacy2D.MouseMove: the `QPoint` conversion in `_rotate_point` converts the rotated coordinates to integers, or raises and falls back to the unrotated point; neither is modelled. A left drag with `ZOOM` at 0 or on an empty widget raises `ZeroDivisionError` in `_get_scaled_points` (`__fractal_2d.py:330-331`); `requires Navigable` excludes it. `ZOOM` 0 is reachable through the third field of `input_position`.
- Legacy2D.MousePress: a right press with `ZOOM` at 0 or on an empty widget raises `ZeroDivisionError` in `_get_scaled_points` (`__fractal_2d.py:330-331`); `requires Navigable` excludes it.
- Legacy2D.ChangeOffset: a scaled change with `ZOOM` at 0 or on an empty widget raises `ZeroDivisionError` in `_get_scaled_points` (`__fractal_2d.py:330-331`); `requires scale ==> Navigable` excludes it.
- LegacyFractals.GetPerturbationValues: the class-level array that all legacy Mandelbrot widgets share is the `previous` parameter.
- LegacyFractals.PaintOrbit: the conversions inside the uniform uploads are not modelled. These are the `int(...)` of `LINES`, `PERTURBATION` and `AA`, the unpacking of `COLOR` and `OFFSET`, and the argument checks of the OpenGL calls. A value these reject raises before the gate, while the model goes on to the gate with the keys present.
- LegacyFractals.JuliaZoomIterate: for a negative zoom, `x ** y` in Python gives a complex number. The lemma requires a positive zoom.
- LegacyFractals.CheckMove: the legacy camera entries (`PHI`, `THETA`, `SPEED`, `OFFSET`) are assumed to hold numbers, as the defaults have them.
- Animation.Speed: a geometric ratio `end / start` at or below 0 is reported as a domain error. `math.pow` agrees when the ratio is negative and `1 / steps` is not whole (it raises `ValueError`), but returns 0.0 for a zero ratio with `1 / steps > 0`, and a real number for a negative ratio with a whole `1 / steps`. The model does not follow those two values.
- Json.KeyName: the key names are pairwise distinct by inspection. No lemma states it.
- AnimWidget.Clamp: `QDoubleSpinBox` also rounds to two decimals, which is not modelled. Check-box state is a `bool`, not Qt's integer check state.
- Sliders.ToPosition: Qt truncates a fractional initial position to an integer. The general conversion does not apply this; only the rotation slider lemmas do (`Sliders.SliderPosition`).
- Commented-out code, such as the 3D status bar in `fractal_3d.py`, is not modelled.

## Findings

| source | as written | input that shows it | evidently intended | confidence | as-written member | corrected member |
|---|---|---|---|---|---|---|
| src/fractals/__fractal_2d.py:370-372 | frames `i` with `30 <= i <= L * 60 + 30` animate, which is `60 L + 1` steps | `L = 1`, rotation step 0.001 at speed 1 from 0: the video ends at 0.061 | `30 <= i < L * 60 + 30`, ending on the 0.06 that `update_frame` reports | not executed | Legacy2D.SaveVideoOvershoots | Legacy2D.SaveVideoCorrected |
| src/fractals/__fractal_2d.py:157-169 | the drag records `rotate(cursor)`, which already has the offset subtracted, so the next step's displacement includes the offset's own change | zoom 1, a 2 x 2 widget, rotation 0, offset (0, 0): press at (0, 0), move to (1, 0), then back to (0, 0); the offset ends at (-1, 0) | the drag returns the view to where it started, as the newer widget's drag does | not executed | Legacy2D.DragRoundTripFailsExample | Legacy2D.CorrectedDragRoundTrip |
| src/fractals/abstract/fractal_2d.py:117-122 | the rotation slider starts at `rotation_angle` itself, but its handler reads a position as `position / 5000` | rebuild the panel at rotation 0.5: the slider is set to position 0.5, which it truncates to position 0, that is 0.0, not 0.5 | initial position `rotation_angle * 5000` | not executed | Sliders.RotationPositionMisplaced | Sliders.RotationPosition |

=== FILE: animation.dfy ===
/** The animation engine of `fractals/abstract/animated_fractal.py` together with the step and
    speed functions `julia_2d.py` plugs into it.

    Each animated parameter has a configuration: whether it is used, its start and end
    values, and a kind that fixes its step function (`value + speed` or `value * speed`) and
    its speed function. The `_anim_params` dictionary is modelled as the sequence of its
    configs in insertion order, and the current parameter values as a parallel sequence
    (`values[i]` is what `getattr` returns for the i-th key; the keys are distinct, so
    position identifies the parameter). Stepping walks the configs in order and writes each
    used parameter through its setter; recording jumps to the start values, grabs a frame,
    then steps `ceil(duration * 60)` times, grabbing a frame after each step. Frames are
    modelled as the parameter values they show. */
module Animation {
  import opened Basics
  import opened RealMath

  /** The two step/speed pairs in use: `arg_c`/`abs_c` are additive, `zoom_factor` is
      geometric. */
  datatype StepKind = Additive | Geometric

  datatype AnimConfig = AnimConfig(kind: StepKind, use: bool, start: real, end: real)

  /** What a speed function can raise: Python's `ZeroDivisionError`, and a base outside the
      domain of `pow`. */
  datatype AnimError = DivisionByZero | PowDomain

  /** `_anim_duration` starts at one second. */
  const DefaultDuration: real := 1.0

  /** Frames per second of the recording. */
  const Fps: real := 60.0

  /** Number of steps the speed functions divide the way from start to end into. */
  function StepCount(duration: real): real {
    duration * Fps
  }

  /** The speed function neither divides by zero nor takes a power of a non-positive base. */
  predicate SpeedDefined(c: AnimConfig, steps: real) {
    && steps != 0.0
    && (c.kind == Geometric ==> c.start != 0.0 && 0.0 < c.end / c.start)
  }

  /** The speed function of each kind: `(end - start) / steps` and
      `pow(end / start, 1 / steps)`. `end / start` is evaluated before `1 / steps`, and both
      raise `ZeroDivisionError` on a zero divisor. */
  function Speed(pow: PowFn, c: AnimConfig, steps: real): (r: Result<real, AnimError>)
    ensures r.Ok? <==> SpeedDefined(c, steps)
    ensures r.Err? ==> (r.error == DivisionByZero <==> steps == 0.0 || (c.kind == Geometric && c.start == 0.0))
  {
    match c.kind
    case Additive =>
      if steps == 0.0 then Err(DivisionByZero) else Ok((c.end - c.start) / steps)
    case Geometric =>
      if c.start == 0.0 || steps == 0.0 then Err(DivisionByZero)
      else if c.end / c.start <= 0.0 then Err(PowDomain)
      else Ok(pow(c.end / c.start, 1.0 / steps))
  }

  /** The step function of each kind. */
  function Step(kind: StepKind, value: real, speed: real): real {
    match kind
    case Additive => value + speed
    case Geometric => value * speed
  }

  /** The reference for one parameter on its own: `k` applications of its step function. */
  function Walk(kind: StepKind, value: real, speed: real, k: nat): real {
    if k == 0 then value else Step(kind, Walk(kind, value, speed, k - 1), speed)
  }

  /** Each speed covers the way from start to end in `steps` steps: `steps` additive steps
      add up to `end - start`, and the geometric speed is positive. */
  lemma SpeedCoversTheWay(pow: PowFn, c: AnimConfig, steps: real)
    requires SpeedDefined(c, steps)
    ensures c.kind == Additive ==> c.start + steps * Speed(pow, c, steps).value == c.end
    ensures c.kind == Geometric && PowLaws(pow) ==> 0.0 < Speed(pow, c, steps).value
  {
  }

  /** Every used config between `from` and `upTo` (inclusive) has a defined speed. */
  predicate DefinedBetween(entries: seq<AnimConfig>, steps: real, from: int, upTo: int) {
    forall j :: from <= j <= upTo && 0 <= j < |entries| && entries[j].use ==> SpeedDefined(entries[j], steps)
  }

  /** Every used config has a defined speed for this number of steps. */
  predicate Steppable(entries: seq<AnimConfig>, steps: real) {
    DefinedBetween(entries, steps, 0, |entries| - 1)
  }

  /** The loop of `_step_params` from position `from` on. */
  function StepFrom(pow: PowFn, entries: seq<AnimConfig>, values: seq<real>, steps: real, from: nat): (r: Partial<seq<real>, AnimError>)
    requires |values| == |entries| && from <= |entries|
    ensures |r.state| == |values|
    decreases |entries| - from
  {
    if from == |entries| then Partial(values, None)
    else
      var c := entries[from];
      if c.use && !SpeedDefined(c, steps) then Partial(values, Some(Speed(pow, c, steps).error))
      else
        var values' := if c.use then values[from := Step(c.kind, values[from], Speed(pow, c, steps).value)] else values;
        StepFrom(pow, entries, values', steps, from + 1)
  }

  /** Stepping from `from` on never writes a position before `from` or an unused one. */
  lemma {:induction false} StepFromKeeps(pow: PowFn, entries: seq<AnimConfig>, values: seq<real>, steps: real, from: nat)
    requires |values| == |entries| && from <= |entries|
    ensures var r := StepFrom(pow, entries, values, steps, from).state;
            forall i :: 0 <= i < |values| && (i < from || !entries[i].use) ==> r[i] == values[i]
    decreases |entries| - from
  {
    if from < |entries| {
      var c := entries[from];
      if !(c.use && !SpeedDefined(c, steps)) {
        var values' := if c.use then values[from := Step(c.kind, values[from], Speed(pow, c, steps).value)] else values;
        StepFromKeeps(pow, entries, values', steps, from + 1);
      }
    }
  }

  /** Stepping from `from` on fails exactly when some used config from `from` on has no speed. */
  lemma {:induction false} StepFromFails(pow: PowFn, entries: seq<AnimConfig>, values: seq<real>, steps: real, from: nat)
    requires |values| == |entries| && from <= |entries|
    ensures StepFrom(pow, entries, values, steps, from).error.None? <==> DefinedBetween(entries, steps, from, |entries| - 1)
    decreases |entries| - from
  {
    if from < |entries| {
      var c := entries[from];
      if !(c.use && !SpeedDefined(c, steps)) {
        var values' := if c.use then values[from := Step(c.kind, values[from], Speed(pow, c, steps).value)] else values;
        StepFromFails(pow, entries, values', steps, from + 1);
        DefinedBetweenShift(entries, steps, from, |entries| - 1);
      }
    }
  }

  /** Stepping from `from` on moves a used position by one step when every used config from
      `from` up to it has a speed, and leaves it alone when some config before it failed. */
  lemma {:induction false} StepFromMoves(pow: PowFn, entries: seq<AnimConfig>, values: seq<real>, steps: real, from: nat, i: int)
    requires |values| == |entries| && from <= i < |entries|
    ensures var r := StepFrom(pow, entries, values, steps, from).state;
            && (entries[i].use && DefinedBetween(entries, steps, from, i) ==>
                  r[i] == Step(entries[i].kind, values[i], Speed(pow, entries[i], steps).value))
            && (!DefinedBetween(entries, steps, from, i) ==> r[i] == values[i])
    decreases |entries| - from
  {
    var c := entries[from];
    if c.use && !SpeedDefined(c, steps) {
    } else {
      var values' := if c.use then values[from := Step(c.kind, values[from], Speed(pow, c, steps).value)] else values;
      if i == from {
        StepFromKeeps(pow, entries, values', steps, from + 1);
      } else {
        StepFromMoves(pow, entries, values', steps, from + 1, i);
        DefinedBetweenShift(entries, steps, from, i);
      }
    }
  }

  /** Dropping the first position of a range whose first used config has a speed. */
  lemma DefinedBetweenShift(entries: seq<AnimConfig>, steps: real, from: int, upTo: int)
    requires 0 <= from < |entries|
    requires entries[from].use ==> SpeedDefined(entries[from], steps)
    ensures DefinedBetween(entries, steps, from, upTo) <==> DefinedBetween(entries, steps, from + 1, upTo)
  {
  }

  /** `_step_params`: walk the configs in order; every used parameter moves one step and
      unused ones are skipped. The first speed function that raises stops the walk: the
      parameters before it keep their new values, it and the ones after it keep their old
      ones. */
  function StepParams(pow: PowFn, entries: seq<AnimConfig>, values: seq<real>, steps: real): (r: Partial<seq<real>, AnimError>)
    requires |values| == |entries|
  {
    StepFrom(pow, entries, values, steps, 0)
  }

  /** The value a jump writes: the start or the end of the config. */
  function Target(c: AnimConfig, toEnd: bool): real {
    if toEnd then c.end else c.start
  }

  /** The loop shared by `_show_start_animation_state` and `_show_end_animation_state`, from
      position `from` on. */
  function JumpFrom(entries: seq<AnimConfig>, values: seq<real>, toEnd: bool, from: nat): (r: seq<real>)
    requires |values| == |entries| && from <= |entries|
    ensures |r| == |values|
    ensures forall i :: 0 <= i < |r| ==> r[i] == if from <= i && entries[i].use then Target(entries[i], toEnd) else values[i]
    decreases |entries| - from
  {
    if from == |entries| then values
    else
      var c := entries[from];
      JumpFrom(entries, if c.use then values[from := Target(c, toEnd)] else values, toEnd, from + 1)
  }

  /** `_show_start_animation_state`: every used parameter is set to its start value. */
  function ShowStart(entries: seq<AnimConfig>, values: seq<real>): (r: seq<real>)
    requires |values| == |entries|
  {
    JumpFrom(entries, values, false, 0)
  }

  /** `_show_end_animation_state`: every used parameter is set to its end value. */
  function ShowEnd(entries: seq<AnimConfig>, values: seq<real>): (r: seq<real>)
    requires |values| == |entries|
  {
    JumpFrom(entries, values, true, 0)
  }

  /** Stepping moves every used parameter by one step of its own config when all speeds are
      defined; it never writes an unused parameter; and on an error the failing parameter is
      untouched. */
  lemma StepParamsMeaning(pow: PowFn, entries: seq<AnimConfig>, values: seq<real>, steps: real)
    requires |values| == |entries|
    ensures var r := StepParams(pow, entries, values, steps);
            && |r.state| == |values|
            && (r.error.None? <==> Steppable(entries, steps))
            && (forall i :: 0 <= i < |values| && !entries[i].use ==> r.state[i] == values[i])
            && (r.error.None? ==> forall i :: 0 <= i < |values| && entries[i].use ==>
                  r.state[i] == Step(entries[i].kind, values[i], Speed(pow, entries[i], steps).value))
            && (forall i :: 0 <= i < |values| && entries[i].use && !SpeedDefined(entries[i], steps) ==> r.state[i] == values[i])
  {
    var r := StepParams(pow, entries, values, steps);
    StepFromKeeps(pow, entries, values, steps, 0);
    StepFromFails(pow, entries, values, steps, 0);
    forall i | 0 <= i < |values| && entries[i].use
      ensures r.error.None? ==> r.state[i] == Step(entries[i].kind, values[i], Speed(pow, entries[i], steps).value)
      ensures !SpeedDefined(entries[i], steps) ==> r.state[i] == values[i]
    {
      StepFromMoves(pow, entries, values, steps, 0, i);
      if !SpeedDefined(entries[i], steps) {
        assert !DefinedBetween(entries, steps, 0, i);
      }
    }
  }

  /** The jumps set exactly the used parameters, to their start or their end value. */
  lemma JumpsMeaning(entries: seq<AnimConfig>, values: seq<real>)
    requires |values| == |entries|
    ensures forall i :: 0 <= i < |values| ==>
              && ShowStart(entries, values)[i] == (if entries[i].use then entries[i].start else values[i])
              && ShowEnd(entries, values)[i] == (if entries[i].use then entries[i].end else values[i])
  {
  }

  /** Showing the end state twice is showing it once, and so is showing the start state. */
  lemma JumpsIdempotent(entries: seq<AnimConfig>, values: seq<real>)
    requires |values| == |entries|
    ensures ShowEnd(entries, ShowEnd(entries, values)) == ShowEnd(entries, values)
    ensures ShowStart(entries, ShowStart(entries, values)) == ShowStart(entries, values)
  {
  }

  // ---------------------------------------------------------------------------------------
  // Recording

  /** The parameter values after `k` steps: the frames after the first. */
  function Advance(pow: PowFn, entries: seq<AnimConfig>, values: seq<real>, steps: real, k: nat): (r: seq<real>)
    requires |values| == |entries|
    ensures |r| == |values|
  {
    if k == 0 then values else StepParams(pow, entries, Advance(pow, entries, values, steps, k - 1), steps).state
  }

  /** `_record_animation` without the file dialog and the video encoder: jump to the start,
      grab a frame, then take `ceil(duration * 60)` steps, grabbing a frame after each. A
      speed function that raises ends the recording with that error. */
  method RecordAnimation(pow: PowFn, entries: seq<AnimConfig>, values: seq<real>, duration: real)
      returns (frames: seq<seq<real>>, error: Option<AnimError>)
    requires |values| == |entries|
    ensures 1 <= |frames|
    ensures frames[0] == ShowStart(entries, values)
    ensures forall i :: 0 <= i < |frames| ==> frames[i] == Advance(pow, entries, frames[0], StepCount(duration), i)
    ensures error.None? <==> (Ceil(StepCount(duration)) <= 0 || Steppable(entries, StepCount(duration)))
    ensures error.None? ==> |frames| == 1 + Max(0, Ceil(StepCount(duration)))
  {
    var steps := StepCount(duration);
    var count := Ceil(steps);
    var start := ShowStart(entries, values);
    frames := [start];
    error := None;
    var i := 0;
    while i < count
      invariant 0 <= i <= Max(0, count)
      invariant |frames| == i + 1
      invariant frames[0] == start
      invariant forall k :: 0 <= k < |frames| ==> frames[k] == Advance(pow, entries, start, steps, k)
      invariant 0 < i ==> Steppable(entries, steps)
    {
      var next := StepParams(pow, entries, frames[i], steps);
      StepFromFails(pow, entries, frames[i], steps, 0);
      if next.error.Some? {
        error := next.error;
        return;
      }
      frames := frames + [next.state];
      i := i + 1;
    }
  }

  /** One second at the default duration is 60 steps, and any positive duration gives at
      least one. */
  lemma RecordingSteps(duration: real)
    requires 0.0 < duration
    ensures 1 <= Ceil(StepCount(duration))
    ensures duration == DefaultDuration ==> Ceil(StepCount(duration)) == 60
  {
  }

  /** The duration spin box accepts values from 1 on, so there are at least 60 steps and the
      additive speed, which divides by the step count, is always defined. */
  lemma DurationFromSpinBox(pow: PowFn, c: AnimConfig, duration: real)
    requires 1.0 <= duration
    ensures 60.0 <= StepCount(duration)
    ensures c.kind == Additive ==> Speed(pow, c, StepCount(duration)).Ok?
  {
  }

  // ---------------------------------------------------------------------------------------
  // Where a parameter ends up

  /** After `k` steps every used parameter has walked `k` steps of its own config, as if the
      other parameters were not there. */
  lemma {:induction false} ParameterWalks(pow: PowFn, entries: seq<AnimConfig>, values: seq<real>, steps: real, i: int, k: nat)
    requires |values| == |entries|
    requires Steppable(entries, steps)
    requires 0 <= i < |entries| && entries[i].use
    ensures Advance(pow, entries, values, steps, k)[i] == Walk(entries[i].kind, values[i], Speed(pow, entries[i], steps).value, k)
  {
    if k > 0 {
      ParameterWalks(pow, entries, values, steps, i, k - 1);
      var before := Advance(pow, entries, values, steps, k - 1);
      StepFromMoves(pow, entries, before, steps, 0, i);
    }
  }

  /** An additive walk moves `k` times the speed. */
  lemma {:induction false} AdditiveWalk(value: real, speed: real, k: nat)
    ensures Walk(Additive, value, speed, k) == value + k as real * speed
  {
    if k > 0 {
      AdditiveWalk(value, speed, k - 1);
      assert value + (k - 1) as real * speed + speed == value + k as real * speed;
    }
  }

  /** A geometric walk with speed `ratio ** (1 / steps)` multiplies by `ratio ** (k / steps)`. */
  lemma {:induction false} GeometricWalk(pow: PowFn, value: real, ratio: real, steps: real, k: nat)
    requires PowLaws(pow)
    requires 0.0 < ratio && steps != 0.0
    ensures Walk(Geometric, value, pow(ratio, 1.0 / steps), k) == value * pow(ratio, k as real / steps)
  {
    if k == 0 {
      PowZero(pow, ratio);
      assert k as real / steps == 0.0;
    } else {
      GeometricWalk(pow, value, ratio, steps, k - 1);
      assert (k - 1) as real / steps + 1.0 / steps == k as real / steps;
      PowScaleTwice(pow, value, ratio, (k - 1) as real / steps, 1.0 / steps, k as real / steps);
    }
  }

  /** Two multiples of a non-zero number agree exactly when the factors do. */
  lemma SameMultiple(m: real, n: real, x: real)
    requires x != 0.0
    ensures m * x == n * x <==> m == n
  {
    if m * x == n * x {
      assert (m - n) * x == 0.0;
    }
  }

  /** An additive walk of `ceil(steps)` steps from the start lands on the end exactly when
      `steps` is whole. */
  lemma AdditiveArrival(pow: PowFn, c: AnimConfig, steps: real, n: nat)
    requires c.kind == Additive && SpeedDefined(c, steps) && c.start != c.end
    requires n == Ceil(steps)
    ensures Walk(Additive, c.start, Speed(pow, c, steps).value, n) == c.end <==> steps == steps.Floor as real
  {
    var speed := Speed(pow, c, steps).value;
    SpeedCoversTheWay(pow, c, steps);
    AdditiveWalk(c.start, speed, n);
    ArrivesExactly(c.start, c.end, speed, n as real, steps);
    CeilExact(steps);
  }

  /** Moving from `a` by a fixed speed reaches `b != a` after exactly one number of steps. */
  lemma ArrivesExactly(a: real, b: real, speed: real, n: real, steps: real)
    requires a + steps * speed == b && a != b
    ensures a + n * speed == b <==> n == steps
  {
    assert speed != 0.0;
    SameMultiple(n, steps, speed);
  }

  /** A geometric walk of a whole number of steps from the start lands on the end. */
  lemma GeometricArrival(pow: PowFn, c: AnimConfig, steps: real, n: nat)
    requires PowLaws(pow)
    requires c.kind == Geometric && SpeedDefined(c, steps)
    requires steps == steps.Floor as real && n == Ceil(steps)
    ensures Walk(Geometric, c.start, Speed(pow, c, steps).value, n) == c.end
  {
    var ratio := c.end / c.start;
    CeilExact(steps);
    GeometricWalk(pow, c.start, ratio, steps, n);
    assert n as real / steps == 1.0;
    assert c.start * ratio == c.end;
  }

  /** The recording takes `ceil(steps)` steps, so an additive parameter that actually moves
      finishes exactly on its end value if and only if `duration * 60` is a whole number. */
  lemma AdditiveEndsOnEnd(pow: PowFn, entries: seq<AnimConfig>, values: seq<real>, duration: real, i: int)
    requires |values| == |entries|
    requires 0.0 < duration
    requires Steppable(entries, StepCount(duration))
    requires 0 <= i < |entries| && entries[i].use && entries[i].kind == Additive
    requires entries[i].start != entries[i].end
    ensures var steps := StepCount(duration);
            var last := Advance(pow, entries, ShowStart(entries, values), steps, Ceil(steps));
            last[i] == entries[i].end <==> steps == steps.Floor as real
  {
    var steps := StepCount(duration);
    var start := ShowStart(entries, values);
    assert start[i] == entries[i].start;
    assert SpeedDefined(entries[i], steps);
    var n: nat := Ceil(steps);
    ParameterWalks(pow, entries, start, steps, i, n);
    AdditiveArrival(pow, entries[i], steps, n);
  }

  /** After a whole number of steps a geometric parameter lands exactly on its end value. */
  lemma GeometricEndsOnEnd(pow: PowFn, entries: seq<AnimConfig>, values: seq<real>, duration: real, i: int)
    requires PowLaws(pow)
    requires |values| == |entries|
    requires 0.0 < duration
    requires StepCount(duration) == StepCount(duration).Floor as real
    requires Steppable(entries, StepCount(duration))
    requires 0 <= i < |entries| && entries[i].use && entries[i].kind == Geometric
    ensures var steps := StepCount(duration);
            Advance(pow, entries, ShowStart(entries, values), steps, Ceil(steps))[i] == entries[i].end
  {
    var steps := StepCount(duration);
    var start := ShowStart(entries, values);
    assert start[i] == entries[i].start;
    assert SpeedDefined(entries[i], steps);
    var n: nat := Ceil(steps);
    ParameterWalks(pow, entries, start, steps, i, n);
    GeometricArrival(pow, entries[i], steps, n);
  }
}

=== FILE: animwidget.dfy ===
/** `frontend/components/animation_param_widget.py`: the widget that feeds one animation
    config. Its constructor runs the handlers once by hand (the check handlers with `False`,
    the start and end handlers with `initial`), because the spin boxes are given their value
    before any handler is connected and so emit nothing on their own. Afterwards the handlers
    run on user edits, and the start and end boxes are enabled exactly when the box is ticked.

    The config as the fractal's `_anim_params` dictionary holds it is a `RawConfig`: its `use`,
    `start` and `end` entries are absent until a handler writes them. */
module AnimWidget {
  import opened Basics
  import opened RealMath
  import opened Animation

  /** One `_anim_params` entry before and after the widget's handlers wrote to it. */
  datatype RawConfig = RawConfig(kind: StepKind, use: Option<bool>, start: Option<real>, end: Option<real>)

  /** An entry as the fractal's constructor creates it: only the step and speed functions. */
  function Fresh(kind: StepKind): (r: RawConfig)
    ensures r.kind == kind && r.use.None? && r.start.None? && r.end.None?
  {
    RawConfig(kind, None, None, None)
  }

  /** The dictionary key whose absence makes a lookup raise `KeyError`. */
  datatype ConfigField = UseField | StartField | EndField

  /** The entry as `_step_params` reads it: `use` first, and `start` and `end` only when the
      parameter is used. An unused entry never has its bounds read; the model fills them with
      0.0, which no operation of `Animation` looks at. */
  function Read(r: RawConfig): (c: Result<AnimConfig, ConfigField>)
    ensures c.Ok? <==> r.use.Some? && (r.use.value ==> r.start.Some? && r.end.Some?)
    ensures c.Ok? ==> c.value.kind == r.kind && c.value.use == r.use.value
    ensures c.Ok? && c.value.use ==> c.value.start == r.start.value && c.value.end == r.end.value
    ensures c.Err? ==> c.error == (if r.use.None? then UseField else if r.start.None? then StartField else EndField)
  {
    match r.use
    case None => Err(UseField)
    case Some(false) => Ok(AnimConfig(r.kind, false, 0.0, 0.0))
    case Some(true) =>
      match r.start
      case None => Err(StartField)
      case Some(start) =>
        match r.end
        case None => Err(EndField)
        case Some(end) => Ok(AnimConfig(r.kind, true, start, end))
  }

  /** The scope the constructor gives both spin boxes by default. */
  const DefaultLow: real := -100000.0
  const DefaultHigh: real := 100000.0

  /** The widget's visible state: the check box, whether the two spin boxes are enabled, their
      values, and their common range. */
  datatype Widget = Widget(checked: bool, enabled: bool, startBox: real, endBox: real, low: real, high: real)

  /** The effective maximum after `setRange`: a maximum below the minimum is lifted to it. */
  function Upper(low: real, high: real): real {
    if high < low then low else high
  }

  /** What a `QDoubleSpinBox` keeps of a value: `setRange` lifts a maximum below the minimum up
      to the minimum, and `setValue` clamps into the range. */
  function Clamp(x: real, low: real, high: real): (r: real)
    ensures low <= r <= Upper(low, high)
    ensures low <= x <= high ==> r == x
    ensures x < low ==> r == low
    ensures Upper(low, high) < x ==> r == Upper(low, high)
  {
    if x < low then low else if Upper(low, high) < x then Upper(low, high) else x
  }

  /** The widget and the entry after construction. `convert` is what the start and end handlers
      apply before storing (the identity, or `exp` for the zoom of `julia_2d.py`). */
  function Construct(initial: real, convert: real -> real, low: real, high: real, raw: RawConfig): (r: (Widget, RawConfig))
    ensures r.1.kind == raw.kind
    ensures r.1.use == Some(false)
    ensures r.1.start == Some(convert(initial)) && r.1.end == r.1.start
    ensures !r.0.checked && !r.0.enabled
    ensures r.0.startBox == r.0.endBox == Clamp(initial, low, high)
  {
    var box := Clamp(initial, low, high);
    (Widget(false, false, box, box, low, high), RawConfig(raw.kind, Some(false), Some(convert(initial)), Some(convert(initial))))
  }

  /** Both boxes show a value inside their range. */
  predicate InScope(w: Widget) {
    && w.low <= w.startBox <= Upper(w.low, w.high)
    && w.low <= w.endBox <= Upper(w.low, w.high)
  }

  /** The enabled state follows the check box and the entry's `use` mirrors it. */
  predicate Consistent(w: Widget, raw: RawConfig) {
    w.enabled == w.checked && raw.use == Some(w.checked) && raw.start.Some? && raw.end.Some?
  }

  /** The entry holds the converted values the boxes show. */
  predicate Synced(w: Widget, raw: RawConfig, convert: real -> real) {
    raw.start == Some(convert(w.startBox)) && raw.end == Some(convert(w.endBox))
  }

  /** Ticking or unticking the box: `stateChanged` fires only on a change, and then updates the
      enabled state and the entry's `use`. */
  function Check(w: Widget, raw: RawConfig, checked: bool): (r: (Widget, RawConfig))
    ensures r.0.checked == checked && r.1.use == (if checked == w.checked then raw.use else Some(checked))
    ensures r.0.startBox == w.startBox && r.0.endBox == w.endBox
    ensures r.1.kind == raw.kind && r.1.start == raw.start && r.1.end == raw.end
  {
    if checked == w.checked then (w, raw)
    else (w.(checked := checked, enabled := checked), raw.(use := Some(checked)))
  }

  /** A user edit of the start box: the value is clamped into the range, and `valueChanged`
      fires, storing the converted value, only if that changes what the box shows. */
  function EditStart(w: Widget, raw: RawConfig, convert: real -> real, x: real): (r: (Widget, RawConfig))
    ensures r.0.startBox == Clamp(x, w.low, w.high)
    ensures r.0.checked == w.checked && r.0.enabled == w.enabled && r.0.endBox == w.endBox
    ensures r.1.kind == raw.kind && r.1.use == raw.use && r.1.end == raw.end
    ensures r.1.start == (if r.0.startBox == w.startBox then raw.start else Some(convert(r.0.startBox)))
  {
    var v := Clamp(x, w.low, w.high);
    if v == w.startBox then (w, raw) else (w.(startBox := v), raw.(start := Some(convert(v))))
  }

  /** A user edit of the end box, in the same way. */
  function EditEnd(w: Widget, raw: RawConfig, convert: real -> real, x: real): (r: (Widget, RawConfig))
    ensures r.0.endBox == Clamp(x, w.low, w.high)
    ensures r.0.checked == w.checked && r.0.enabled == w.enabled && r.0.startBox == w.startBox
    ensures r.1.kind == raw.kind && r.1.use == raw.use && r.1.start == raw.start
    ensures r.1.end == (if r.0.endBox == w.endBox then raw.end else Some(convert(r.0.endBox)))
  {
    var v := Clamp(x, w.low, w.high);
    if v == w.endBox then (w, raw) else (w.(endBox := v), raw.(end := Some(convert(v))))
  }

  /** A user action on the widget. */
  datatype Edit = Tick(checked: bool) | SetStart(x: real) | SetEnd(x: real)

  function Apply(w: Widget, raw: RawConfig, convert: real -> real, e: Edit): (r: (Widget, RawConfig)) {
    match e
    case Tick(checked) => Check(w, raw, checked)
    case SetStart(x) => EditStart(w, raw, convert, x)
    case SetEnd(x) => EditEnd(w, raw, convert, x)
  }

  /** A sequence of user actions, in order. */
  function ApplyAll(w: Widget, raw: RawConfig, convert: real -> real, es: seq<Edit>): (r: (Widget, RawConfig))
    decreases |es|
  {
    if |es| == 0 then (w, raw)
    else ApplyAll(Apply(w, raw, convert, es[0]).0, Apply(w, raw, convert, es[0]).1, convert, es[1..])
  }

  /** Right after construction the entry is complete and unused, the boxes are disabled and
      show values inside their range;
      the entry holds what the boxes show exactly when `initial` lay within the range (or when
      conversion cannot tell the clamped value apart). */
  lemma ConstructConsistent(initial: real, convert: real -> real, low: real, high: real, raw: RawConfig)
    ensures var (w, r) := Construct(initial, convert, low, high, raw);
            && Consistent(w, r) && InScope(w)
            && (low <= initial <= high ==> Synced(w, r, convert))
            && Read(r) == Ok(AnimConfig(raw.kind, false, 0.0, 0.0))
  {
  }

  /** The scope is not enforced on the first values: an `initial` outside the range is stored
      unclamped, while the boxes show the clamped value. */
  lemma ConstructOutOfRange(initial: real, low: real, high: real, raw: RawConfig)
    requires low <= high && high < initial
    ensures var (w, r) := Construct(initial, x => x, low, high, raw);
            r.start == Some(initial) && w.startBox == high && !Synced(w, r, x => x)
  {
  }

  /** Every user action keeps the enabled state, the check box and `use` in step, keeps an
      entry that holds what the boxes show in that state, and keeps both boxes inside the
      range. */
  lemma ApplyKeeps(w: Widget, raw: RawConfig, convert: real -> real, e: Edit)
    requires Consistent(w, raw)
    ensures Consistent(Apply(w, raw, convert, e).0, Apply(w, raw, convert, e).1)
    ensures Synced(w, raw, convert) ==> Synced(Apply(w, raw, convert, e).0, Apply(w, raw, convert, e).1, convert)
    ensures Apply(w, raw, convert, e).1.kind == raw.kind
    ensures Apply(w, raw, convert, e).0.low == w.low && Apply(w, raw, convert, e).0.high == w.high
    ensures InScope(w) ==> InScope(Apply(w, raw, convert, e).0)
  {
  }

  /** The boxes keep to the range through any sequence of actions, and the invariants above
      hold after any of them: the start and end inputs are enabled exactly when the parameter
      is used, and the config can always be read. */
  lemma {:induction false} ApplyAllKeeps(w: Widget, raw: RawConfig, convert: real -> real, es: seq<Edit>)
    requires Consistent(w, raw)
    ensures var (w', r') := ApplyAll(w, raw, convert, es);
            && Consistent(w', r') && w'.low == w.low && w'.high == w.high
            && (InScope(w) ==> InScope(w'))
            && (Synced(w, raw, convert) ==> Synced(w', r', convert))
            && r'.kind == raw.kind
            && Read(r').Ok? && Read(r').value.use == w'.enabled
    decreases |es|
  {
    if |es| > 0 {
      var (w1, r1) := Apply(w, raw, convert, es[0]);
      ApplyKeeps(w, raw, convert, es[0]);
      ApplyAllKeeps(w1, r1, convert, es[1..]);
    } else {
      assert Read(raw).Ok?;
    }
  }

  /** Every stored bound is positive. */
  predicate PositiveBounds(raw: RawConfig) {
    (raw.start.Some? ==> 0.0 < raw.start.value) && (raw.end.Some? ==> 0.0 < raw.end.value)
  }

  /** A widget whose handlers store `exp(value)` only ever stores positive bounds, so the
      geometric speed `pow(end / start, 1 / steps)` of the zoom is defined, whenever the
      parameter is used, for any non-zero number of steps, whatever the user does. */
  lemma {:induction false} ExpWidgetDefinesSpeed(exp: ExpFn, initial: real, low: real, high: real, raw: RawConfig, es: seq<Edit>, steps: real)
    requires ExpLaws(exp)
    requires raw.kind == Geometric
    requires steps != 0.0
    ensures var (w, r) := Construct(initial, exp, low, high, raw);
            var (w', r') := ApplyAll(w, r, exp, es);
            && PositiveBounds(r')
            && Read(r').Ok?
            && (Read(r').value.use ==> SpeedDefined(Read(r').value, steps))
  {
    var (w, r) := Construct(initial, exp, low, high, raw);
    ConstructConsistent(initial, exp, low, high, raw);
    ExpKeepsPositive(exp, w, r, es);
    ApplyAllKeeps(w, r, exp, es);
    var (w', r') := ApplyAll(w, r, exp, es);
    var c := Read(r').value;
    if c.use {
      PositiveRatio(c.end, c.start);
    }
  }

  /** The ratio of two positive numbers is positive. */
  lemma PositiveRatio(a: real, b: real)
    requires 0.0 < a && 0.0 < b
    ensures 0.0 < a / b
  {
  }

  /** Actions through an `exp` widget keep the bounds positive. */
  lemma {:induction false} ExpKeepsPositive(exp: ExpFn, w: Widget, raw: RawConfig, es: seq<Edit>)
    requires ExpLaws(exp)
    requires PositiveBounds(raw)
    ensures PositiveBounds(ApplyAll(w, raw, exp, es).1)
    decreases |es|
  {
    if |es| > 0 {
      var (w1, r1) := Apply(w, raw, exp, es[0]);
      assert PositiveBounds(r1);
      ExpKeepsPositive(exp, w1, r1, es[1..]);
    }
  }
}

=== FILE: basics.dfy ===
/** Optional values and results shared by every module. */
module Basics {

  datatype Option<T> = None | Some(value: T)

  /** The outcome of an operation that raises in the program: `Err` carries what was raised. */
  datatype Result<T, E> = Ok(value: T) | Err(error: E)

  /** The state an operation that writes fields one after another leaves behind, and what it
      raised, if anything, before it finished: the writes made before the error stay. */
  datatype Partial<S, E> = Partial(state: S, error: Option<E>)

  function Min(a: int, b: int): int {
    if a <= b then a else b
  }

  function Max(a: int, b: int): int {
    if a <= b then b else a
  }
}

=== FILE: camera.dfy ===
/** The fly camera of `fractals/mandelbox.py`. Six direction flags are raised and lowered by
    the keyboard; while the camera is in moving mode the mouse turns it (the heading `h_angle`
    freely, the pitch `v_angle` only while it stays strictly between -pi/2 and pi/2); the wheel
    changes the speed but never lets it reach zero; and every frame `do_move` moves the offset
    one step of length `speed` along each raised direction. Cursor grabbing, warping and the
    16 ms update timer are not modelled: the cursor position after the warp is a parameter. */
module Camera {
  import opened Basics
  import opened RealMath
  import opened Geometry
  import opened Fractal2D

  datatype Direction = Forward | Back | Left | Right | Up | Down

  /** The keys the handlers look at; every other key is `OtherKey`. */
  datatype KeyCode = KeyW | KeyS | KeyA | KeyD | KeyShift | KeyControl | KeySpace | KeyEscape | OtherKey

  /** The flags of `_move_dict` that are `True` form `moving`; `isMoving` is `_is_moving`;
      `mouse` is the position the mouse displacement is measured from. */
  datatype Camera = Camera(
    offset: Vec3,
    hAngle: real,
    vAngle: real,
    speed: real,
    moving: set<Direction>,
    isMoving: bool,
    mouse: Point)

  /** The pitch bound: strictly inside a quarter turn either way. */
  predicate PitchInRange(v: real) {
    -Pi / 2.0 < v < Pi / 2.0
  }

  /** What the handlers keep: a positive speed and the pitch inside its bound. */
  predicate Valid(c: Camera) {
    c.speed > 0.0 && PitchInRange(c.vAngle)
  }

  /** `__init__`: speed 0.1, offset (0, 0, 50), no flag raised, not moving. The camera angles
      are given. */
  function Init(hAngle: real, vAngle: real, cursor: Point): (c: Camera)
    ensures c.speed == 0.1 && c.offset == Vec3(0.0, 0.0, 50.0) && c.moving == {} && !c.isMoving
    ensures PitchInRange(vAngle) ==> Valid(c)
  {
    Camera(Vec3(0.0, 0.0, 50.0), hAngle, vAngle, 0.1, {}, false, cursor)
  }

  // ---------------------------------------------------------------------------------------
  // Moving

  /** The step one raised direction contributes, for heading h, pitch v and speed s. */
  function Displacement(t: Trig, d: Direction, h: real, v: real, s: real): (r: Vec3)
    ensures d == Up ==> r == Vec3(0.0, s, 0.0)
    ensures d == Down ==> r == Vec3(0.0, -s, 0.0)
    ensures d == Left || d == Right ==> r.y == 0.0
  {
    // The backward step is (s sin h cos v, s * -sin v, s cos h cos v); forward subtracts it.
    var back := Vec3(s * t.sin(h) * t.cos(v), -(s * t.sin(v)), s * t.cos(h) * t.cos(v));
    var right := Vec3(s * t.cos(h), 0.0, -(s * t.sin(h)));
    match d
    case Forward => Vec3(-back.x, -back.y, -back.z)
    case Back => back
    case Left => Vec3(-right.x, 0.0, -right.z)
    case Right => right
    case Up => Vec3(0.0, s, 0.0)
    case Down => Vec3(0.0, -s, 0.0)
  }

  function Opposite(d: Direction): Direction {
    match d
    case Forward => Back
    case Back => Forward
    case Left => Right
    case Right => Left
    case Up => Down
    case Down => Up
  }

  /** Opposite directions move by opposite steps. */
  lemma OppositesCancel(t: Trig, d: Direction, h: real, v: real, s: real)
    ensures Displacement(t, d, h, v, s).Plus(Displacement(t, Opposite(d), h, v, s)) == Vec3(0.0, 0.0, 0.0)
    ensures Opposite(Opposite(d)) == d
  {
    var back := Displacement(t, Back, h, v, s);
    var right := Displacement(t, Right, h, v, s);
    assert Displacement(t, Forward, h, v, s) == Vec3(-back.x, -back.y, -back.z);
    assert Displacement(t, Left, h, v, s) == Vec3(-right.x, -right.y, -right.z);
  }

  /** A step forward has length `speed`. */
  lemma ForwardLength(t: Trig, h: real, v: real, s: real)
    requires TrigLaws(t)
    ensures Displacement(t, Forward, h, v, s).NormSquared() == s * s
    ensures Displacement(t, Back, h, v, s).NormSquared() == s * s
  {
    var sh, ch, sv, cv := t.sin(h), t.cos(h), t.sin(v), t.cos(v);
    assert sh * sh + ch * ch == 1.0;
    assert sv * sv + cv * cv == 1.0;
    calc {
      Displacement(t, Forward, h, v, s).NormSquared();
      (s * sh * cv) * (s * sh * cv) + (s * sv) * (s * sv) + (s * ch * cv) * (s * ch * cv);
      s * s * (cv * cv) * (sh * sh + ch * ch) + s * s * (sv * sv);
      s * s * (cv * cv + sv * sv);
    }
  }

  /** What direction `d` adds this frame: its step if its flag is raised, nothing otherwise. */
  function Contribution(t: Trig, c: Camera, d: Direction): Vec3 {
    if d in c.moving then Displacement(t, d, c.hAngle, c.vAngle, c.speed) else Vec3(0.0, 0.0, 0.0)
  }

  /** `do_move`: the six `if`s in order, each adding its direction's step to the offset. Only
      the offset changes. */
  function DoMove(t: Trig, c: Camera): (r: Camera)
    ensures r.(offset := c.offset) == c
    ensures c.moving == {} ==> r == c
    ensures Forward !in c.moving && Back !in c.moving && Left !in c.moving && Right !in c.moving ==>
              r.offset.x == c.offset.x && r.offset.z == c.offset.z
  {
    c.(offset := c.offset.Plus(Contribution(t, c, Forward)).Plus(Contribution(t, c, Back))
                         .Plus(Contribution(t, c, Left)).Plus(Contribution(t, c, Right))
                         .Plus(Contribution(t, c, Up)).Plus(Contribution(t, c, Down)))
  }

  /** Raising a direction and its opposite together moves the camera as if neither were
      raised. */
  lemma PairCancels(t: Trig, c: Camera, d: Direction)
    ensures var both := c.(moving := c.moving + {d, Opposite(d)});
            var neither := c.(moving := c.moving - {d, Opposite(d)});
            DoMove(t, both).offset == DoMove(t, neither).offset
  {
    var both := c.(moving := c.moving + {d, Opposite(d)});
    var neither := c.(moving := c.moving - {d, Opposite(d)});
    var zero := Vec3(0.0, 0.0, 0.0);
    match d {
      case Forward | Back =>
        OutsidePair(t, c, d, Left); OutsidePair(t, c, d, Right);
        OutsidePair(t, c, d, Up); OutsidePair(t, c, d, Down);
      case Left | Right =>
        OutsidePair(t, c, d, Forward); OutsidePair(t, c, d, Back);
        OutsidePair(t, c, d, Up); OutsidePair(t, c, d, Down);
      case Up | Down =>
        OutsidePair(t, c, d, Forward); OutsidePair(t, c, d, Back);
        OutsidePair(t, c, d, Left); OutsidePair(t, c, d, Right);
    }
    assert Contribution(t, both, d).Plus(Contribution(t, both, Opposite(d))) == zero by {
      OppositesCancel(t, d, c.hAngle, c.vAngle, c.speed);
    }
    assert Contribution(t, neither, d) == Contribution(t, neither, Opposite(d)) == zero;
    SumWithCancellingPair(c.offset, d,
      Contribution(t, both, Forward), Contribution(t, both, Back), Contribution(t, both, Left),
      Contribution(t, both, Right), Contribution(t, both, Up), Contribution(t, both, Down),
      Contribution(t, neither, Forward), Contribution(t, neither, Back), Contribution(t, neither, Left),
      Contribution(t, neither, Right), Contribution(t, neither, Up), Contribution(t, neither, Down));
  }

  /** A direction outside the pair contributes the same whether the pair is raised or not. */
  lemma OutsidePair(t: Trig, c: Camera, d: Direction, e: Direction)
    requires e != d && e != Opposite(d)
    ensures Contribution(t, c.(moving := c.moving + {d, Opposite(d)}), e)
         == Contribution(t, c.(moving := c.moving - {d, Opposite(d)}), e)
  {
  }

  /** The sum of six steps in the order of `do_move`. */
  function StepSum(o: Vec3, f: Vec3, b: Vec3, l: Vec3, r: Vec3, u: Vec3, w: Vec3): Vec3 {
    o.Plus(f).Plus(b).Plus(l).Plus(r).Plus(u).Plus(w)
  }

  /** Two sums of six steps agree when they agree outside the pair `d`, `Opposite(d)`, and
      the pair adds up to nothing in both. */
  lemma SumWithCancellingPair(o: Vec3, d: Direction,
                              f: Vec3, b: Vec3, l: Vec3, r: Vec3, u: Vec3, w: Vec3,
                              f': Vec3, b': Vec3, l': Vec3, r': Vec3, u': Vec3, w': Vec3)
    requires d in {Forward, Back} ==> f.Plus(b) == Vec3(0.0, 0.0, 0.0) && f' == b' == Vec3(0.0, 0.0, 0.0)
    requires d in {Forward, Back} ==> l == l' && r == r' && u == u' && w == w'
    requires d in {Left, Right} ==> l.Plus(r) == Vec3(0.0, 0.0, 0.0) && l' == r' == Vec3(0.0, 0.0, 0.0)
    requires d in {Left, Right} ==> f == f' && b == b' && u == u' && w == w'
    requires d in {Up, Down} ==> u.Plus(w) == Vec3(0.0, 0.0, 0.0) && u' == w' == Vec3(0.0, 0.0, 0.0)
    requires d in {Up, Down} ==> f == f' && b == b' && l == l' && r == r'
    ensures StepSum(o, f, b, l, r, u, w) == StepSum(o, f', b', l', r', u', w')
  {
    var s, s' := StepSum(o, f, b, l, r, u, w), StepSum(o, f', b', l', r', u', w');
    if d in {Forward, Back} {
      assert o.Plus(f).Plus(b) == o == o.Plus(f').Plus(b');
    } else if d in {Left, Right} {
      assert o.Plus(f).Plus(b).Plus(l).Plus(r) == o.Plus(f).Plus(b) == o.Plus(f').Plus(b').Plus(l').Plus(r');
    } else {
      assert s == o.Plus(f).Plus(b).Plus(l).Plus(r) == s';
    }
  }

  /** Left and right never change the height, and up and down change only the height, by the
      speed. */
  lemma SidewaysAndVertical(t: Trig, c: Camera)
    ensures c.moving == {Left} || c.moving == {Right} ==> DoMove(t, c).offset.y == c.offset.y
    ensures c.moving == {Up} ==> DoMove(t, c).offset == c.offset.Plus(Vec3(0.0, c.speed, 0.0))
    ensures c.moving == {Down} ==> DoMove(t, c).offset == c.offset.Plus(Vec3(0.0, -c.speed, 0.0))
  {
  }

  // ---------------------------------------------------------------------------------------
  // Events

  /** The direction a key of `keyPressEvent` / `keyReleaseEvent` stands for. */
  function KeyDirection(k: KeyCode): (d: Option<Direction>)
    ensures d.None? <==> k in {KeySpace, KeyEscape, OtherKey}
  {
    match k
    case KeyW => Some(Forward)
    case KeyS => Some(Back)
    case KeyA => Some(Left)
    case KeyD => Some(Right)
    case KeyShift => Some(Up)
    case KeyControl => Some(Down)
    case _ => None
  }

  /** `keyPressEvent`: raises the key's flag, in either mode; other keys change nothing. */
  function KeyPress(c: Camera, k: KeyCode): (r: Camera)
    ensures r.(moving := c.moving) == c
    ensures KeyDirection(k).Some? ==> r.moving == c.moving + {KeyDirection(k).value}
    ensures KeyDirection(k).None? ==> r == c
  {
    match KeyDirection(k)
    case Some(d) => c.(moving := c.moving + {d})
    case None => c
  }

  /** `keyReleaseEvent`: outside moving mode nothing changes; in it the key's flag is lowered,
      and Escape lowers every flag and leaves moving mode. */
  function KeyRelease(c: Camera, k: KeyCode): (r: Camera)
    ensures !c.isMoving ==> r == c
    ensures c.isMoving && k == KeyEscape ==> r == c.(isMoving := false, moving := {})
    ensures c.isMoving && KeyDirection(k).Some? ==> r == c.(moving := c.moving - {KeyDirection(k).value})
    ensures c.isMoving && k in {KeySpace, OtherKey} ==> r == c
  {
    if !c.isMoving then c
    else if k == KeyEscape then c.(isMoving := false, moving := {})
    else match KeyDirection(k)
      case Some(d) => c.(moving := c.moving - {d})
      case None => c
  }

  /** While moving, pressing a key and releasing it again leaves the flags as they were before
      the press, if its flag was down then. */
  lemma PressReleaseRoundTrip(c: Camera, k: KeyCode)
    requires c.isMoving
    requires KeyDirection(k).Some? ==> KeyDirection(k).value !in c.moving
    requires k != KeyEscape
    ensures KeyRelease(KeyPress(c, k), k) == c
  {
  }

  /** `mousePressEvent`: a left press outside moving mode enters it and measures from the
      recentred cursor; any other press, or a press while moving, changes nothing. */
  function MousePress(c: Camera, button: MouseButton, centred: Point): (r: Camera)
    ensures r.isMoving
      || r == c
    ensures button == LeftButton && !c.isMoving ==> r == c.(isMoving := true, mouse := centred)
    ensures c.isMoving ==> r == c
  {
    if button == LeftButton && !c.isMoving then c.(isMoving := true, mouse := centred) else c
  }

  /** `mouseMoveEvent`: in moving mode the heading turns by the horizontal displacement over
      100, and the pitch by the vertical one only if it stays inside its bound. Outside moving
      mode nothing changes. */
  function MouseMove(c: Camera, cursor: Point): (r: Camera)
    ensures !c.isMoving ==> r == c
    ensures c.isMoving ==> r.hAngle == c.hAngle - (cursor.x - c.mouse.x) / 100.0
    ensures r.(hAngle := c.hAngle, vAngle := c.vAngle) == c
    ensures PitchInRange(c.vAngle) ==> PitchInRange(r.vAngle)
    ensures r.vAngle == c.vAngle || r.vAngle == c.vAngle - (cursor.y - c.mouse.y) / 100.0
  {
    if !c.isMoving then c
    else
      var difference := cursor.Minus(c.mouse);
      var v := if PitchInRange(c.vAngle - difference.y / 100.0) then c.vAngle - difference.y / 100.0 else c.vAngle;
      c.(hAngle := c.hAngle - difference.x / 100.0, vAngle := v)
  }

  /** `wheelEvent`: the speed changes by the wheel delta over 100000, unless that would make it
      zero or negative. */
  function Wheel(c: Camera, delta: int): (r: Camera)
    ensures r.(speed := c.speed) == c
    ensures c.speed + delta as real / 100000.0 > 0.0 ==> r.speed == c.speed + delta as real / 100000.0
    ensures c.speed + delta as real / 100000.0 <= 0.0 ==> r == c
    ensures r.speed > 0.0 || r.speed == c.speed
  {
    if c.speed + delta as real / 100000.0 > 0.0 then c.(speed := c.speed + delta as real / 100000.0) else c
  }

  /** The events the camera reacts to, and a frame. */
  datatype Event =
    | Press(button: MouseButton, centred: Point)
    | Move(cursor: Point)
    | Scroll(delta: int)
    | KeyDown(key: KeyCode)
    | KeyUp(key: KeyCode)
    | Frame

  function Handle(t: Trig, c: Camera, e: Event): Camera {
    match e
    case Press(b, p) => MousePress(c, b, p)
    case Move(p) => MouseMove(c, p)
    case Scroll(d) => Wheel(c, d)
    case KeyDown(k) => KeyPress(c, k)
    case KeyUp(k) => KeyRelease(c, k)
    case Frame => DoMove(t, c)
  }

  function HandleAll(t: Trig, c: Camera, es: seq<Event>): Camera
    decreases |es|
  {
    if |es| == 0 then c else HandleAll(t, Handle(t, c, es[0]), es[1..])
  }

  /** No sequence of events makes the speed non-positive or takes the pitch out of its
      bound. */
  lemma {:induction false} HandleAllValid(t: Trig, c: Camera, es: seq<Event>)
    requires Valid(c)
    ensures Valid(HandleAll(t, c, es))
    decreases |es|
  {
    if |es| > 0 {
      var next := Handle(t, c, es[0]);
      assert Valid(next);
      HandleAllValid(t, next, es[1..]);
    }
  }
}

=== FILE: fractal2d.dfy ===
/** The navigable 2D view of `fractals/abstract/fractal_2d.py`: its fields and defaults, the
    widget-to-fractal point map `_translate_point`, and the mouse and wheel handlers built on
    it. `fractal_3d.py` repeats this code verbatim; see module `Fractal3D`. */
module Fractal2D {
  import opened RealMath
  import opened Basics
  import opened Geometry

  /** A colour as its four float channels in [0, 1] (`QColor.redF()` and so on). */
  datatype Color = Color(red: real, green: real, blue: real, alpha: real)

  /** `QColor(255, 255, 255, 255)`. */
  const White := Color(1.0, 1.0, 1.0, 1.0)

  /** `QColor(45, 45, 45, 255)`, the background the 3D fractals with a background colour
      start with. */
  const DefaultBackground := Color(45.0 / 255.0, 45.0 / 255.0, 45.0 / 255.0, 1.0)

  /** The widget's size in pixels. */
  datatype Size = Size(width: int, height: int) {
    function Shorter(): int { Min(width, height) }
    function Center(): Point { Point(width as real / 2.0, height as real / 2.0) }
  }

  /** The fields of a 2D fractal widget. `lastMouse` is the cursor position recorded by the
      previous mouse event; `rotation` counts half-turns. */
  datatype View = View(
    maxIter: int,
    offset: Point,
    zoom: real,
    color: Color,
    centralLines: bool,
    antialiasing: bool,
    rotation: real,
    lastMouse: Point)

  /** The state `__init__` leaves: 100 iterations, offset (0, 0), zoom 1, white, no central
      lines, no antialiasing, no rotation; the cursor position at construction is recorded. */
  function Init(cursor: Point): View {
    View(100, Origin, 1.0, White, false, false, 0.0, cursor)
  }

  // ---------------------------------------------------------------------------------------
  // Properties and their setters

  /** The properties that have a setter; the setters are dispatched through this enum. */
  datatype Field = MaxIter | RotationAngle | CentralLines | Offset | ZoomFactor | Antialiasing | ColorField

  datatype FieldValue = IntValue(i: int) | RealValue(r: real) | BoolValue(b: bool)
                      | PointValue(p: Point) | ColorValue(c: Color)

  /** The value type each property holds. */
  predicate Fits(f: Field, x: FieldValue) {
    match f
    case MaxIter => x.IntValue?
    case RotationAngle | ZoomFactor => x.RealValue?
    case CentralLines | Antialiasing => x.BoolValue?
    case Offset => x.PointValue?
    case ColorField => x.ColorValue?
  }

  /** The property getter. */
  function Get(v: View, f: Field): (x: FieldValue)
    ensures Fits(f, x)
  {
    match f
    case MaxIter => IntValue(v.maxIter)
    case RotationAngle => RealValue(v.rotation)
    case CentralLines => BoolValue(v.centralLines)
    case Offset => PointValue(v.offset)
    case ZoomFactor => RealValue(v.zoom)
    case Antialiasing => BoolValue(v.antialiasing)
    case ColorField => ColorValue(v.color)
  }

  /** The property setter: it writes its own field and nothing else. */
  function Set(v: View, f: Field, x: FieldValue): (r: View)
    requires Fits(f, x)
    ensures Get(r, f) == x
    ensures forall g :: g != f ==> Get(r, g) == Get(v, g)
    ensures r.lastMouse == v.lastMouse
  {
    match f
    case MaxIter => v.(maxIter := x.i)
    case RotationAngle => v.(rotation := x.r)
    case CentralLines => v.(centralLines := x.b)
    case Offset => v.(offset := x.p)
    case ZoomFactor => v.(zoom := x.r)
    case Antialiasing => v.(antialiasing := x.b)
    case ColorField => v.(color := x.c)
  }

  /** A view is determined by its properties and the recorded cursor. */
  lemma ViewsAgreeOnFields(v: View, w: View)
    requires forall f :: Get(v, f) == Get(w, f)
    requires v.lastMouse == w.lastMouse
    ensures v == w
  {
    assert Get(v, MaxIter) == Get(w, MaxIter);
    assert Get(v, RotationAngle) == Get(w, RotationAngle);
    assert Get(v, CentralLines) == Get(w, CentralLines);
    assert Get(v, Offset) == Get(w, Offset);
    assert Get(v, ZoomFactor) == Get(w, ZoomFactor);
    assert Get(v, Antialiasing) == Get(w, Antialiasing);
    assert Get(v, ColorField) == Get(w, ColorField);
  }

  /** Setting a property to the value it already has changes nothing. */
  lemma SetOwnValue(v: View, f: Field)
    ensures Set(v, f, Get(v, f)) == v
  {
    ViewsAgreeOnFields(Set(v, f, Get(v, f)), v);
  }

  // ---------------------------------------------------------------------------------------
  // The widget-to-fractal map

  /** `_translate_point` divides by the shorter side and by the zoom factor. */
  predicate Navigable(v: View, size: Size) {
    size.Shorter() != 0 && v.zoom != 0.0
  }

  /** Fractal units per pixel: `2 / min(width, height) / zoom_factor`. */
  function Factor(v: View, size: Size): (f: real)
    requires Navigable(v, size)
    ensures f != 0.0
  {
    var m := size.Shorter() as real;
    assert 2.0 / m != 0.0;
    2.0 / m / v.zoom
  }

  /** `_translate_point`: move the origin to the widget centre, rotate about the offset by
      `pi * rotation_angle`, scale by `Factor`, and flip the Y axis. */
  function TranslatePoint(t: Trig, v: View, size: Size, p: Point): Point
    requires Navigable(v, size)
  {
    var rotated := RotatePoint(t, p.Minus(size.Center()), v.rotation, Some(v.offset));
    var f := Factor(v, size);
    Point(rotated.x * f, -(rotated.y * f))
  }

  /** The inverse map, from a fractal point back to the widget point `TranslatePoint` sends
      to it. The program has no such function; it is the partner `TranslatePoint` is checked
      against. */
  function UntranslatePoint(t: Trig, v: View, size: Size, q: Point): Point
    requires Navigable(v, size)
  {
    var f := Factor(v, size);
    var c, s := t.cos(Pi * v.rotation), t.sin(Pi * v.rotation);
    RotateBack(c, s, Point(q.x / f, -q.y / f)).Plus(v.offset).Plus(size.Center())
  }

  /** `TranslatePoint` is a bijection: it and `UntranslatePoint` undo each other. */
  lemma TranslateRoundTrip(t: Trig, v: View, size: Size, p: Point, q: Point)
    requires TrigLaws(t)
    requires Navigable(v, size)
    ensures UntranslatePoint(t, v, size, TranslatePoint(t, v, size, p)) == p
    ensures TranslatePoint(t, v, size, UntranslatePoint(t, v, size, q)) == q
  {
    UntranslateAfterTranslate(t, v, size, p);
    TranslateAfterUntranslate(t, v, size, q);
  }

  lemma UntranslateAfterTranslate(t: Trig, v: View, size: Size, p: Point)
    requires TrigLaws(t)
    requires Navigable(v, size)
    ensures UntranslatePoint(t, v, size, TranslatePoint(t, v, size, p)) == p
  {
    var f := Factor(v, size);
    var c, s := t.cos(Pi * v.rotation), t.sin(Pi * v.rotation);
    var u := p.Minus(size.Center()).Minus(v.offset);
    var r := Rotate(c, s, u);
    assert TranslatePoint(t, v, size, p) == Point(r.x * f, -(r.y * f));
    assert Point((r.x * f) / f, -(-(r.y * f)) / f) == r;
    RotateBackInverts(c, s, u);
  }

  lemma TranslateAfterUntranslate(t: Trig, v: View, size: Size, q: Point)
    requires TrigLaws(t)
    requires Navigable(v, size)
    ensures TranslatePoint(t, v, size, UntranslatePoint(t, v, size, q)) == q
  {
    var f := Factor(v, size);
    var c, s := t.cos(Pi * v.rotation), t.sin(Pi * v.rotation);
    var w := Point(q.x / f, -q.y / f);
    RotateBackInverts(c, s, w);
    var back := RotateBack(c, s, w);
    assert UntranslatePoint(t, v, size, q).Minus(size.Center()).Minus(v.offset) == back;
    assert w.x * f == q.x && -(w.y * f) == q.y;
  }

  /** The difference of two translated points does not depend on the offset: it is the pixel
      difference, rotated, scaled and flipped. */
  lemma TranslateDifference(t: Trig, v: View, size: Size, p: Point, q: Point)
    requires Navigable(v, size)
    ensures var d := RotatePoint(t, p.Minus(q), v.rotation, None);
            var f := Factor(v, size);
            TranslatePoint(t, v, size, p).Minus(TranslatePoint(t, v, size, q)) == Point(d.x * f, -(d.y * f))
  {
    var f := Factor(v, size);
    var a := p.Minus(size.Center());
    var b := q.Minus(size.Center());
    var ra := RotatePoint(t, a, v.rotation, Some(v.offset));
    var rb := RotatePoint(t, b, v.rotation, Some(v.offset));
    var d := RotatePoint(t, p.Minus(q), v.rotation, None);
    assert ra.Minus(rb) == d by {
      RotatePointDifference(t, a, b, v.rotation, v.offset);
      assert a.Minus(b) == p.Minus(q);
    }
    ScaleFlipDifference(ra, rb, d, f);
  }

  /** Scaling by `f` and flipping the Y axis commutes with taking differences. */
  lemma ScaleFlipDifference(r1: Point, r2: Point, d: Point, f: real)
    requires r1.Minus(r2) == d
    ensures Point(r1.x * f, -(r1.y * f)).Minus(Point(r2.x * f, -(r2.y * f))) == Point(d.x * f, -(d.y * f))
  {
    assert r1.x * f - r2.x * f == (r1.x - r2.x) * f;
    assert -(r1.y * f) - -(r2.y * f) == -((r1.y - r2.y) * f);
  }

  /** So two views that differ only in their offset see the same drag increment. */
  lemma DragIncrementIgnoresOffset(t: Trig, v: View, size: Size, o1: Point, o2: Point, p: Point, q: Point)
    requires Navigable(v, size)
    ensures var v1, v2 := v.(offset := o1), v.(offset := o2);
            TranslatePoint(t, v1, size, p).Minus(TranslatePoint(t, v1, size, q))
            == TranslatePoint(t, v2, size, p).Minus(TranslatePoint(t, v2, size, q))
  {
    TranslateDifference(t, v.(offset := o1), size, p, q);
    TranslateDifference(t, v.(offset := o2), size, p, q);
  }

  // ---------------------------------------------------------------------------------------
  // Mouse and wheel events

  datatype MouseButton = LeftButton | RightButton | MiddleButton | OtherButton

  /** `mouseMoveEvent`: while exactly the left button is held, the offset moves against the
      cursor's translated displacement; the cursor is recorded in every case. */
  function MouseMove(t: Trig, v: View, size: Size, buttons: set<MouseButton>, cursor: Point): (r: View)
    requires buttons == {LeftButton} ==> Navigable(v, size)
    ensures r.lastMouse == cursor
    ensures r.(offset := v.offset, lastMouse := v.lastMouse) == v
    ensures buttons != {LeftButton} ==> r.offset == v.offset
  {
    var dragged :=
      if buttons == {LeftButton} then
        var last := TranslatePoint(t, v, size, v.lastMouse);
        var current := TranslatePoint(t, v, size, cursor);
        v.(offset := v.offset.Minus(current.Minus(last)))
      else v;
    dragged.(lastMouse := cursor)
  }

  /** `mousePressEvent`: the left button records the cursor; the right button re-centres by
      adding the translated cursor to the offset; other buttons do nothing. */
  function MousePress(t: Trig, v: View, size: Size, button: MouseButton, cursor: Point): (r: View)
    requires button == RightButton ==> Navigable(v, size)
    ensures r.(offset := v.offset, lastMouse := v.lastMouse) == v
    ensures button == LeftButton ==> r == v.(lastMouse := cursor)
    ensures button == RightButton ==> r.lastMouse == v.lastMouse
    ensures button == RightButton ==> r.offset == v.offset.Plus(TranslatePoint(t, v, size, cursor))
    ensures button !in {LeftButton, RightButton} ==> r == v
  {
    match button
    case LeftButton => v.(lastMouse := cursor)
    case RightButton => v.(offset := v.offset.Plus(TranslatePoint(t, v, size, cursor)))
    case _ => v
  }

  /** `wheelEvent`: the zoom factor is multiplied by `1.1 ** (delta / 100)`. */
  function Wheel(pow: PowFn, v: View, delta: int): (r: View)
    ensures r.(zoom := v.zoom) == v
  {
    v.(zoom := v.zoom * ZoomStep(pow, delta))
  }

  /** The factor one wheel event applies, `1.1 ** (delta / 100)`. */
  function ZoomStep(pow: PowFn, delta: int): real {
    pow(1.1, delta as real / 100.0)
  }

  /** Scaling by the steps of two deltas is scaling by the step of their sum. */
  lemma ZoomStepsCompose(pow: PowFn, z: real, d1: int, d2: int)
    requires PowLaws(pow)
    ensures z * ZoomStep(pow, d1) * ZoomStep(pow, d2) == z * ZoomStep(pow, d1 + d2)
  {
    ExponentsAdd(d1, d2);
    PowScaleTwice(pow, z, 1.1, d1 as real / 100.0, d2 as real / 100.0, (d1 + d2) as real / 100.0);
  }

  /** Dragging from A to B and back to A restores the offset (and the recorded cursor). */
  lemma DragRoundTrip(t: Trig, v: View, size: Size, a: Point, b: Point)
    requires Navigable(v, size)
    requires v.lastMouse == a
    ensures var v1 := MouseMove(t, v, size, {LeftButton}, b);
            Navigable(v1, size) && MouseMove(t, v1, size, {LeftButton}, a) == v
  {
    var v1 := MouseMove(t, v, size, {LeftButton}, b);
    var v2 := MouseMove(t, v1, size, {LeftButton}, a);
    assert v2.offset == v.offset by {
      var ta, tb := TranslatePoint(t, v, size, a), TranslatePoint(t, v, size, b);
      var ua, ub := TranslatePoint(t, v1, size, a), TranslatePoint(t, v1, size, b);
      assert v1.offset == v.offset.Minus(tb.Minus(ta));
      assert v2.offset == v1.offset.Minus(ua.Minus(ub));
      assert ub.Minus(ua) == tb.Minus(ta) by {
        assert Factor(v1, size) == Factor(v, size);
        TranslateDifference(t, v, size, b, a);
        TranslateDifference(t, v1, size, b, a);
      }
    }
  }

  /** Without rotation, a left drag by (dx, dy) pixels moves the offset by
      (-dx * f, +dy * f) with `f` the fractal units per pixel. */
  lemma DragWithoutRotation(t: Trig, v: View, size: Size, cursor: Point)
    requires TrigLaws(t)
    requires Navigable(v, size)
    requires v.rotation == 0.0
    ensures var f := Factor(v, size);
            var d := cursor.Minus(v.lastMouse);
            MouseMove(t, v, size, {LeftButton}, cursor).offset
              == v.offset.Plus(Point(-d.x * f, d.y * f))
  {
    TranslateDifference(t, v, size, cursor, v.lastMouse);
    RotateByZero(t, cursor.Minus(v.lastMouse), Origin);
  }

  /** What a right click on the exact widget centre does without rotation: the offset is
      scaled by `1 - f` in x and `1 + f` in y, because the rotation centre `offset` (fractal
      units) is subtracted from a pixel-space vector; the view only stays put at offset 0. */
  lemma RightClickAtCentre(t: Trig, v: View, size: Size)
    requires TrigLaws(t)
    requires Navigable(v, size)
    requires v.rotation == 0.0
    ensures var f := Factor(v, size);
            MousePress(t, v, size, RightButton, size.Center()).offset
              == Point(v.offset.x - v.offset.x * f, v.offset.y + v.offset.y * f)
  {
    RotateByZero(t, Origin, v.offset);
  }

  /** A right click moves the offset by the fractal point under the cursor, so it leaves the
      view alone at the widget point `TranslatePoint` sends to 0 (which is the widget centre
      only when the offset is 0). */
  lemma RightClickFixedPoint(t: Trig, v: View, size: Size)
    requires TrigLaws(t)
    requires Navigable(v, size)
    ensures MousePress(t, v, size, RightButton, UntranslatePoint(t, v, size, Origin)) == v
  {
    TranslateRoundTrip(t, v, size, Origin, Origin);
  }

  /** The wheel keeps a positive zoom positive, and a zero delta changes nothing. */
  lemma WheelKeepsZoomPositive(pow: PowFn, v: View, delta: int)
    requires PowLaws(pow)
    requires 0.0 < v.zoom
    ensures 0.0 < Wheel(pow, v, delta).zoom
    ensures delta == 0 ==> Wheel(pow, v, delta) == v
  {
    if delta == 0 {
      PowZero(pow, 1.1);
      assert ZoomStep(pow, delta) == 1.0;
    }
  }

  /** Two wheel events compose into one carrying the summed delta, so their order does not
      matter. */
  lemma WheelCompose(pow: PowFn, v: View, d1: int, d2: int)
    requires PowLaws(pow)
    ensures Wheel(pow, Wheel(pow, v, d1), d2) == Wheel(pow, v, d1 + d2)
    ensures Wheel(pow, Wheel(pow, v, d1), d2) == Wheel(pow, Wheel(pow, v, d2), d1)
  {
    ZoomStepsCompose(pow, v.zoom, d1, d2);
    ZoomStepsCompose(pow, v.zoom, d2, d1);
  }

  lemma ExponentsAdd(d1: int, d2: int)
    ensures d1 as real / 100.0 + d2 as real / 100.0 == (d1 + d2) as real / 100.0
  {
  }

  function Sum(ds: seq<int>): int {
    if |ds| == 0 then 0 else Sum(ds[..|ds| - 1]) + ds[|ds| - 1]
  }

  /** A sequence of wheel events, applied in order. */
  function WheelAll(pow: PowFn, v: View, ds: seq<int>): View {
    if |ds| == 0 then v else Wheel(pow, WheelAll(pow, v, ds[..|ds| - 1]), ds[|ds| - 1])
  }

  /** Any sequence of wheel events multiplies the zoom by `1.1 ** (sum / 100)`. */
  lemma {:induction false} WheelSequence(pow: PowFn, v: View, ds: seq<int>)
    requires PowLaws(pow)
    ensures WheelAll(pow, v, ds) == Wheel(pow, v, Sum(ds))
  {
    if |ds| == 0 {
      PowZero(pow, 1.1);
    } else {
      var init := ds[..|ds| - 1];
      WheelSequence(pow, v, init);
      WheelCompose(pow, v, Sum(init), ds[|ds| - 1]);
    }
  }
}

=== FILE: fractal3d.dfy ===
/** `fractals/abstract/fractal_3d.py`, the base of the 3D fractals. Its fields, defaults,
    setters and navigation handlers are a line-for-line copy of `fractal_2d.py`; the model
    writes the copied handlers out once more and proves each equal to its `Fractal2D`
    original, so every navigation fact about the 2D view holds here as well. What differs is
    persistence: the base class refuses to save or load. */
module Fractal3D {
  import opened Basics
  import opened RealMath
  import opened Geometry
  import opened Fractal2D
  import Json

  /** `__init__`: the same defaults as the 2D view. */
  function Init3D(cursor: Point): (r: View)
    ensures r == Init(cursor)
    ensures r.maxIter == 100 && r.offset == Origin && r.zoom == 1.0 && r.rotation == 0.0
    ensures !r.centralLines && !r.antialiasing && r.color == White && r.lastMouse == cursor
  {
    View(100, Point(0.0, 0.0), 1.0, Color(1.0, 1.0, 1.0, 1.0), false, false, 0.0, cursor)
  }

  /** `_translate_point` as `fractal_3d.py` spells it. */
  function TranslatePoint3D(t: Trig, v: View, size: Size, p: Point): (r: Point)
    requires Navigable(v, size)
    ensures r == TranslatePoint(t, v, size, p)
  {
    var centred := p.Minus(Point(size.width as real / 2.0, size.height as real / 2.0));
    var rotated := RotatePoint(t, centred, v.rotation, Some(v.offset));
    var factor := 2.0 / Min(size.width, size.height) as real / v.zoom;
    Point(rotated.x * factor, -(rotated.y * factor))
  }

  /** `mouseMoveEvent` of `fractal_3d.py`. */
  function MouseMove3D(t: Trig, v: View, size: Size, buttons: set<MouseButton>, cursor: Point): (r: View)
    requires buttons == {LeftButton} ==> Navigable(v, size)
    ensures r == MouseMove(t, v, size, buttons, cursor)
  {
    var moved :=
      if buttons == {LeftButton} then
        var diff := TranslatePoint3D(t, v, size, cursor).Minus(TranslatePoint3D(t, v, size, v.lastMouse));
        v.(offset := v.offset.Minus(diff))
      else v;
    moved.(lastMouse := cursor)
  }

  /** `mousePressEvent` of `fractal_3d.py`. */
  function MousePress3D(t: Trig, v: View, size: Size, button: MouseButton, cursor: Point): (r: View)
    requires button == RightButton ==> Navigable(v, size)
    ensures r == MousePress(t, v, size, button, cursor)
  {
    if button == LeftButton then v.(lastMouse := cursor)
    else if button == RightButton then v.(offset := v.offset.Plus(TranslatePoint3D(t, v, size, cursor)))
    else v
  }

  /** `wheelEvent` of `fractal_3d.py`. */
  function Wheel3D(pow: PowFn, v: View, delta: int): (r: View)
    ensures r == Wheel(pow, v, delta)
  {
    v.(zoom := v.zoom * pow(1.1, delta as real / 100.0))
  }

  /** A left drag from A to B and back restores the 3D view, as it does the 2D one. */
  lemma DragRoundTrip3D(t: Trig, v: View, size: Size, a: Point, b: Point)
    requires Navigable(v, size)
    requires v.lastMouse == a
    ensures var v1 := MouseMove3D(t, v, size, {LeftButton}, b);
            Navigable(v1, size) && MouseMove3D(t, v1, size, {LeftButton}, a) == v
  {
    DragRoundTrip(t, v, size, a, b);
  }

  /** The wheel keeps a positive zoom positive. */
  lemma WheelKeepsZoomPositive3D(pow: PowFn, v: View, delta: int)
    requires PowLaws(pow)
    requires 0.0 < v.zoom
    ensures 0.0 < Wheel3D(pow, v, delta).zoom
  {
    WheelKeepsZoomPositive(pow, v, delta);
  }

  /** What `_current_state` and `_load_state` raise. */
  datatype StateError = RuntimeError

  /** `_current_state`: the base class has no state to save. */
  function CurrentState(v: View): (r: Result<Json.Value, StateError>)
    ensures r.Err?
  {
    Err(RuntimeError)
  }

  /** `_load_state`: whatever the state, loading raises and the view is left as it was. */
  function LoadState(v: View, state: Json.Value): (r: Result<View, StateError>)
    ensures r.Err?
  {
    Err(RuntimeError)
  }
}

=== FILE: geometry.dfy ===
/** Plane points and the rotation helper of `util/geometry.py`. */
module Geometry {
  import opened RealMath
  import opened Basics

  /** A `QPointF` with real coordinates. */
  datatype Point = Point(x: real, y: real) {
    function Plus(q: Point): Point { Point(x + q.x, y + q.y) }
    function Minus(q: Point): Point { Point(x - q.x, y - q.y) }
    function Times(k: real): Point { Point(x * k, y * k) }
    function Negated(): Point { Point(-x, -y) }
    function NormSquared(): real { x * x + y * y }
  }

  const Origin := Point(0.0, 0.0)

  /** A point in space, as the 3D fractals keep their offset and their C. */
  datatype Vec3 = Vec3(x: real, y: real, z: real) {
    function Plus(q: Vec3): Vec3 { Vec3(x + q.x, y + q.y, z + q.z) }
    function Minus(q: Vec3): Vec3 { Vec3(x - q.x, y - q.y, z - q.z) }
    function NormSquared(): real { x * x + y * y + z * z }
  }

  /** Rotation of a vector by the angle whose cosine is `c` and sine is `s`. */
  function Rotate(c: real, s: real, v: Point): Point {
    Point(v.x * c - v.y * s, v.x * s + v.y * c)
  }

  /** The transpose rotation, which undoes `Rotate` when `c*c + s*s == 1`. */
  function RotateBack(c: real, s: real, v: Point): Point {
    Point(v.x * c + v.y * s, v.y * c - v.x * s)
  }

  lemma RotateBackInverts(c: real, s: real, v: Point)
    requires c * c + s * s == 1.0
    ensures RotateBack(c, s, Rotate(c, s, v)) == v
    ensures Rotate(c, s, RotateBack(c, s, v)) == v
  {
    var r := Rotate(c, s, v);
    calc {
      r.x * c + r.y * s;
      (v.x * c - v.y * s) * c + (v.x * s + v.y * c) * s;
      v.x * (c * c + s * s);
    }
    calc {
      r.y * c - r.x * s;
      (v.x * s + v.y * c) * c - (v.x * c - v.y * s) * s;
      v.y * (c * c + s * s);
    }
    var b := RotateBack(c, s, v);
    calc {
      b.x * c - b.y * s;
      (v.x * c + v.y * s) * c - (v.y * c - v.x * s) * s;
      v.x * (c * c + s * s);
    }
    calc {
      b.x * s + b.y * c;
      (v.x * c + v.y * s) * s + (v.y * c - v.x * s) * c;
      v.y * (c * c + s * s);
    }
  }

  lemma RotatePreservesNorm(c: real, s: real, v: Point)
    requires c * c + s * s == 1.0
    ensures Rotate(c, s, v).NormSquared() == v.NormSquared()
  {
    var r := Rotate(c, s, v);
    calc {
      r.x * r.x + r.y * r.y;
      (v.x * c - v.y * s) * (v.x * c - v.y * s) + (v.x * s + v.y * c) * (v.x * s + v.y * c);
      (v.x * v.x + v.y * v.y) * (c * c + s * s);
    }
  }

  /** `rotate_point(point, angle, center)`: the vector from `center` (the origin when no centre
      is given) to `point`, turned by `pi * angle` radians, so `angle` counts half-turns. The
      centre is not added back: rotating the centre itself yields the origin. */
  function RotatePoint(t: Trig, p: Point, angle: real, center: Option<Point>): (r: Point)
    ensures center.Some? && p == center.value ==> r == Origin
  {
    var c0 := if center.None? then Origin else center.value;
    Rotate(t.cos(Pi * angle), t.sin(Pi * angle), p.Minus(c0))
  }

  /** Leaving out the centre is the same as rotating about the origin. */
  lemma RotateDefaultCentre(t: Trig, p: Point, angle: real)
    ensures RotatePoint(t, p, angle, None) == RotatePoint(t, p, angle, Some(Origin))
  {
  }

  /** Angle 0 leaves the offset vector `p - center` as it is. */
  lemma RotateByZero(t: Trig, p: Point, center: Point)
    requires TrigLaws(t)
    ensures RotatePoint(t, p, 0.0, Some(center)) == p.Minus(center)
  {
  }

  /** Angle 1 is a half-turn: the offset vector is negated. */
  lemma RotateByHalfTurn(t: Trig, p: Point, center: Point)
    requires TrigLaws(t)
    ensures RotatePoint(t, p, 1.0, Some(center)) == p.Minus(center).Negated()
  {
  }

  /** The distance to the centre is preserved. */
  lemma RotatePointPreservesDistance(t: Trig, p: Point, angle: real, center: Point)
    requires TrigLaws(t)
    ensures RotatePoint(t, p, angle, Some(center)).NormSquared() == p.Minus(center).NormSquared()
  {
    RotatePreservesNorm(t.cos(Pi * angle), t.sin(Pi * angle), p.Minus(center));
  }

  /** `Rotate` is linear in the vector. */
  lemma RotateMinus(c: real, s: real, u: Point, w: Point)
    ensures Rotate(c, s, u).Minus(Rotate(c, s, w)) == Rotate(c, s, u.Minus(w))
  {
    assert u.x * c - u.y * s - (w.x * c - w.y * s) == (u.x - w.x) * c - (u.y - w.y) * s;
    assert u.x * s + u.y * c - (w.x * s + w.y * c) == (u.x - w.x) * s + (u.y - w.y) * c;
  }

  /** Rotation is linear: the difference of two rotated points is the rotated difference,
      whatever the common centre. */
  lemma RotatePointDifference(t: Trig, p: Point, q: Point, angle: real, center: Point)
    ensures RotatePoint(t, p, angle, Some(center)).Minus(RotatePoint(t, q, angle, Some(center)))
         == RotatePoint(t, p.Minus(q), angle, None)
  {
    var c, s := t.cos(Pi * angle), t.sin(Pi * angle);
    RotateMinus(c, s, p.Minus(center), q.Minus(center));
    assert p.Minus(center).Minus(q.Minus(center)) == p.Minus(q).Minus(Origin);
  }

  /** Turning the opposite vector gives the opposite result. */
  lemma RotatePointNegated(t: Trig, p: Point, angle: real)
    ensures RotatePoint(t, p.Negated(), angle, None) == RotatePoint(t, p, angle, None).Negated()
  {
  }
}

=== FILE: json.dfy ===
/** The JSON records `_save_state` writes with `json.dump` and `_load_state` reads back with
    `json.load`, and the lookups `state["color"]["red"]` the loaders perform. Only the shape of
    the data is modelled, not its text: the file and its encoding are left out. */
module Json {
  import opened Basics

  /** Every key any of the save functions writes. */
  datatype Key =
    | MaxIterKey | ZoomFactorKey | CentralLinesKey | RotationAngleKey | PowerKey | AntialiasingKey
    | ColorKey | BgColorKey | RedKey | GreenKey | BlueKey | AlphaKey
    | OffsetKey | XKey | YKey | CPolarKey | ArgKey | AbsKey
    | HAngleKey | VAngleKey | CutKey | AbsCKey | ArgxCKey | ArgyCKey
    | DepthKey | RotateYKey | AoKey | ShadowsKey

  /** The key as it appears in the file; the names are pairwise distinct, so a record keyed by
      `Key` pictures the dictionary keyed by the strings. */
  function KeyName(k: Key): string {
    match k
    case MaxIterKey => "max_iter"
    case ZoomFactorKey => "zoom_factor"
    case CentralLinesKey => "central_lines"
    case RotationAngleKey => "rotation_angle"
    case PowerKey => "power"
    case AntialiasingKey => "antialiasing"
    case ColorKey => "color"
    case BgColorKey => "bg_color"
    case RedKey => "red"
    case GreenKey => "green"
    case BlueKey => "blue"
    case AlphaKey => "alpha"
    case OffsetKey => "offset"
    case XKey => "x"
    case YKey => "y"
    case CPolarKey => "c_polar"
    case ArgKey => "arg"
    case AbsKey => "abs"
    case HAngleKey => "h_angle"
    case VAngleKey => "v_angle"
    case CutKey => "cut"
    case AbsCKey => "abs_c"
    case ArgxCKey => "argx_c"
    case ArgyCKey => "argy_c"
    case DepthKey => "depth"
    case RotateYKey => "rotate_y"
    case AoKey => "ao"
    case ShadowsKey => "shadows"
  }

  /** A JSON value as `json.load` returns it: integers and floats stay apart, objects are
      dictionaries. */
  datatype Value =
    | JInt(i: int)
    | JReal(r: real)
    | JBool(b: bool)
    | JObject(fields: map<Key, Value>)

  /** What a lookup raises: `KeyError` on a missing key, or a value of the wrong shape. */
  datatype LoadError = MissingKey(key: Key) | WrongType(key: Key)

  /** `state[k1][k2]...`: each step needs an object that has the key. */
  function Lookup(j: Value, path: seq<Key>): (r: Result<Value, LoadError>)
    requires |path| > 0
    ensures r.Err? ==> r.error.key in path
    ensures j.JObject? && path[0] in j.fields && |path| == 1 ==> r == Ok(j.fields[path[0]])
    decreases |path|
  {
    if !j.JObject? then Err(WrongType(path[0]))
    else if path[0] !in j.fields then Err(MissingKey(path[0]))
    else if |path| == 1 then Ok(j.fields[path[0]])
    else Lookup(j.fields[path[0]], path[1..])
  }

  /** A number read where the program expects a float; an integer is accepted as one. */
  function GetReal(j: Value, path: seq<Key>): (r: Result<real, LoadError>)
    requires |path| > 0
    ensures r.Ok? <==> Lookup(j, path).Ok? && (Lookup(j, path).value.JReal? || Lookup(j, path).value.JInt?)
  {
    match Lookup(j, path)
    case Err(e) => Err(e)
    case Ok(JReal(x)) => Ok(x)
    case Ok(JInt(n)) => Ok(n as real)
    case Ok(_) => Err(WrongType(path[|path| - 1]))
  }

  /** An integer read where the program expects an int. */
  function GetInt(j: Value, path: seq<Key>): (r: Result<int, LoadError>)
    requires |path| > 0
    ensures r.Ok? <==> Lookup(j, path).Ok? && Lookup(j, path).value.JInt?
    ensures r.Ok? ==> Lookup(j, path).value == JInt(r.value)
  {
    match Lookup(j, path)
    case Err(e) => Err(e)
    case Ok(JInt(n)) => Ok(n)
    case Ok(_) => Err(WrongType(path[|path| - 1]))
  }

  /** A boolean read where the program expects a bool. */
  function GetBool(j: Value, path: seq<Key>): (r: Result<bool, LoadError>)
    requires |path| > 0
    ensures r.Ok? <==> Lookup(j, path).Ok? && Lookup(j, path).value.JBool?
    ensures r.Ok? ==> Lookup(j, path).value == JBool(r.value)
  {
    match Lookup(j, path)
    case Err(e) => Err(e)
    case Ok(JBool(b)) => Ok(b)
    case Ok(_) => Err(WrongType(path[|path| - 1]))
  }

  /** Reading back what was written: a saved float, int or bool comes back unchanged, one
      level deep or two. */
  lemma ReadBack(m: map<Key, Value>, k: Key, inner: Key)
    ensures k in m && m[k].JReal? ==> GetReal(JObject(m), [k]) == Ok(m[k].r)
    ensures k in m && m[k].JInt? ==> GetInt(JObject(m), [k]) == Ok(m[k].i)
    ensures k in m && m[k].JBool? ==> GetBool(JObject(m), [k]) == Ok(m[k].b)
    ensures k in m && m[k].JObject? && inner in m[k].fields && m[k].fields[inner].JReal? ==>
              GetReal(JObject(m), [k, inner]) == Ok(m[k].fields[inner].r)
  {
    if k in m && m[k].JObject? && inner in m[k].fields {
      assert [k, inner][1..] == [inner];
    }
  }
}

=== FILE: julia2d.dfy ===
/** `fractals/julia_2d.py`: the 2D Julia set. On top of the navigable view it holds the
    parameter C in polar form (`arg_c`, `abs_c`) and the power, animates `arg_c`, `abs_c` and
    `zoom_factor`, and saves and loads its state as a JSON record. */
module Julia2D {
  import opened Basics
  import opened RealMath
  import opened Geometry
  import opened Fractal2D
  import opened Json
  import opened Records2D
  import opened Animation
  import opened AnimWidget
  import Sliders

  /** `name()` of the older `fractals/julia2d.py`, which keeps the same C, power, setters and
      Cartesian C. */
  const LegacyName: string := "Julia 2D"

  /** The widget's state. `cPolar` holds `arg_c` as its x and `abs_c` as its y, as the
      program's `QPointF` does. The three animation entries are the values of `_anim_params`,
      in its key order `arg_c`, `abs_c`, `zoom_factor`. */
  datatype Julia = Julia(
    view: View,
    cPolar: Point,
    power: real,
    argAnim: RawConfig,
    absAnim: RawConfig,
    zoomAnim: RawConfig)

  /** `__init__`: the view's defaults, C = 0.7 at angle pi, power 2, and animation entries that
      know only their step and speed functions. */
  function Init(cursor: Point): (r: Julia)
    ensures r.view == Fractal2D.Init(cursor)
    ensures r.cPolar.x == Pi && r.cPolar.y == 0.7 && r.power == 2.0
    ensures r.argAnim == Fresh(Additive) && r.absAnim == Fresh(Additive) && r.zoomAnim == Fresh(Geometric)
  {
    Julia(Fractal2D.Init(cursor), Point(Pi, 0.7), 2.0, Fresh(Additive), Fresh(Additive), Fresh(Geometric))
  }

  // ---------------------------------------------------------------------------------------
  // Properties

  /** The `arg_c` setter moves only the angle of C. */
  function SetArgC(s: Julia, a: real): (r: Julia)
    ensures r.cPolar.x == a && r.cPolar.y == s.cPolar.y
    ensures r.view == s.view && r.power == s.power
    ensures r.argAnim == s.argAnim && r.absAnim == s.absAnim && r.zoomAnim == s.zoomAnim
  {
    s.(cPolar := Point(a, s.cPolar.y))
  }

  /** The `abs_c` setter moves only the modulus of C. */
  function SetAbsC(s: Julia, m: real): (r: Julia)
    ensures r.cPolar.y == m && r.cPolar.x == s.cPolar.x
    ensures r.view == s.view && r.power == s.power
    ensures r.argAnim == s.argAnim && r.absAnim == s.absAnim && r.zoomAnim == s.zoomAnim
  {
    s.(cPolar := Point(s.cPolar.x, m))
  }

  /** The `power` setter. */
  function SetPower(s: Julia, p: real): (r: Julia)
    ensures r.power == p && r.view == s.view && r.cPolar == s.cPolar
    ensures r.argAnim == s.argAnim && r.absAnim == s.absAnim && r.zoomAnim == s.zoomAnim
  {
    s.(power := p)
  }

  /** Setting the angle and the modulus commute, and setting one back undoes it. */
  lemma PolarSettersIndependent(s: Julia, a: real, m: real)
    ensures SetAbsC(SetArgC(s, a), m) == SetArgC(SetAbsC(s, m), a)
    ensures SetArgC(SetArgC(s, a), s.cPolar.x) == s
    ensures SetAbsC(SetAbsC(s, m), s.cPolar.y) == s
  {
  }

  /** `cartesian_c`: C as `abs * cos(arg) + i * abs * sin(arg)`, the point at distance `abs`
      from the origin in direction `arg`: its squared length is `abs` squared whenever sine and
      cosine obey cos^2 + sin^2 = 1. */
  function CartesianC(t: Trig, cPolar: Point): (c: Point)
    ensures c.x == cPolar.y * t.cos(cPolar.x) && c.y == cPolar.y * t.sin(cPolar.x)
    ensures TrigLaws(t) ==> c.NormSquared() == cPolar.y * cPolar.y
  {
    PolarNorm(t, cPolar.y, cPolar.x);
    Point(cPolar.y * t.cos(cPolar.x), cPolar.y * t.sin(cPolar.x))
  }

  /** The algebra behind `CartesianC`'s length. */
  lemma PolarNorm(t: Trig, m: real, a: real)
    ensures TrigLaws(t) ==>
              (m * t.cos(a)) * (m * t.cos(a)) + (m * t.sin(a)) * (m * t.sin(a)) == m * m
  {
    if TrigLaws(t) {
      var c, s := t.cos(a), t.sin(a);
      assert c * c + s * s == 1.0;
      calc {
        (m * c) * (m * c) + (m * s) * (m * s);
        m * m * (c * c + s * s);
        m * m;
      }
    }
  }

  /** The modulus of the Cartesian C is `abs_c` (its square is `abs_c` squared, and a
      non-negative `abs_c` is the root). At angle 0 C is real and positive; the default angle
      pi puts the default C at -0.7. */
  lemma CartesianModulus(t: Trig, cPolar: Point)
    requires TrigLaws(t)
    ensures CartesianC(t, cPolar).NormSquared() == cPolar.y * cPolar.y
    ensures cPolar.x == 0.0 ==> CartesianC(t, cPolar) == Point(cPolar.y, 0.0)
    ensures cPolar == Point(Pi, 0.7) ==> CartesianC(t, cPolar) == Point(-0.7, 0.0)
  {
  }

  // ---------------------------------------------------------------------------------------
  // Saving and loading

  /** `_save_state`: the view's entries and the power, and C under `c_polar`. */
  function Save(s: Julia): (j: Value)
    ensures j.JObject? && CPolarKey in j.fields && PowerKey in j.fields
    ensures j.fields[CPolarKey] == JObject(map[ArgKey := JReal(s.cPolar.x), AbsKey := JReal(s.cPolar.y)])
    ensures j.fields[PowerKey] == JReal(s.power)
  {
    JObject(ViewEntries(s.view, s.power)
            + map[CPolarKey := JObject(map[ArgKey := JReal(s.cPolar.x), AbsKey := JReal(s.cPolar.y)])])
  }

  /** `_load_state`: the view's entries and the power, then `arg_c` and `abs_c`, each assigned
      as soon as it is read; the first missing or mistyped entry stops the load there. The
      animation entries are not part of the record. */
  function Load(s: Julia, j: Value): (r: Partial<Julia, LoadError>)
    ensures r.state.argAnim == s.argAnim && r.state.absAnim == s.absAnim && r.state.zoomAnim == s.zoomAnim
    ensures r.state.view.lastMouse == s.view.lastMouse
  {
    var head := LoadView(ViewAndPower(s.view, s.power), j);
    var s1 := s.(view := head.state.view, power := head.state.power);
    if head.error.Some? then Partial(s1, head.error)
    else
      match GetReal(j, [CPolarKey, ArgKey])
      case Err(e) => Partial(s1, Some(e))
      case Ok(arg) =>
        var s2 := SetArgC(s1, arg);
        match GetReal(j, [CPolarKey, AbsKey])
        case Err(e) => Partial(s2, Some(e))
        case Ok(abs) => Partial(SetAbsC(s2, abs), None)
  }

  /** Loading a saved record restores every saved field (the view, the power and C); only the
      recorded cursor and the animation entries, which are not saved, stay as they were. */
  lemma SaveLoadRoundTrip(s: Julia, t: Julia)
    ensures Load(t, Save(s)) == Partial(t.(view := s.view.(lastMouse := t.view.lastMouse),
                                          cPolar := s.cPolar, power := s.power), None)
  {
    var extra := map[CPolarKey := JObject(map[ArgKey := JReal(s.cPolar.x), AbsKey := JReal(s.cPolar.y)])];
    LoadViewRoundTrip(ViewAndPower(s.view, s.power), ViewAndPower(t.view, t.power), extra);
    var m := ViewEntries(s.view, s.power) + extra;
    ReadBack(m, CPolarKey, ArgKey);
    ReadBack(m, CPolarKey, AbsKey);
  }

  /** The load is not atomic: a record without `c_polar` raises only after the view and the
      power have been assigned, and leaves C as it was. */
  lemma LoadWithoutC(s: Julia, t: Julia)
    ensures Load(t, JObject(ViewEntries(s.view, s.power)))
         == Partial(t.(view := s.view.(lastMouse := t.view.lastMouse), power := s.power),
                    Some(MissingKey(CPolarKey)))
  {
    var m := ViewEntries(s.view, s.power);
    assert m + map[] == m;
    LoadViewRoundTrip(ViewAndPower(s.view, s.power), ViewAndPower(t.view, t.power), map[]);
    assert CPolarKey !in m;
    assert Lookup(JObject(m), [CPolarKey, ArgKey]) == Err(MissingKey(CPolarKey));
  }

  // ---------------------------------------------------------------------------------------
  // Animation

  /** The animated properties, in the order of `_anim_params`. */
  function AnimValues(s: Julia): (vs: seq<real>)
    ensures |vs| == 3
  {
    [s.cPolar.x, s.cPolar.y, s.view.zoom]
  }

  /** Writing the animated properties back through their setters. */
  function WithAnimValues(s: Julia, vs: seq<real>): (r: Julia)
    requires |vs| == 3
  {
    SetAbsC(SetArgC(s, vs[0]), vs[1]).(view := s.view.(zoom := vs[2]))
  }

  /** `AnimValues` and `WithAnimValues` are inverse, and writing touches nothing but the three
      animated properties. */
  lemma AnimValuesRoundTrip(s: Julia, vs: seq<real>)
    requires |vs| == 3
    ensures AnimValues(WithAnimValues(s, vs)) == vs
    ensures WithAnimValues(s, AnimValues(s)) == s
    ensures var r := WithAnimValues(s, vs);
            r.power == s.power && r.view.(zoom := s.view.zoom) == s.view
            && r.argAnim == s.argAnim && r.absAnim == s.absAnim && r.zoomAnim == s.zoomAnim
  {
  }

  /** The three entries as `_step_params` reads them, in order; the first that cannot be read
      raises `KeyError`. */
  function Configs(s: Julia): (r: Result<seq<AnimConfig>, ConfigField>)
    ensures r.Ok? <==> Read(s.argAnim).Ok? && Read(s.absAnim).Ok? && Read(s.zoomAnim).Ok?
    ensures r.Ok? ==> r.value == [Read(s.argAnim).value, Read(s.absAnim).value, Read(s.zoomAnim).value]
  {
    match Read(s.argAnim)
    case Err(e) => Err(e)
    case Ok(a) =>
      match Read(s.absAnim)
      case Err(e) => Err(e)
      case Ok(b) =>
        match Read(s.zoomAnim)
        case Err(e) => Err(e)
        case Ok(c) => Ok([a, b, c])
  }

  /** Before the animation panel is built the entries lack `use`, so stepping or jumping
      would raise `KeyError` on the first one. */
  lemma InitConfigsUnread(cursor: Point)
    ensures Configs(Init(cursor)) == Err(UseField)
  {
  }

  /** `animation_controls`: the three widgets, for `Arg(C)` and `Abs(C)` with initial value 0.1
      stored as is, and for the zoom with initial value 0 stored as `exp(value)`; all with the
      default scope. */
  function AnimationControls(exp: ExpFn, s: Julia): (r: (Julia, seq<Widget>))
    ensures |r.1| == 3
    ensures r.0.view == s.view && r.0.cPolar == s.cPolar && r.0.power == s.power
    ensures r.0.argAnim == Construct(0.1, x => x, DefaultLow, DefaultHigh, s.argAnim).1
    ensures r.0.absAnim == Construct(0.1, x => x, DefaultLow, DefaultHigh, s.absAnim).1
    ensures r.0.zoomAnim == Construct(0.0, exp, DefaultLow, DefaultHigh, s.zoomAnim).1
  {
    var (wa, ra) := Construct(0.1, x => x, DefaultLow, DefaultHigh, s.argAnim);
    var (wb, rb) := Construct(0.1, x => x, DefaultLow, DefaultHigh, s.absAnim);
    var (wz, rz) := Construct(0.0, exp, DefaultLow, DefaultHigh, s.zoomAnim);
    (s.(argAnim := ra, absAnim := rb, zoomAnim := rz), [wa, wb, wz])
  }

  /** Once the panel is built every entry is readable and unused, the polar entries run from
      0.1 to 0.1, and the zoom entry from `exp(0)` to `exp(0)`; each widget agrees with its
      entry. */
  lemma ControlsSeedConfigs(exp: ExpFn, cursor: Point)
    ensures var (s, ws) := AnimationControls(exp, Init(cursor));
            && Configs(s).Ok?
            && Configs(s).value == [AnimConfig(Additive, false, 0.0, 0.0), AnimConfig(Additive, false, 0.0, 0.0),
                                    AnimConfig(Geometric, false, 0.0, 0.0)]
            && s.argAnim.start == s.argAnim.end == Some(0.1)
            && s.absAnim.start == s.absAnim.end == Some(0.1)
            && s.zoomAnim.start == s.zoomAnim.end == Some(exp(0.0))
            && Consistent(ws[0], s.argAnim) && Consistent(ws[1], s.absAnim) && Consistent(ws[2], s.zoomAnim)
            && Synced(ws[2], s.zoomAnim, exp)
  {
    var s := Init(cursor);
    ConstructConsistent(0.1, x => x, DefaultLow, DefaultHigh, s.argAnim);
    ConstructConsistent(0.1, x => x, DefaultLow, DefaultHigh, s.absAnim);
    ConstructConsistent(0.0, exp, DefaultLow, DefaultHigh, s.zoomAnim);
  }

  /** One `_step_params` call on the Julia set: every used property takes one step; the power
      and the rest of the view do not change. The program reads each config just before it
      writes that parameter, so an unreadable later config would raise after earlier writes;
      the model reads all three first. The two agree whenever the configs are readable, which
      they always are once the widgets have run (`ControlsSeedConfigs`). */
  function AnimStep(pow: PowFn, s: Julia, steps: real): (r: Result<Partial<Julia, AnimError>, ConfigField>)
    ensures r.Ok? <==> Configs(s).Ok?
    ensures r.Err? ==> r.error == Configs(s).error
    ensures r.Ok? ==> r.value.state.power == s.power && r.value.state.view.(zoom := s.view.zoom) == s.view
    ensures r.Ok? ==> AnimValues(r.value.state) == StepParams(pow, Configs(s).value, AnimValues(s), steps).state
  {
    match Configs(s)
    case Err(e) => Err(e)
    case Ok(cs) =>
      var stepped := StepParams(pow, cs, AnimValues(s), steps);
      AnimValuesRoundTrip(s, stepped.state);
      Ok(Partial(WithAnimValues(s, stepped.state), stepped.error))
  }

  /** `_show_start_animation_state` (or, with `toEnd`, `_show_end_animation_state`). As in
      `AnimStep`, the configs are read before any write, which agrees with the program
      whenever they are readable. */
  function AnimJump(s: Julia, toEnd: bool): (r: Result<Julia, ConfigField>)
    ensures r.Ok? <==> Configs(s).Ok?
    ensures r.Ok? ==> r.value.power == s.power && r.value.view.(zoom := s.view.zoom) == s.view
    ensures r.Ok? ==> AnimValues(r.value) == JumpFrom(Configs(s).value, AnimValues(s), toEnd, 0)
  {
    match Configs(s)
    case Err(e) => Err(e)
    case Ok(cs) =>
      var jumped := JumpFrom(cs, AnimValues(s), toEnd, 0);
      AnimValuesRoundTrip(s, jumped);
      Ok(WithAnimValues(s, jumped))
  }

  /** Jumping to the end with every parameter used puts C at its end values and the zoom at
      its end value. */
  lemma JumpToEnd(s: Julia)
    requires Configs(s).Ok?
    requires s.argAnim.use == s.absAnim.use == s.zoomAnim.use == Some(true)
    ensures var r := AnimJump(s, true).value;
            r.cPolar == Point(s.argAnim.end.value, s.absAnim.end.value) && r.view.zoom == s.zoomAnim.end.value
  {
    var r := AnimJump(s, true).value;
    var cs := Configs(s).value;
    assert AnimValues(r)[0] == Target(cs[0], true);
    assert AnimValues(r)[1] == Target(cs[1], true);
    assert AnimValues(r)[2] == Target(cs[2], true);
  }

  // ---------------------------------------------------------------------------------------
  // Control panel

  /** The `Arg(C)` slider: position `p` sets `arg_c` to `p / 5000 * pi`, and the panel places
      it at `arg_c * 5000 / pi`; the default angle pi sits at the middle position 5000. */
  lemma ArgSlider(p: real, a: real)
    ensures Sliders.ToPosition(Sliders.HalfTurns, Sliders.ToValue(Sliders.HalfTurns, p)) == p
    ensures Sliders.ToValue(Sliders.HalfTurns, Sliders.ToPosition(Sliders.HalfTurns, a)) == a
    ensures Sliders.ToPosition(Sliders.HalfTurns, Pi) == 5000.0
  {
    Sliders.PanelScalesInvertible();
    Sliders.ScaleRoundTrip(Sliders.HalfTurns, p, a);
  }

  /** The `Abs(C)` slider: position `p` sets `abs_c` to `p / 5000`, and the panel places it at
      `abs_c * 5000`; the default 0.7 sits at 3500. */
  lemma AbsSlider(p: real, m: real)
    ensures Sliders.ToPosition(Sliders.FiveThousandths, Sliders.ToValue(Sliders.FiveThousandths, p)) == p
    ensures Sliders.ToValue(Sliders.FiveThousandths, Sliders.ToPosition(Sliders.FiveThousandths, m)) == m
    ensures Sliders.ToPosition(Sliders.FiveThousandths, 0.7) == 3500.0
  {
    Sliders.PanelScalesInvertible();
    Sliders.ScaleRoundTrip(Sliders.FiveThousandths, p, m);
  }
}

=== FILE: julia3d.dfy ===
/** `fractals/julia_3d.py`: the quaternion Julia set. On top of the 3D base view it holds C
    as a modulus and two angles, the background colour, the rendering switches and depths, the
    power and a rotation about the y axis, and saves and loads them as a JSON record. The
    camera angles `h_angle` and `v_angle` it saves are defined in none of its base classes;
    they are plain fields here. */
module Julia3D {
  import opened Basics
  import opened RealMath
  import opened Geometry
  import opened Fractal2D
  import opened Json
  import Fractal3D
  import Sliders

  datatype Julia3 = Julia3(
    view: View,
    hAngle: real,
    vAngle: real,
    bgColor: Color,
    absC: real,
    argxC: real,
    argyC: real,
    cut: bool,
    shadows: bool,
    depth: int,
    ao: int,
    power: int,
    rotateY: real)

  /** `__init__`: 7 iterations (the iterable base assigns its limit after the 3D base
      assigned 100), C of modulus 0.8776 at angles 2 and 2.67, no cut, shadows, depth 400,
      ambient occlusion 120, power 7, no y rotation. The camera angles are given. */
  function Init(cursor: Point, hAngle: real, vAngle: real): (r: Julia3)
    ensures r.view == Fractal3D.Init3D(cursor).(maxIter := 7)
    ensures r.absC == 0.8776 && r.argxC == 2.0 && r.argyC == 2.67
    ensures !r.cut && r.shadows && r.depth == 400 && r.ao == 120 && r.power == 7 && r.rotateY == 0.0
    ensures r.bgColor == DefaultBackground && r.hAngle == hAngle && r.vAngle == vAngle
  {
    Julia3(Fractal3D.Init3D(cursor).(maxIter := 7), hAngle, vAngle, DefaultBackground,
           0.8776, 2.0, 2.67, false, true, 400, 120, 7, 0.0)
  }

  // ---------------------------------------------------------------------------------------
  // Properties and their setters

  /** The properties `julia_3d.py` adds to the 3D view. */
  datatype Param = AbsC | ArgxC | ArgyC | Cut | Shadows | Depth | Ao | Power | RotateY | BgColor | HAngle | VAngle

  predicate Fits(p: Param, x: FieldValue) {
    match p
    case AbsC | ArgxC | ArgyC | RotateY | HAngle | VAngle => x.RealValue?
    case Cut | Shadows => x.BoolValue?
    case Depth | Ao | Power => x.IntValue?
    case BgColor => x.ColorValue?
  }

  /** The property getter. */
  function Get(s: Julia3, p: Param): (x: FieldValue)
    ensures Fits(p, x)
  {
    match p
    case AbsC => RealValue(s.absC)
    case ArgxC => RealValue(s.argxC)
    case ArgyC => RealValue(s.argyC)
    case Cut => BoolValue(s.cut)
    case Shadows => BoolValue(s.shadows)
    case Depth => IntValue(s.depth)
    case Ao => IntValue(s.ao)
    case Power => IntValue(s.power)
    case RotateY => RealValue(s.rotateY)
    case BgColor => ColorValue(s.bgColor)
    case HAngle => RealValue(s.hAngle)
    case VAngle => RealValue(s.vAngle)
  }

  /** The property setter: it writes its own property and nothing else. */
  function Set(s: Julia3, p: Param, x: FieldValue): (r: Julia3)
    requires Fits(p, x)
    ensures Get(r, p) == x
    ensures forall q :: q != p ==> Get(r, q) == Get(s, q)
    ensures r.view == s.view
  {
    match p
    case AbsC => s.(absC := x.r)
    case ArgxC => s.(argxC := x.r)
    case ArgyC => s.(argyC := x.r)
    case Cut => s.(cut := x.b)
    case Shadows => s.(shadows := x.b)
    case Depth => s.(depth := x.i)
    case Ao => s.(ao := x.i)
    case Power => s.(power := x.i)
    case RotateY => s.(rotateY := x.r)
    case BgColor => s.(bgColor := x.c)
    case HAngle => s.(hAngle := x.r)
    case VAngle => s.(vAngle := x.r)
  }

  /** The getters see all of the state beyond the view: two states that agree on the view and
      on every property are equal, so `Set`'s frame leaves nothing out. */
  lemma StatesAgreeOnParams(s: Julia3, t: Julia3)
    requires s.view == t.view
    requires forall p :: Get(s, p) == Get(t, p)
    ensures s == t
  {
    assert s.absC == t.absC by { assert Get(s, AbsC) == Get(t, AbsC); }
    assert s.argxC == t.argxC by { assert Get(s, ArgxC) == Get(t, ArgxC); }
    assert s.argyC == t.argyC by { assert Get(s, ArgyC) == Get(t, ArgyC); }
    assert s.cut == t.cut by { assert Get(s, Cut) == Get(t, Cut); }
    assert s.shadows == t.shadows by { assert Get(s, Shadows) == Get(t, Shadows); }
    assert s.depth == t.depth by { assert Get(s, Depth) == Get(t, Depth); }
    assert s.ao == t.ao by { assert Get(s, Ao) == Get(t, Ao); }
    assert s.power == t.power by { assert Get(s, Power) == Get(t, Power); }
    assert s.rotateY == t.rotateY by { assert Get(s, RotateY) == Get(t, RotateY); }
    assert s.bgColor == t.bgColor by { assert Get(s, BgColor) == Get(t, BgColor); }
    assert s.hAngle == t.hAngle by { assert Get(s, HAngle) == Get(t, HAngle); }
    assert s.vAngle == t.vAngle by { assert Get(s, VAngle) == Get(t, VAngle); }
  }

  // ---------------------------------------------------------------------------------------
  // C

  /** `_get_c`: C from its modulus r and angles a (`argx_c`) and b (`argy_c`):
      `(r cos a cos b, r sin a cos b, r sin b)`. */
  function GetC(t: Trig, s: Julia3): (c: Vec3)
    ensures c.x == s.absC * t.cos(s.argxC) * t.cos(s.argyC)
    ensures c.y == s.absC * t.sin(s.argxC) * t.cos(s.argyC)
    ensures c.z == s.absC * t.sin(s.argyC)
    ensures TrigLaws(t) ==> c.NormSquared() == s.absC * s.absC
  {
    SphericalNormUnderLaws(t, s.absC, s.argxC, s.argyC);
    Vec3(s.absC * t.cos(s.argxC) * t.cos(s.argyC), s.absC * t.sin(s.argxC) * t.cos(s.argyC), s.absC * t.sin(s.argyC))
  }

  /** The length of C is its modulus: its square is `abs_c` squared. */
  lemma GetCNorm(t: Trig, s: Julia3)
    requires TrigLaws(t)
    ensures GetC(t, s).NormSquared() == s.absC * s.absC
  {
  }

  /** The spherical point of radius `r` at angles `a` and `b` has squared length `r^2` under
      the trigonometric laws. */
  lemma SphericalNormUnderLaws(t: Trig, r: real, a: real, b: real)
    ensures TrigLaws(t) ==>
              (r * t.cos(a) * t.cos(b)) * (r * t.cos(a) * t.cos(b))
              + (r * t.sin(a) * t.cos(b)) * (r * t.sin(a) * t.cos(b))
              + (r * t.sin(b)) * (r * t.sin(b)) == r * r
  {
    if TrigLaws(t) {
      var ca, sa, cb, sb := t.cos(a), t.sin(a), t.cos(b), t.sin(b);
      assert ca * ca + sa * sa == 1.0;
      assert cb * cb + sb * sb == 1.0;
      SphericalNorm(r, ca, sa, cb, sb);
    }
  }

  /** The algebra behind `GetCNorm`. */
  lemma SphericalNorm(r: real, ca: real, sa: real, cb: real, sb: real)
    requires ca * ca + sa * sa == 1.0 && cb * cb + sb * sb == 1.0
    ensures (r * ca * cb) * (r * ca * cb) + (r * sa * cb) * (r * sa * cb) + (r * sb) * (r * sb) == r * r
  {
    calc {
      (r * ca * cb) * (r * ca * cb) + (r * sa * cb) * (r * sa * cb) + (r * sb) * (r * sb);
      r * r * (cb * cb) * (ca * ca + sa * sa) + r * r * (sb * sb);
      r * r * (cb * cb + sb * sb);
      r * r;
    }
  }

  // ---------------------------------------------------------------------------------------
  // Saving and loading

  /** A colour as the record keeps it: its four float channels. */
  function ColorRecord(c: Color): Value {
    JObject(map[RedKey := JReal(c.red), GreenKey := JReal(c.green), BlueKey := JReal(c.blue), AlphaKey := JReal(c.alpha)])
  }

  /** The sixteen keys `_save_state` writes; the offset, the central lines and the rotation
      angle of the view are not among them. */
  const SavedKeys: set<Key> := {MaxIterKey, HAngleKey, VAngleKey, ColorKey, BgColorKey, ZoomFactorKey, PowerKey,
                                CutKey, AbsCKey, ArgxCKey, ArgyCKey, DepthKey, RotateYKey, AoKey, ShadowsKey,
                                AntialiasingKey}

  /** The entry saved under each key of `SavedKeys` (keys outside it get an empty object, which
      is never saved). */
  function Entry(s: Julia3, k: Key): Value {
    match k
    case MaxIterKey => JInt(s.view.maxIter)
    case HAngleKey => JReal(s.hAngle)
    case VAngleKey => JReal(s.vAngle)
    case ColorKey => ColorRecord(s.view.color)
    case BgColorKey => ColorRecord(s.bgColor)
    case ZoomFactorKey => JReal(s.view.zoom)
    case PowerKey => JInt(s.power)
    case CutKey => JBool(s.cut)
    case AbsCKey => JReal(s.absC)
    case ArgxCKey => JReal(s.argxC)
    case ArgyCKey => JReal(s.argyC)
    case DepthKey => JInt(s.depth)
    case RotateYKey => JReal(s.rotateY)
    case AoKey => JInt(s.ao)
    case ShadowsKey => JBool(s.shadows)
    case AntialiasingKey => JBool(s.view.antialiasing)
    case _ => JObject(map[])
  }

  /** `_save_state`. */
  function Save(s: Julia3): (j: Value)
    ensures j.JObject? && OffsetKey !in j.fields && CentralLinesKey !in j.fields && RotationAngleKey !in j.fields
  {
    JObject(map k | k in SavedKeys :: Entry(s, k))
  }

  /** The four `setRedF` ... `setAlphaF` calls on one colour, in order; a missing channel
      stops them there. */
  function LoadColor(c: Color, j: Value, k: Key): (r: Partial<Color, LoadError>)
    ensures r.error.None? ==> && GetReal(j, [k, RedKey]).Ok? && GetReal(j, [k, GreenKey]).Ok?
                              && GetReal(j, [k, BlueKey]).Ok? && GetReal(j, [k, AlphaKey]).Ok?
                              && r.state == Color(GetReal(j, [k, RedKey]).value, GetReal(j, [k, GreenKey]).value,
                                                  GetReal(j, [k, BlueKey]).value, GetReal(j, [k, AlphaKey]).value)
    ensures GetReal(j, [k, RedKey]).Err? ==> r == Partial(c, Some(GetReal(j, [k, RedKey]).error))
  {
    match GetReal(j, [k, RedKey])
    case Err(e) => Partial(c, Some(e))
    case Ok(red) =>
      match GetReal(j, [k, GreenKey])
      case Err(e) => Partial(c.(red := red), Some(e))
      case Ok(green) =>
        match GetReal(j, [k, BlueKey])
        case Err(e) => Partial(c.(red := red, green := green), Some(e))
        case Ok(blue) =>
          match GetReal(j, [k, AlphaKey])
          case Err(e) => Partial(c.(red := red, green := green, blue := blue), Some(e))
          case Ok(alpha) => Partial(Color(red, green, blue, alpha), None)
  }

  /** The iteration limit and the camera angles; nothing else is assigned. */
  function LoadHead(s: Julia3, j: Value): (r: Partial<Julia3, LoadError>)
    ensures r.state == s.(view := s.view.(maxIter := r.state.view.maxIter), hAngle := r.state.hAngle, vAngle := r.state.vAngle)
  {
    match GetInt(j, [MaxIterKey])
    case Err(e) => Partial(s, Some(e))
    case Ok(n) =>
      var s1 := s.(view := s.view.(maxIter := n));
      match GetReal(j, [HAngleKey])
      case Err(e) => Partial(s1, Some(e))
      case Ok(h) =>
        var s2 := s1.(hAngle := h);
        match GetReal(j, [VAngleKey])
        case Err(e) => Partial(s2, Some(e))
        case Ok(v) => Partial(s2.(vAngle := v), None)
  }

  /** Zoom, power, cut and C; nothing else is assigned. */
  function LoadMiddle(s: Julia3, j: Value): (r: Partial<Julia3, LoadError>)
    ensures r.state == s.(view := s.view.(zoom := r.state.view.zoom), power := r.state.power, cut := r.state.cut,
                          absC := r.state.absC, argxC := r.state.argxC, argyC := r.state.argyC)
  {
    match GetReal(j, [ZoomFactorKey])
    case Err(e) => Partial(s, Some(e))
    case Ok(z) =>
      var s1 := s.(view := s.view.(zoom := z));
      match GetInt(j, [PowerKey])
      case Err(e) => Partial(s1, Some(e))
      case Ok(p) =>
        var s2 := s1.(power := p);
        match GetBool(j, [CutKey])
        case Err(e) => Partial(s2, Some(e))
        case Ok(cut) =>
          var s3 := s2.(cut := cut);
          match GetReal(j, [AbsCKey])
          case Err(e) => Partial(s3, Some(e))
          case Ok(r) =>
            var s4 := s3.(absC := r);
            match GetReal(j, [ArgxCKey])
            case Err(e) => Partial(s4, Some(e))
            case Ok(a) =>
              var s5 := s4.(argxC := a);
              match GetReal(j, [ArgyCKey])
              case Err(e) => Partial(s5, Some(e))
              case Ok(b) => Partial(s5.(argyC := b), None)
  }

  /** Depth, y rotation, ambient occlusion, shadows and antialiasing; nothing else is
      assigned. */
  function LoadTail(s: Julia3, j: Value): (r: Partial<Julia3, LoadError>)
    ensures r.state == s.(view := s.view.(antialiasing := r.state.view.antialiasing), depth := r.state.depth,
                          rotateY := r.state.rotateY, ao := r.state.ao, shadows := r.state.shadows)
  {
    match GetInt(j, [DepthKey])
    case Err(e) => Partial(s, Some(e))
    case Ok(d) =>
      var s1 := s.(depth := d);
      match GetReal(j, [RotateYKey])
      case Err(e) => Partial(s1, Some(e))
      case Ok(ry) =>
        var s2 := s1.(rotateY := ry);
        match GetInt(j, [AoKey])
        case Err(e) => Partial(s2, Some(e))
        case Ok(ao) =>
          var s3 := s2.(ao := ao);
          match GetBool(j, [ShadowsKey])
          case Err(e) => Partial(s3, Some(e))
          case Ok(sh) =>
            var s4 := s3.(shadows := sh);
            match GetBool(j, [AntialiasingKey])
            case Err(e) => Partial(s4, Some(e))
            case Ok(aa) => Partial(s4.(view := s4.view.(antialiasing := aa)), None)
  }

  /** `_load_state`: the twenty-two assignments in program order, each made as soon as its
      entry is read; the first missing or mistyped entry stops the load there. The offset, the
      central lines, the rotation angle and the recorded cursor are never assigned. */
  function Load(s: Julia3, j: Value): (r: Partial<Julia3, LoadError>)
    ensures r.state.view.offset == s.view.offset && r.state.view.lastMouse == s.view.lastMouse
    ensures r.state.view.centralLines == s.view.centralLines && r.state.view.rotation == s.view.rotation
  {
    var head := LoadHead(s, j);
    if head.error.Some? then head
    else
      var c := LoadColor(head.state.view.color, j, ColorKey);
      var s1 := head.state.(view := head.state.view.(color := c.state));
      if c.error.Some? then Partial(s1, c.error)
      else
        var bg := LoadColor(s1.bgColor, j, BgColorKey);
        var s2 := s1.(bgColor := bg.state);
        if bg.error.Some? then Partial(s2, bg.error)
        else
          var middle := LoadMiddle(s2, j);
          if middle.error.Some? then middle else LoadTail(middle.state, j)
  }

  /** A saved colour loads back. */
  lemma LoadColorRoundTrip(c: Color, d: Color, m: map<Key, Value>, k: Key)
    requires k in m && m[k] == ColorRecord(c)
    ensures LoadColor(d, JObject(m), k) == Partial(c, None)
  {
    ReadBack(m, k, RedKey);
    ReadBack(m, k, GreenKey);
    ReadBack(m, k, BlueKey);
    ReadBack(m, k, AlphaKey);
  }

  /** What loading a saved record leaves: everything saved comes from the record, and the
      offset, central lines, rotation angle and recorded cursor stay as they were. */
  function Restored(s: Julia3, t: Julia3): Julia3 {
    s.(view := s.view.(offset := t.view.offset, centralLines := t.view.centralLines,
                       rotation := t.view.rotation, lastMouse := t.view.lastMouse))
  }

  /** A saved record holds both colours, channel by channel. */
  lemma SavedColors(s: Julia3)
    ensures ColorKey in Save(s).fields && Save(s).fields[ColorKey] == ColorRecord(s.view.color)
    ensures BgColorKey in Save(s).fields && Save(s).fields[BgColorKey] == ColorRecord(s.bgColor)
  {
    var m := Save(s).fields;
    assert ColorKey in SavedKeys && BgColorKey in SavedKeys;
    assert m[ColorKey] == Entry(s, ColorKey);
    assert m[BgColorKey] == Entry(s, BgColorKey);
  }

  /** A saved record reads back the iteration limit and the camera angles. */
  lemma SavedHead(s: Julia3)
    ensures GetInt(Save(s), [MaxIterKey]) == Ok(s.view.maxIter)
    ensures GetReal(Save(s), [HAngleKey]) == Ok(s.hAngle)
    ensures GetReal(Save(s), [VAngleKey]) == Ok(s.vAngle)
  {
    var j := Save(s);
    ReadBack(j.fields, MaxIterKey, MaxIterKey);
    assert GetInt(j, [MaxIterKey]) == Ok(s.view.maxIter);
    ReadBack(j.fields, HAngleKey, HAngleKey);
    assert GetReal(j, [HAngleKey]) == Ok(s.hAngle);
    ReadBack(j.fields, VAngleKey, VAngleKey);
    assert GetReal(j, [VAngleKey]) == Ok(s.vAngle);
  }

  /** A saved record reads back the zoom, the power and the cut switch. */
  lemma SavedZoomPowerCut(s: Julia3)
    ensures GetReal(Save(s), [ZoomFactorKey]) == Ok(s.view.zoom)
    ensures GetInt(Save(s), [PowerKey]) == Ok(s.power)
    ensures GetBool(Save(s), [CutKey]) == Ok(s.cut)
  {
    var j := Save(s);
    ReadBack(j.fields, ZoomFactorKey, ZoomFactorKey);
    assert GetReal(j, [ZoomFactorKey]) == Ok(s.view.zoom);
    ReadBack(j.fields, PowerKey, PowerKey);
    assert GetInt(j, [PowerKey]) == Ok(s.power);
    ReadBack(j.fields, CutKey, CutKey);
    assert GetBool(j, [CutKey]) == Ok(s.cut);
  }

  /** A saved record reads back the modulus and the angles of C. */
  lemma SavedC(s: Julia3)
    ensures GetReal(Save(s), [AbsCKey]) == Ok(s.absC)
    ensures GetReal(Save(s), [ArgxCKey]) == Ok(s.argxC)
    ensures GetReal(Save(s), [ArgyCKey]) == Ok(s.argyC)
  {
    var j := Save(s);
    ReadBack(j.fields, AbsCKey, AbsCKey);
    assert GetReal(j, [AbsCKey]) == Ok(s.absC);
    ReadBack(j.fields, ArgxCKey, ArgxCKey);
    assert GetReal(j, [ArgxCKey]) == Ok(s.argxC);
    ReadBack(j.fields, ArgyCKey, ArgyCKey);
    assert GetReal(j, [ArgyCKey]) == Ok(s.argyC);
  }

  /** A saved record reads back the depth, the y rotation and the ambient occlusion. */
  lemma SavedDepthRotationAo(s: Julia3)
    ensures GetInt(Save(s), [DepthKey]) == Ok(s.depth)
    ensures GetReal(Save(s), [RotateYKey]) == Ok(s.rotateY)
    ensures GetInt(Save(s), [AoKey]) == Ok(s.ao)
  {
    var j := Save(s);
    ReadBack(j.fields, DepthKey, DepthKey);
    assert GetInt(j, [DepthKey]) == Ok(s.depth);
    ReadBack(j.fields, RotateYKey, RotateYKey);
    assert GetReal(j, [RotateYKey]) == Ok(s.rotateY);
    ReadBack(j.fields, AoKey, AoKey);
    assert GetInt(j, [AoKey]) == Ok(s.ao);
  }

  /** A saved record reads back the shadow and antialiasing switches. */
  lemma SavedSwitches(s: Julia3)
    ensures GetBool(Save(s), [ShadowsKey]) == Ok(s.shadows)
    ensures GetBool(Save(s), [AntialiasingKey]) == Ok(s.view.antialiasing)
  {
    var j := Save(s);
    ReadBack(j.fields, ShadowsKey, ShadowsKey);
    assert GetBool(j, [ShadowsKey]) == Ok(s.shadows);
    ReadBack(j.fields, AntialiasingKey, AntialiasingKey);
    assert GetBool(j, [AntialiasingKey]) == Ok(s.view.antialiasing);
  }

  /** Loading a saved record restores all sixteen saved entries. */
  lemma SaveLoadRoundTrip(s: Julia3, t: Julia3)
    ensures Load(t, Save(s)) == Partial(Restored(s, t), None)
  {
    var j := Save(s);
    SavedHead(s);
    SavedColors(s);
    var head := LoadHead(t, j);
    assert head.state == t.(view := t.view.(maxIter := s.view.maxIter), hAngle := s.hAngle, vAngle := s.vAngle);
    LoadColorRoundTrip(s.view.color, head.state.view.color, j.fields, ColorKey);
    LoadColorRoundTrip(s.bgColor, head.state.bgColor, j.fields, BgColorKey);
    var s2 := head.state.(view := head.state.view.(color := s.view.color), bgColor := s.bgColor);
    LoadMiddleRoundTrip(s, s2);
    var s3 := s2.(view := s2.view.(zoom := s.view.zoom), power := s.power, cut := s.cut,
                  absC := s.absC, argxC := s.argxC, argyC := s.argyC);
    LoadTailRoundTrip(s, s3);
  }

  /** The middle stage reads back what was saved. */
  lemma LoadMiddleRoundTrip(s: Julia3, t: Julia3)
    ensures LoadMiddle(t, Save(s)) == Partial(t.(view := t.view.(zoom := s.view.zoom), power := s.power, cut := s.cut,
                                                 absC := s.absC, argxC := s.argxC, argyC := s.argyC), None)
  {
    SavedZoomPowerCut(s);
    SavedC(s);
  }

  /** The last stage reads back what was saved. */
  lemma LoadTailRoundTrip(s: Julia3, t: Julia3)
    ensures LoadTail(t, Save(s)) == Partial(t.(view := t.view.(antialiasing := s.view.antialiasing), depth := s.depth,
                                               rotateY := s.rotateY, ao := s.ao, shadows := s.shadows), None)
  {
    SavedDepthRotationAo(s);
    SavedSwitches(s);
  }

  /** Replacing the saved background colour does not change how the first stage loads. */
  lemma HeadDespiteBackground(s: Julia3, t: Julia3, bg: Value)
    ensures LoadHead(t, JObject(Save(s).fields[BgColorKey := bg]))
              == Partial(t.(view := t.view.(maxIter := s.view.maxIter), hAngle := s.hAngle, vAngle := s.vAngle), None)
  {
    var m := Save(s).fields[BgColorKey := bg];
    SavedHead(s);
    ReadBack(m, MaxIterKey, MaxIterKey);
    assert GetInt(JObject(m), [MaxIterKey]) == Ok(s.view.maxIter);
    ReadBack(m, HAngleKey, HAngleKey);
    assert GetReal(JObject(m), [HAngleKey]) == Ok(s.hAngle);
    ReadBack(m, VAngleKey, VAngleKey);
    assert GetReal(JObject(m), [VAngleKey]) == Ok(s.vAngle);
  }

  /** The load is not atomic: a record whose background colour has no red channel raises
      after the iteration limit, the camera angles and the colour have been assigned, and
      leaves everything after them as it was. */
  lemma LoadWithoutBackgroundRed(s: Julia3, t: Julia3)
    ensures var j := JObject(Save(s).fields[BgColorKey := JObject(map[])]);
            Load(t, j) == Partial(t.(view := t.view.(maxIter := s.view.maxIter, color := s.view.color),
                                     hAngle := s.hAngle, vAngle := s.vAngle),
                                  Some(MissingKey(RedKey)))
  {
    SavedColors(s);
    var m := Save(s).fields[BgColorKey := JObject(map[])];
    HeadDespiteBackground(s, t, JObject(map[]));
    var head := LoadHead(t, JObject(m));
    LoadColorRoundTrip(s.view.color, head.state.view.color, m, ColorKey);
    assert [BgColorKey, RedKey][1..] == [RedKey];
    assert GetReal(JObject(m), [BgColorKey, RedKey]) == Err(MissingKey(RedKey));
  }

  // ---------------------------------------------------------------------------------------
  // Control panel

  /** The sliders of the panel and where they start for the defaults: `Abs(C)` in 5000ths
      (0.8776 at 4388), `ArgX(C)` and `ArgY(C)` in 1000ths (2 at 2000, 2.67 at 2670), ambient
      occlusion mirrored around 600 (120 at 480), and the y rotation in 10000ths of a turn;
      each handler undoes its initial conversion. */
  lemma PanelSliders(absC: real, arg: real, rotateY: real, ao: real)
    ensures Sliders.ToValue(Sliders.FiveThousandths, Sliders.ToPosition(Sliders.FiveThousandths, absC)) == absC
    ensures Sliders.ToValue(Sliders.Thousandths, Sliders.ToPosition(Sliders.Thousandths, arg)) == arg
    ensures Sliders.ToValue(Sliders.FullTurns, Sliders.ToPosition(Sliders.FullTurns, rotateY)) == rotateY
    ensures Sliders.Mirror(Sliders.AoMirror, Sliders.Mirror(Sliders.AoMirror, ao)) == ao
    ensures Sliders.ToPosition(Sliders.FiveThousandths, 0.8776) == 4388.0
    ensures Sliders.ToPosition(Sliders.Thousandths, 2.0) == 2000.0
    ensures Sliders.ToPosition(Sliders.Thousandths, 2.67) == 2670.0
    ensures Sliders.Mirror(Sliders.AoMirror, 120.0) == 480.0
    ensures Sliders.ToPosition(Sliders.FullTurns, 0.0) == 0.0
  {
    Sliders.PanelScalesInvertible();
    Sliders.ScaleRoundTrip(Sliders.FiveThousandths, 0.0, absC);
    Sliders.ScaleRoundTrip(Sliders.Thousandths, 0.0, arg);
    Sliders.ScaleRoundTrip(Sliders.FullTurns, 0.0, rotateY);
    Sliders.MirrorInvolution(Sliders.AoMirror, ao, 100.0, 500.0);
  }

  /** Every slider of the panel starts inside its scope for the defaults: `Abs(C)` in 0..10000,
      the C angles in 0..2000*pi, depth in 1..400, ambient occlusion in 100..500, power in
      2..10 and the y rotation in 0..10000. */
  lemma DefaultsWithinScopes(cursor: Point, hAngle: real, vAngle: real)
    ensures var s := Init(cursor, hAngle, vAngle);
            && 0.0 <= Sliders.ToPosition(Sliders.FiveThousandths, s.absC) <= 10000.0
            && 0.0 <= Sliders.ToPosition(Sliders.Thousandths, s.argxC) <= 2000.0 * Pi
            && 0.0 <= Sliders.ToPosition(Sliders.Thousandths, s.argyC) <= 2000.0 * Pi
            && 1 <= s.depth <= 400 && 2 <= s.power <= 10
            && 100.0 <= Sliders.Mirror(Sliders.AoMirror, s.ao as real) <= 500.0
            && 0.0 <= Sliders.ToPosition(Sliders.FullTurns, s.rotateY) <= 10000.0
  {
    PanelSliders(0.8776, 2.0, 0.0, 120.0);
  }
}

=== FILE: legacy2d.dfy ===
/** The settings-dictionary base class of `fractals/__fractal_2d.py`, the older design the
    classes of `Fractals.py` follow. All of a fractal's state lives in one dictionary from
    setting names to values, and every handler reads and writes entries by name, so a missing
    or mistyped entry raises where the handler touches it. Modelled here: merging the defaults
    into given settings, `change_parameter`, `_change_offset`, `_get_scaled_points`,
    `_rotate_point`, the mouse and wheel branches of `eventFilter`, `animate`, the end-value
    loop of `update_frame`, the frame schedule of `save_video`, and `input_position`. */
module Legacy2D {
  import opened Basics
  import opened RealMath
  import opened Geometry
  import Fractal2D

  /** A settings value: a number (a Python `int` or `float`), a switch, a list of numbers (the
      offset, a colour) or a text (the animated parameter's name, the shader path). */
  datatype SValue = Num(x: real) | Flag(b: bool) | Numbers(xs: seq<real>) | Text(s: string)

  type Settings = map<string, SValue>

  /** The exceptions the dictionary code raises; a `KeyError` carries the missing key. */
  datatype SettingsError = KeyError(key: SValue) | TypeError | IndexError | ValueError

  const OffsetName: string := "OFFSET"
  const ZoomName: string := "ZOOM"
  const PhiName: string := "PHI"
  const AnimationName: string := "ANIMATION"
  const AnimParamName: string := "ANIMATION_PARAM"
  const AnimSpeedName: string := "ANIMATION_SPEED"

  /** `_rotate_point` writes pi out as 3.141592654 instead of using `math.pi`. */
  const LegacyPi: real := 3.141592654

  /** `settings[key]`. */
  function Lookup(s: Settings, key: string): (r: Result<SValue, SettingsError>)
    ensures r.Ok? <==> key in s
    ensures r.Ok? ==> r.value == s[key]
    ensures r.Err? ==> r.error == KeyError(Text(key))
  {
    if key in s then Ok(s[key]) else Err(KeyError(Text(key)))
  }

  /** The value as a number in arithmetic: Python's `bool` is an `int`, so a switch counts as 0
      or 1; lists and texts do not take part in float arithmetic. */
  function Numeric(v: SValue): (r: Option<real>)
    ensures r.Some? <==> v.Num? || v.Flag?
    ensures v.Num? ==> r == Some(v.x)
  {
    match v
    case Num(x) => Some(x)
    case Flag(b) => Some(if b then 1.0 else 0.0)
    case _ => None
  }

  /** Python truthiness, as `if self.settings["ANIMATION"]` applies it. */
  predicate Truthy(v: SValue) {
    match v
    case Num(x) => x != 0.0
    case Flag(b) => b
    case Numbers(xs) => |xs| != 0
    case Text(t) => |t| != 0
  }

  // ---------------------------------------------------------------------------------------
  // Construction

  /** `__init__`: without settings the object takes a copy of the defaults; given settings keep
      every entry they have and gain every default entry they lack. */
  function Merge(defaults: Settings, given: Option<Settings>): (r: Settings)
    ensures given.None? ==> r == defaults
    ensures given.Some? ==> r.Keys == defaults.Keys + given.value.Keys
    ensures given.Some? ==> forall k :: k in given.value ==> r[k] == given.value[k]
    ensures forall k :: k in defaults && (given.None? || k !in given.value) ==> r[k] == defaults[k]
  {
    match given
    case None => defaults
    case Some(g) => map k | k in defaults.Keys + g.Keys :: if k in g then g[k] else defaults[k]
  }

  /** Merging is idempotent: merged settings already hold every default, so merging them
      again changes nothing. Settings that already hold every default come through as they
      are, and empty settings become the defaults. */
  lemma MergeIdempotent(defaults: Settings, given: Option<Settings>)
    ensures Merge(defaults, Some(Merge(defaults, given))) == Merge(defaults, given)
    ensures given.Some? && defaults.Keys <= given.value.Keys ==> Merge(defaults, given) == given.value
    ensures Merge(defaults, Some(map[])) == Merge(defaults, None)
  {
    var m := Merge(defaults, given);
    assert Merge(defaults, Some(m)).Keys == m.Keys;
    if given.Some? && defaults.Keys <= given.value.Keys {
      assert Merge(defaults, given).Keys == given.value.Keys;
    }
    assert Merge(defaults, Some(map[])).Keys == defaults.Keys;
  }

  // ---------------------------------------------------------------------------------------
  // change_parameter

  /** The element-wise loop of `change_parameter`: `target[i] += value[i]` for every index `i`
      of `value` from `from` on. It stops with `IndexError` at the first index the target
      lacks, and the additions made before that stay. */
  function AddFrom(target: seq<real>, value: seq<real>, from: nat): (r: Partial<seq<real>, SettingsError>)
    requires from <= |value| && from <= |target|
    ensures |r.state| == |target|
    ensures r.error.None? <==> |value| <= |target|
    ensures r.error.Some? ==> r.error.value == IndexError
    ensures forall i :: 0 <= i < |target| ==>
              r.state[i] == if from <= i < |value| then target[i] + value[i] else target[i]
    decreases |value| - from
  {
    if from == |value| then Partial(target, None)
    else if from == |target| then Partial(target, Some(IndexError))
    else AddFrom(target[from := target[from] + value[from]], value, from + 1)
  }

  /** `len(value)`, defined for lists and texts only. */
  function Length(v: SValue): int
    requires v.Numbers? || v.Text?
  {
    if v.Numbers? then |v.xs| else |v.s|
  }

  /** `change_parameter(param, value, difference)`. Without `difference` the entry is simply
      overwritten (or created). With it, `len(value)` must exist; a value of length above 1 is
      added element-wise into the entry, and a shorter one is added with `+=`, which
      concatenates lists and texts. */
  function ChangeParameter(s: Settings, param: string, value: SValue, difference: bool): (r: Partial<Settings, SettingsError>)
    ensures !difference ==> r == Partial(s[param := value], None)
    ensures forall k :: k in s && k != param ==> k in r.state && r.state[k] == s[k]
    ensures difference ==> r.state.Keys == s.Keys
    ensures difference && !(value.Numbers? || value.Text?) ==> r == Partial(s, Some(TypeError))
    ensures difference && (value.Numbers? || value.Text?) && param !in s ==> r == Partial(s, Some(KeyError(Text(param))))
    ensures difference && param in s && s[param].Numbers? && value.Numbers? && 1 < |value.xs| ==>
              && r.state[param].Numbers? && |r.state[param].xs| == |s[param].xs|
              && (r.error.None? <==> |value.xs| <= |s[param].xs|)
  {
    if !difference then Partial(s[param := value], None)
    else if !(value.Numbers? || value.Text?) then Partial(s, Some(TypeError))
    else if param !in s then Partial(s, Some(KeyError(Text(param))))
    else if Length(value) > 1 then
      if s[param].Numbers? && value.Numbers? then
        var added := AddFrom(s[param].xs, value.xs, 0);
        Partial(s[param := Numbers(added.state)], added.error)
      else Partial(s, Some(TypeError))
    else
      match (s[param], value)
      case (Numbers(xs), Numbers(ys)) => Partial(s[param := Numbers(xs + ys)], None)
      case (Text(a), Text(b)) => Partial(s[param := Text(a + b)], None)
      case _ => Partial(s, Some(TypeError))
  }

  function Negate(xs: seq<real>): (r: seq<real>)
    ensures |r| == |xs| && forall i :: 0 <= i < |xs| ==> r[i] == -xs[i]
  {
    seq(|xs|, i requires 0 <= i < |xs| => -xs[i])
  }

  /** Adding a list element-wise and then its negation restores the entry, when the entry is
      long enough to take it. */
  lemma DifferenceUndone(s: Settings, param: string, value: seq<real>)
    requires param in s && s[param].Numbers? && 1 < |value| <= |s[param].xs|
    ensures var once := ChangeParameter(s, param, Numbers(value), true);
            && once.error.None?
            && ChangeParameter(once.state, param, Numbers(Negate(value)), true) == Partial(s, None)
  {
    var once := ChangeParameter(s, param, Numbers(value), true);
    var xs := s[param].xs;
    var back := ChangeParameter(once.state, param, Numbers(Negate(value)), true);
    assert back.state[param].xs == xs;
    assert back.state == s;
  }

  // ---------------------------------------------------------------------------------------
  // The view entries and the point maps

  /** The entries the navigation code reads: a two-element offset, a numeric zoom and a
      numeric rotation. Every default settings dictionary of the 2D classes has them. */
  predicate WellFormed(s: Settings) {
    && OffsetName in s && s[OffsetName].Numbers? && |s[OffsetName].xs| == 2
    && ZoomName in s && s[ZoomName].Num?
    && PhiName in s && s[PhiName].Num?
  }

  function Offset(s: Settings): Point
    requires WellFormed(s)
  {
    Point(s[OffsetName].xs[0], s[OffsetName].xs[1])
  }

  function Zoom(s: Settings): real
    requires WellFormed(s)
  {
    s[ZoomName].x
  }

  function Phi(s: Settings): real
    requires WellFormed(s)
  {
    s[PhiName].x
  }

  /** `_rotate_point`: the vector from the offset to `p`, turned by `pi * PHI` radians. The
      `clock_wise` branches are written out as the source has them: they are identical. */
  function RotatePoint(t: Trig, s: Settings, p: Point, clockWise: bool): Point
    requires WellFormed(s)
  {
    var o := Offset(s);
    var c, sn := t.cos(LegacyPi * Phi(s)), t.sin(LegacyPi * Phi(s));
    if clockWise then Point((p.x - o.x) * c - (p.y - o.y) * sn, (p.x - o.x) * sn + (p.y - o.y) * c)
    else Point((p.x - o.x) * c - (p.y - o.y) * sn, (p.x - o.x) * sn + (p.y - o.y) * c)
  }

  /** `clock_wise` makes no difference, and the legacy rotation is `util/geometry.py`'s
      `rotate_point` about the offset at an angle rescaled for the shorter pi; so it keeps the
      distance to the offset. */
  lemma RotateIgnoresDirection(t: Trig, s: Settings, p: Point, clockWise: bool)
    requires WellFormed(s)
    ensures RotatePoint(t, s, p, clockWise) == RotatePoint(t, s, p, !clockWise)
    ensures RotatePoint(t, s, p, clockWise) == Geometry.RotatePoint(t, p, Phi(s) * LegacyPi / Pi, Some(Offset(s)))
    ensures TrigLaws(t) ==> RotatePoint(t, s, p, clockWise).NormSquared() == p.Minus(Offset(s)).NormSquared()
  {
    var angle := Phi(s) * LegacyPi / Pi;
    RescaledAngle(Phi(s));
    if TrigLaws(t) {
      RotatePointPreservesDistance(t, p, angle, Offset(s));
    }
  }

  lemma RescaledAngle(a: real)
    ensures Pi * (a * LegacyPi / Pi) == LegacyPi * a
  {
  }

  /** `_get_scaled_points` divides by the shorter side and by the zoom. */
  predicate Navigable(s: Settings, size: Fractal2D.Size) {
    WellFormed(s) && size.Shorter() != 0 && Zoom(s) != 0.0
  }

  /** `_get_scaled_points(x, y, centerize, rotate)`: optionally move the origin to the widget
      centre, optionally rotate about the offset, then scale by `2 / min(w, h) / ZOOM` and
      flip the Y axis. */
  function ScaledPoint(t: Trig, s: Settings, size: Fractal2D.Size, p: Point, centerize: bool, rotate: bool): Point
    requires Navigable(s, size)
  {
    var m := size.Shorter() as real;
    var centred := if centerize then p.Minus(size.Center()) else p;
    var turned := if rotate then RotatePoint(t, s, centred, true) else centred;
    Point(turned.x * (2.0 / m / Zoom(s)), turned.y * (-2.0 / m / Zoom(s)))
  }

  /** The view of `fractals/abstract/fractal_2d.py` that shows what these settings show. */
  function ViewOf(s: Settings, template: Fractal2D.View): (v: Fractal2D.View)
    requires WellFormed(s)
    ensures v.offset == Offset(s) && v.zoom == Zoom(s)
  {
    template.(offset := Offset(s), zoom := Zoom(s), rotation := Phi(s) * LegacyPi / Pi)
  }

  /** Centred, rotated and scaled, a point lands where the newer `_translate_point` sends it
      in the corresponding view: the two point maps agree. Without centring and rotation the
      map is linear. */
  lemma ScaledPointIsTranslatePoint(t: Trig, s: Settings, size: Fractal2D.Size, p: Point, q: Point, template: Fractal2D.View)
    requires Navigable(s, size)
    ensures Fractal2D.Navigable(ViewOf(s, template), size)
    ensures ScaledPoint(t, s, size, p, true, true) == Fractal2D.TranslatePoint(t, ViewOf(s, template), size, p)
    ensures ScaledPoint(t, s, size, p.Negated(), false, false) == ScaledPoint(t, s, size, p, false, false).Negated()
    ensures ScaledPoint(t, s, size, p.Plus(q), false, false)
         == ScaledPoint(t, s, size, p, false, false).Plus(ScaledPoint(t, s, size, q, false, false))
  {
    var v := ViewOf(s, template);
    var m := size.Shorter() as real;
    var f := 2.0 / m / Zoom(s);
    assert -2.0 / m / Zoom(s) == -f;
    assert Fractal2D.Factor(v, size) == f;
    RotateIgnoresDirection(t, s, p.Minus(size.Center()), true);
  }

  /** `_change_offset(x, y, difference, scale, centerize, rotate)`: the point, scaled if asked,
      is added to the offset or replaces it; no other entry changes. */
  function ChangeOffset(t: Trig, s: Settings, size: Fractal2D.Size, p: Point, difference: bool, scale: bool,
                        centerize: bool, rotate: bool): (r: Settings)
    requires WellFormed(s)
    requires scale ==> Navigable(s, size)
    ensures WellFormed(r) && r == s[OffsetName := r[OffsetName]]
    ensures Zoom(r) == Zoom(s) && Phi(r) == Phi(s)
    ensures !scale && !difference ==> Offset(r) == p
  {
    var d := if scale then ScaledPoint(t, s, size, p, centerize, rotate) else p;
    var o := if difference then Offset(s).Plus(d) else d;
    s[OffsetName := Numbers([o.x, o.y])]
  }

  /** A relative, scaled but neither centred nor rotated change (what a drag applies) is
      undone by the opposite change. */
  lemma ChangeOffsetUndone(t: Trig, s: Settings, size: Fractal2D.Size, p: Point)
    requires Navigable(s, size)
    ensures var once := ChangeOffset(t, s, size, p, true, true, false, false);
            Navigable(once, size) && ChangeOffset(t, once, size, p.Negated(), true, true, false, false) == s
  {
    var once := ChangeOffset(t, s, size, p, true, true, false, false);
    var d := ScaledPoint(t, s, size, p, false, false);
    assert ScaledPoint(t, once, size, p.Negated(), false, false) == d.Negated();
    var back := ChangeOffset(t, once, size, p.Negated(), true, true, false, false);
    assert back[OffsetName].xs == s[OffsetName].xs;
  }

  // ---------------------------------------------------------------------------------------
  // eventFilter

  /** The widget: the settings, the (rotated) position the next drag is measured from, the
      redraw flag and the video length in seconds. */
  datatype Widget = Widget(settings: Settings, mouse: Point, draw: bool, animationLength: int)

  /** A mouse move: while exactly the left button is held, the cursor is rotated about the
      offset, the offset moves against its displacement from the recorded position (scaled,
      not centred or rotated again), and the rotated cursor is recorded. */
  function MouseMove(t: Trig, w: Widget, size: Fractal2D.Size, buttons: set<Fractal2D.MouseButton>, cursor: Point): (r: Widget)
    requires WellFormed(w.settings)
    requires buttons == {Fractal2D.LeftButton} ==> Navigable(w.settings, size)
    ensures Navigable(w.settings, size) ==> Navigable(r.settings, size)
    ensures buttons != {Fractal2D.LeftButton} ==> r == w
    ensures buttons == {Fractal2D.LeftButton} ==> r.draw && r.mouse == RotatePoint(t, w.settings, cursor, true)
    ensures r.animationLength == w.animationLength && r.settings == w.settings[OffsetName := r.settings[OffsetName]]
  {
    if buttons == {Fractal2D.LeftButton} then
      var newPos := RotatePoint(t, w.settings, cursor, true);
      var difference := newPos.Minus(w.mouse);
      var moved := ChangeOffset(t, w.settings, size, difference.Negated(), true, true, false, false);
      w.(draw := true, settings := moved, mouse := newPos)
    else w
  }

  /** A mouse press: the left button alone records the rotated cursor; the right button alone
      adds the centred, rotated and scaled cursor to the offset. */
  function MousePress(t: Trig, w: Widget, size: Fractal2D.Size, buttons: set<Fractal2D.MouseButton>, cursor: Point): (r: Widget)
    requires WellFormed(w.settings)
    requires buttons == {Fractal2D.RightButton} ==> Navigable(w.settings, size)
    ensures buttons == {Fractal2D.LeftButton} ==> r == w.(mouse := RotatePoint(t, w.settings, cursor, true))
    ensures buttons == {Fractal2D.RightButton} ==> r.draw && r.mouse == w.mouse
    ensures buttons != {Fractal2D.LeftButton} && buttons != {Fractal2D.RightButton} ==> r == w
    ensures WellFormed(r.settings) && r.settings == w.settings[OffsetName := r.settings[OffsetName]]
  {
    if buttons == {Fractal2D.LeftButton} then w.(mouse := RotatePoint(t, w.settings, cursor, true))
    else if buttons == {Fractal2D.RightButton} then
      w.(settings := ChangeOffset(t, w.settings, size, cursor, true, true, true, true), draw := true)
    else w
  }

  /** A right click moves the offset exactly as the newer widget's right click does in the
      corresponding view. */
  lemma RightClickAsNewer(t: Trig, w: Widget, size: Fractal2D.Size, cursor: Point, template: Fractal2D.View)
    requires Navigable(w.settings, size)
    ensures var v := ViewOf(w.settings, template);
            Fractal2D.Navigable(v, size)
            && Offset(MousePress(t, w, size, {Fractal2D.RightButton}, cursor).settings)
               == Fractal2D.MousePress(t, v, size, Fractal2D.RightButton, cursor).offset
  {
    ScaledPointIsTranslatePoint(t, w.settings, size, cursor, cursor, template);
  }

  /** The wheel: `change_parameter` overwrites the zoom with itself times
      `1.1 ** (delta / 100)`. */
  function Wheel(pow: PowFn, w: Widget, delta: int): (r: Widget)
    requires WellFormed(w.settings)
    ensures WellFormed(r.settings) && r.settings == w.settings[ZoomName := r.settings[ZoomName]]
    ensures r.draw && r.mouse == w.mouse && r.animationLength == w.animationLength
  {
    w.(draw := true, settings := w.settings[ZoomName := Num(Zoom(w.settings) * Fractal2D.ZoomStep(pow, delta))])
  }

  /** Wheel events compose into one carrying the summed delta, and keep a positive zoom
      positive, as in the newer widget. */
  lemma WheelCompose(pow: PowFn, w: Widget, d1: int, d2: int)
    requires PowLaws(pow)
    requires WellFormed(w.settings)
    ensures Wheel(pow, Wheel(pow, w, d1), d2) == Wheel(pow, w, d1 + d2)
    ensures 0.0 < Zoom(w.settings) ==> 0.0 < Zoom(Wheel(pow, w, d1).settings)
  {
    var z := Zoom(w.settings);
    Fractal2D.ZoomStepsCompose(pow, z, d1, d2);
    var r := Wheel(pow, Wheel(pow, w, d1), d2).settings;
    var m := Wheel(pow, w, d1 + d2).settings;
    assert r[ZoomName] == m[ZoomName];
    assert r.Keys == m.Keys;
    assert forall k :: k in r ==> r[k] == m[k];
  }

  /** A drag step without rotation: the rotated cursor is the cursor minus the offset, and the
      offset moves against that point's displacement from the recorded one, scaled. Right
      after a left press at `a`, a move to `b` therefore moves the offset by the pixel
      displacement `b - a`, scaled and flipped, as in the newer widget. */
  lemma FirstDragStep(t: Trig, w: Widget, size: Fractal2D.Size, a: Point, b: Point)
    requires TrigLaws(t)
    requires Navigable(w.settings, size) && Phi(w.settings) == 0.0
    ensures var f := 2.0 / size.Shorter() as real / Zoom(w.settings);
            var pressed := MousePress(t, w, size, {Fractal2D.LeftButton}, a);
            Offset(MouseMove(t, pressed, size, {Fractal2D.LeftButton}, b).settings)
              == Point(Offset(w.settings).x - (b.x - a.x) * f, Offset(w.settings).y + (b.y - a.y) * f)
  {
    var f := 2.0 / size.Shorter() as real / Zoom(w.settings);
    assert -2.0 / size.Shorter() as real / Zoom(w.settings) == -f;
    var o := Offset(w.settings);
    assert RotatePoint(t, w.settings, a, true) == a.Minus(o);
    assert RotatePoint(t, w.settings, b, true) == b.Minus(o);
  }

  /** Dragging from `a` to `b` and back to `a` does not bring the view back: the recorded
      position is the cursor minus the offset at the time, so the first move's offset change
      leaks into the second, and the view ends `(b - a) * f * f` away from where it started,
      `f` being the scale. At zoom 1 in a 2 x 2 widget, a drag one pixel right and back
      leaves the view one unit left. */
  lemma DragRoundTripFails(t: Trig, w: Widget, size: Fractal2D.Size, a: Point, b: Point)
    requires TrigLaws(t)
    requires Navigable(w.settings, size) && Phi(w.settings) == 0.0
    ensures var f := 2.0 / size.Shorter() as real / Zoom(w.settings);
            var o := Offset(w.settings);
            var pressed := MousePress(t, w, size, {Fractal2D.LeftButton}, a);
            var there := MouseMove(t, pressed, size, {Fractal2D.LeftButton}, b);
            var back := MouseMove(t, there, size, {Fractal2D.LeftButton}, a);
            Offset(back.settings) == Point(o.x - (b.x - a.x) * (f * f), o.y - (b.y - a.y) * (f * f))
  {
    var f := 2.0 / size.Shorter() as real / Zoom(w.settings);
    var o := Offset(w.settings);
    var pressed := MousePress(t, w, size, {Fractal2D.LeftButton}, a);
    FirstDragStep(t, w, size, a, b);
    var there := MouseMove(t, pressed, size, {Fractal2D.LeftButton}, b);
    var o1 := Offset(there.settings);
    assert there.mouse == b.Minus(o);
    assert -2.0 / size.Shorter() as real / Zoom(there.settings) == -f;
    assert RotatePoint(t, there.settings, a, true) == a.Minus(o1);
    var back := MouseMove(t, there, size, {Fractal2D.LeftButton}, a);
    var dx, dy := b.x - a.x, b.y - a.y;
    assert o1 == Point(o.x - dx * f, o.y + dy * f);
    var d := a.Minus(o1).Minus(b.Minus(o)).Negated();
    assert d == Point(dx * (1.0 - f), dy * (1.0 + f));
    assert Offset(back.settings) == Point(o1.x + d.x * f, o1.y + d.y * -f);
    LeakedStep(o.x, dx, f);
    LeakedStep(o.y, -dy, f);
  }

  lemma LeakedStep(o: real, d: real, f: real)
    ensures (o - d * f) + d * (1.0 - f) * f == o - d * (f * f)
  {
  }

  /** The concrete case: at zoom 1 in a 2 x 2 widget with no rotation, pressing at the
      corner, moving one pixel right and moving back leaves the offset at `(-1, 0)`. */
  lemma DragRoundTripFailsExample(t: Trig, w: Widget)
    requires TrigLaws(t)
    requires WellFormed(w.settings)
    requires w.settings[OffsetName] == Numbers([0.0, 0.0]) && w.settings[ZoomName] == Num(1.0) && w.settings[PhiName] == Num(0.0)
    ensures var size := Fractal2D.Size(2, 2);
            var pressed := MousePress(t, w, size, {Fractal2D.LeftButton}, Origin);
            var there := MouseMove(t, pressed, size, {Fractal2D.LeftButton}, Point(1.0, 0.0));
            Offset(MouseMove(t, there, size, {Fractal2D.LeftButton}, Origin).settings) == Point(-1.0, 0.0)
  {
    var size := Fractal2D.Size(2, 2);
    assert size.Shorter() == 2;
    assert Offset(w.settings) == Origin && Zoom(w.settings) == 1.0 && Phi(w.settings) == 0.0;
    assert 2.0 / size.Shorter() as real / Zoom(w.settings) == 1.0;
    DragRoundTripFails(t, w, size, Origin, Point(1.0, 0.0));
  }

  /** The drag as the newer widget does it: the recorded position is the raw cursor, and both
      it and the new cursor are rotated about the current offset before taking the
      difference, so the offset cancels out. */
  function CorrectedMouseMove(t: Trig, w: Widget, size: Fractal2D.Size, buttons: set<Fractal2D.MouseButton>, cursor: Point): (r: Widget)
    requires WellFormed(w.settings)
    requires buttons == {Fractal2D.LeftButton} ==> Navigable(w.settings, size)
    ensures Navigable(w.settings, size) ==> Navigable(r.settings, size)
    ensures buttons != {Fractal2D.LeftButton} ==> r == w
    ensures buttons == {Fractal2D.LeftButton} ==> r.draw && r.mouse == cursor
    ensures r.animationLength == w.animationLength && r.settings == w.settings[OffsetName := r.settings[OffsetName]]
  {
    if buttons == {Fractal2D.LeftButton} then
      var difference := RotatePoint(t, w.settings, cursor, true).Minus(RotatePoint(t, w.settings, w.mouse, true));
      var moved := ChangeOffset(t, w.settings, size, difference.Negated(), true, true, false, false);
      w.(draw := true, settings := moved, mouse := cursor)
    else w
  }

  /** With the correction, dragging from `a` to `b` and back restores the view, whatever the
      rotation and zoom. */
  lemma CorrectedDragRoundTrip(t: Trig, w: Widget, size: Fractal2D.Size, a: Point, b: Point)
    requires Navigable(w.settings, size) && w.mouse == a
    ensures var there := CorrectedMouseMove(t, w, size, {Fractal2D.LeftButton}, b);
            Navigable(there.settings, size)
            && CorrectedMouseMove(t, there, size, {Fractal2D.LeftButton}, a).settings == w.settings
  {
    var there := CorrectedMouseMove(t, w, size, {Fractal2D.LeftButton}, b);
    var angle := Phi(w.settings) * LegacyPi / Pi;
    RotateIgnoresDirection(t, w.settings, b, true);
    RotateIgnoresDirection(t, w.settings, a, true);
    RotateIgnoresDirection(t, there.settings, b, true);
    RotateIgnoresDirection(t, there.settings, a, true);
    Geometry.RotatePointDifference(t, b, a, angle, Offset(w.settings));
    Geometry.RotatePointDifference(t, a, b, angle, Offset(there.settings));
    assert a.Minus(b) == b.Minus(a).Negated();
    Geometry.RotatePointNegated(t, b.Minus(a), angle);
    var d := Geometry.RotatePoint(t, b.Minus(a), angle, None);
    ChangeOffsetUndone(t, w.settings, size, d.Negated());
    assert d.Negated().Negated() == d;
  }

  // ---------------------------------------------------------------------------------------
  // Animation

  /** The step function of an animated parameter, `(value, speed) -> new value`. */
  type StepFn = (real, real) -> real

  /** A class's `animation_params`: the parameters it can animate and their step functions. */
  type AnimParams = map<string, StepFn>

  /** `n` steps from `x` at a fixed speed. */
  function Iterate(step: StepFn, x: real, speed: real, n: nat): real {
    if n == 0 then x else step(Iterate(step, x, speed, n - 1), speed)
  }

  /** Steps add up: `n + m` steps are `m` steps after `n`. */
  lemma {:induction false} IterateAdds(step: StepFn, x: real, speed: real, n: nat, m: nat)
    ensures Iterate(step, x, speed, n + m) == Iterate(step, Iterate(step, x, speed, n), speed, m)
    decreases m
  {
    if m > 0 {
      IterateAdds(step, x, speed, n, m - 1);
    }
  }

  /** `lambda x, sp: x + k*sp`: the additive step of rate `k`. */
  function Additive(k: real): StepFn {
    (x: real, sp: real) => x + k * sp
  }

  /** An additive step walks in a straight line. */
  lemma {:induction false} AdditiveIterate(k: real, x: real, speed: real, n: nat)
    ensures Iterate(Additive(k), x, speed, n) == x + n as real * k * speed
    decreases n
  {
    if n > 0 {
      AdditiveIterate(k, x, speed, n - 1);
      assert x + (n - 1) as real * k * speed + k * speed == x + n as real * k * speed;
    }
  }

  /** What `animate` reads, in its order: the selected name, its step function, the current
      value and the speed, the last two as numbers. */
  datatype Selection = Selection(name: string, step: StepFn, value: real, speed: real)

  function Select(s: Settings, params: AnimParams): (r: Result<Selection, SettingsError>)
    ensures r.Ok? <==> && AnimParamName in s && s[AnimParamName].Text?
                       && s[AnimParamName].s in params && s[AnimParamName].s in s
                       && Numeric(s[s[AnimParamName].s]).Some?
                       && AnimSpeedName in s && Numeric(s[AnimSpeedName]).Some?
    ensures r.Ok? ==> && r.value.name == s[AnimParamName].s && r.value.step == params[r.value.name]
                      && Numeric(s[r.value.name]) == Some(r.value.value)
                      && Numeric(s[AnimSpeedName]) == Some(r.value.speed)
    ensures AnimParamName !in s ==> r == Err(KeyError(Text(AnimParamName)))
    ensures AnimParamName in s && s[AnimParamName].Text? && s[AnimParamName].s !in params ==>
              r == Err(KeyError(s[AnimParamName]))
  {
    if AnimParamName !in s then Err(KeyError(Text(AnimParamName)))
    else match s[AnimParamName]
      case Numbers(_) => Err(TypeError)
      case Num(_) => Err(KeyError(s[AnimParamName]))
      case Flag(_) => Err(KeyError(s[AnimParamName]))
      case Text(name) =>
        if name !in params then Err(KeyError(Text(name)))
        else if name !in s then Err(KeyError(Text(name)))
        else if AnimSpeedName !in s then Err(KeyError(Text(AnimSpeedName)))
        else match (Numeric(s[name]), Numeric(s[AnimSpeedName]))
          case (Some(x), Some(sp)) => Ok(Selection(name, params[name], x, sp))
          case _ => Err(TypeError)
  }

  /** `animate`: the selected parameter takes one step. The redraw flag is raised first, so it
      is raised even when a lookup fails. */
  function Animate(w: Widget, params: AnimParams): (r: Partial<Widget, SettingsError>)
    ensures r.state.draw && r.state.mouse == w.mouse && r.state.animationLength == w.animationLength
    ensures r.error.None? <==> Select(w.settings, params).Ok?
    ensures r.error.Some? ==> r.state == w.(draw := true) && r.error == Some(Select(w.settings, params).error)
    ensures r.error.None? ==> r.state.settings.Keys == w.settings.Keys
  {
    match Select(w.settings, params)
    case Err(e) => Partial(w.(draw := true), Some(e))
    case Ok(sel) => Partial(w.(draw := true, settings := w.settings[sel.name := Num(sel.step(sel.value, sel.speed))]), None)
  }

  /** `animate` called `n` times, stopping at the first error. */
  function AnimateTimes(w: Widget, params: AnimParams, n: nat): Partial<Widget, SettingsError> {
    if n == 0 then Partial(w, None)
    else
      var before := AnimateTimes(w, params, n - 1);
      if before.error.Some? then before else Animate(before.state, params)
  }

  /** Each `animate` applies the step function once: `n` calls leave the selected parameter at
      `n` steps from where it was, and change nothing else. The speed must not be the animated
      parameter itself. */
  lemma {:induction false} AnimateTimesMeaning(w: Widget, params: AnimParams, n: nat)
    requires Select(w.settings, params).Ok? && Select(w.settings, params).value.name != AnimSpeedName
    ensures var sel := Select(w.settings, params).value;
            var r := AnimateTimes(w, params, n);
            && r.error.None?
            && Select(r.state.settings, params) == Ok(sel.(value := Iterate(sel.step, sel.value, sel.speed, n)))
            && (0 < n ==> r.state.settings[sel.name] == Num(Iterate(sel.step, sel.value, sel.speed, n)))
            && r.state.settings == w.settings[sel.name := r.state.settings[sel.name]]
            && r.state.mouse == w.mouse && r.state.animationLength == w.animationLength
    decreases n
  {
    var sel := Select(w.settings, params).value;
    if n == 0 {
      assert w.settings[sel.name := w.settings[sel.name]] == w.settings;
    } else {
      AnimateTimesMeaning(w, params, n - 1);
      var before := AnimateTimes(w, params, n - 1).state;
      var x := Iterate(sel.step, sel.value, sel.speed, n - 1);
      assert Select(before.settings, params) == Ok(sel.(value := x));
      var after := Animate(before, params).state;
      assert after.settings == before.settings[sel.name := Num(sel.step(x, sel.speed))];
      assert after.settings[AnimParamName] == w.settings[AnimParamName];
      assert after.settings[AnimSpeedName] == w.settings[AnimSpeedName];
      assert after.settings == w.settings[sel.name := after.settings[sel.name]];
    }
  }

  /** The end value `update_frame` shows: the selected value after `animation_length * 60`
      steps; no step is taken for a non-positive length. */
  function Steps(length: int): nat {
    if length <= 0 then 0 else length * 60
  }

  /** `update_frame`: animate if real-time animation is on, then report the selected
      parameter's value after the video's worth of steps. The loop looks up the step function
      and the speed only when it runs at least once, and the report formats the value as a
      number. */
  method UpdateFrame(w: Widget, params: AnimParams) returns (r: Widget, endValue: Result<real, SettingsError>)
    ensures AnimationName !in w.settings ==> r == w && endValue == Err(KeyError(Text(AnimationName)))
    ensures AnimationName in w.settings && !Truthy(w.settings[AnimationName]) ==> r == w
    ensures AnimationName in w.settings && Truthy(w.settings[AnimationName]) ==> r == Animate(w, params).state
    ensures AnimationName in w.settings && 0 < w.animationLength ==>
              (endValue.Ok? <==> Select(r.settings, params).Ok?)
    ensures endValue.Ok? && 0 < w.animationLength ==>
              var sel := Select(r.settings, params).value;
              endValue.value == Iterate(sel.step, sel.value, sel.speed, Steps(w.animationLength))
    ensures endValue.Ok? ==>
              AnimParamName in r.settings && r.settings[AnimParamName].Text? && r.settings[AnimParamName].s in r.settings
    ensures endValue.Ok? && w.animationLength <= 0 ==>
              Numeric(r.settings[r.settings[AnimParamName].s]) == Some(endValue.value)
  {
    r := w;
    if AnimationName !in w.settings {
      return w, Err(KeyError(Text(AnimationName)));
    }
    if Truthy(w.settings[AnimationName]) {
      var animated := Animate(w, params);
      r := animated.state;
      if animated.error.Some? {
        return r, Err(animated.error.value);
      }
    }
    if AnimParamName !in r.settings {
      return r, Err(KeyError(Text(AnimParamName)));
    }
    var current := r.settings[AnimParamName];
    if current.Numbers? {
      return r, Err(TypeError);
    }
    if !current.Text? || current.s !in r.settings {
      return r, Err(KeyError(current));
    }
    var name := current.s;
    var n := Steps(w.animationLength);
    if n == 0 {
      match Numeric(r.settings[name])
      case Some(x) => return r, Ok(x);
      case None => return r, Err(if r.settings[name].Text? then ValueError else TypeError);
    }
    if name !in params {
      return r, Err(KeyError(current));
    }
    if AnimSpeedName !in r.settings {
      return r, Err(KeyError(Text(AnimSpeedName)));
    }
    if Numeric(r.settings[name]).None? || Numeric(r.settings[AnimSpeedName]).None? {
      return r, Err(TypeError);
    }
    var sel := Select(r.settings, params).value;
    var value := sel.value;
    var i := 0;
    while i < n
      invariant 0 <= i <= n
      invariant value == Iterate(sel.step, sel.value, sel.speed, i)
    {
      value := params[name](value, sel.speed);
      i := i + 1;
    }
    endValue := Ok(value);
  }

  // ---------------------------------------------------------------------------------------
  // save_video's frame schedule

  /** The number of `animate` calls made up to and including frame `i` when frames `30` to
      `last` animate. */
  function CallsThrough(i: int, last: int): nat {
    if i < 30 || last < 30 then 0 else Min(i, last) - 29
  }

  /** `round(animation_length * 60 + 60)` frames; the length is whole, so the rounding changes
      nothing, and a negative count gives no frames. */
  function FrameCount(length: int): nat {
    if length * 60 + 60 < 0 then 0 else length * 60 + 60
  }

  /** The frame loop: frame `i` first animates if `30 <= i <= last`, then is grabbed; the
      frames record the animated parameter's value as each one shows it. */
  method RecordFrames(step: StepFn, x: real, speed: real, count: nat, last: int) returns (frames: seq<real>, value: real)
    ensures |frames| == count
    ensures forall i :: 0 <= i < count ==> frames[i] == Iterate(step, x, speed, CallsThrough(i, last))
    ensures value == Iterate(step, x, speed, CallsThrough(count - 1, last))
  {
    frames, value := [], x;
    var i := 0;
    while i < count
      invariant 0 <= i <= count && |frames| == i
      invariant value == Iterate(step, x, speed, CallsThrough(i - 1, last))
      invariant forall k :: 0 <= k < i ==> frames[k] == Iterate(step, x, speed, CallsThrough(k, last))
    {
      if 30 <= i <= last {
        value := step(value, speed);
      }
      frames := frames + [value];
      i := i + 1;
    }
  }

  /** `save_video` as written: frames `30` to `animation_length * 60 + 30` inclusive animate,
      so a video of whole length `L` takes `60 * L + 1` steps, one more than the end value
      `update_frame` reports. The first 30 frames show the start value. */
  method SaveVideo(step: StepFn, x: real, speed: real, length: int) returns (frames: seq<real>, value: real)
    ensures |frames| == FrameCount(length)
    ensures 0 <= length ==> value == Iterate(step, x, speed, Steps(length) + 1)
    ensures 0 <= length ==> forall i :: 0 <= i < 30 ==> frames[i] == x
    ensures 0 <= length ==> forall i :: 60 * length + 30 <= i < |frames| ==> frames[i] == value
  {
    frames, value := RecordFrames(step, x, speed, FrameCount(length), length * 60 + 30);
  }

  /** `save_video` with the schedule evidently intended: frames `30` up to but excluding
      `animation_length * 60 + 30` animate, so the video ends exactly on the end value
      `update_frame` reports, after 30 frames at the start value and with 30 frames at the
      end value. */
  method SaveVideoCorrected(step: StepFn, x: real, speed: real, length: int) returns (frames: seq<real>, value: real)
    ensures |frames| == FrameCount(length)
    ensures 0 <= length ==> value == Iterate(step, x, speed, Steps(length))
    ensures 0 <= length ==> forall i :: 0 <= i < 30 ==> frames[i] == x
    ensures 0 <= length ==> forall i :: 60 * length + 30 <= i < |frames| ==> frames[i] == value
  {
    frames, value := RecordFrames(step, x, speed, FrameCount(length), length * 60 + 29);
  }

  /** The schedule as written overshoots whenever a step moves the value: with the rotation
      step of `Fractals.py` (0.001 per unit of speed) at speed 1, a one-second video ends at
      0.061 while the reported end value is 0.06. */
  lemma SaveVideoOvershoots(k: real, x: real, speed: real, length: int)
    requires 0 <= length && k * speed != 0.0
    ensures Iterate(Additive(k), x, speed, Steps(length) + 1) != Iterate(Additive(k), x, speed, Steps(length))
    ensures Iterate(Additive(0.001), 0.0, 1.0, Steps(1) + 1) == 0.061 && Iterate(Additive(0.001), 0.0, 1.0, Steps(1)) == 0.06
  {
    AdditiveIterate(k, x, speed, Steps(length) + 1);
    AdditiveIterate(k, x, speed, Steps(length));
    AdditiveIterate(0.001, 0.0, 1.0, 61);
    AdditiveIterate(0.001, 0.0, 1.0, 60);
  }

  // ---------------------------------------------------------------------------------------
  // input_position

  /** How often `c` occurs in `text`. */
  function Occurrences(text: string, c: char): nat
    decreases |text|
  {
    if |text| == 0 then 0 else (if text[0] == c then 1 else 0) + Occurrences(text[1..], c)
  }

  /** The pieces joined back with the separator between them. */
  function Join(parts: seq<string>, sep: char): string
    requires 0 < |parts|
    decreases |parts|
  {
    if |parts| == 1 then parts[0] else parts[0] + [sep] + Join(parts[1..], sep)
  }

  /** `text.split(sep)`: the pieces between separators, one more than there are separators;
      no piece holds the separator and joining them gives the text back. */
  function Split(text: string, sep: char): (r: seq<string>)
    ensures |r| == Occurrences(text, sep) + 1
    ensures forall i :: 0 <= i < |r| ==> sep !in r[i]
    ensures Join(r, sep) == text
    decreases |text|
  {
    if |text| == 0 then [""]
    else
      var rest := Split(text[1..], sep);
      if text[0] == sep then [""] + rest
      else
        assert rest == [rest[0]] + rest[1..];
        [[text[0]] + rest[0]] + rest[1..]
  }

  /** Splitting is also a left inverse of joining: pieces free of the separator come back out
      of their join. */
  lemma {:induction false} SplitJoin(parts: seq<string>, sep: char)
    requires 0 < |parts| && forall i :: 0 <= i < |parts| ==> sep !in parts[i]
    ensures Split(Join(parts, sep), sep) == parts
    decreases |parts|, |parts[0]|
  {
    if |parts| == 1 {
      SplitPiece(parts[0], sep);
    } else {
      var rest := parts[1..];
      SplitJoin(rest, sep);
      SplitPrefix(parts[0], sep, Join(rest, sep));
      assert Join(parts, sep) == parts[0] + ([sep] + Join(rest, sep));
    }
  }

  /** A text free of the separator splits into itself. */
  lemma {:induction false} SplitPiece(piece: string, sep: char)
    requires sep !in piece
    ensures Split(piece, sep) == [piece]
    decreases |piece|
  {
    if |piece| > 0 {
      SplitPiece(piece[1..], sep);
      assert [piece[0]] + piece[1..] == piece;
    }
  }

  /** Splitting `piece + sep + tail`, with no separator in `piece`, yields `piece` followed by
      the pieces of `tail`. */
  lemma {:induction false} SplitPrefix(piece: string, sep: char, tail: string)
    requires sep !in piece
    ensures Split(piece + ([sep] + tail), sep) == [piece] + Split(tail, sep)
    decreases |piece|
  {
    if |piece| == 0 {
      assert piece + ([sep] + tail) == [sep] + tail;
      assert ([sep] + tail)[1..] == tail;
    } else {
      var text := piece + ([sep] + tail);
      assert text[1..] == piece[1..] + ([sep] + tail);
      SplitPrefix(piece[1..], sep, tail);
      assert [piece[0]] + piece[1..] == piece;
    }
  }

  /** `float`: a number or `ValueError`. Its grammar is not modelled; it is a parameter. */
  type Parser = string -> Option<real>

  /** The field at `i` can be taken: it exists, and it is empty or a number. */
  predicate FieldOk(parse: Parser, fields: seq<string>, i: nat) {
    i < |fields| && (fields[i] == "" || parse(fields[i]).Some?)
  }

  /** The loop `for i in range(3)` of `input_position` over three targets, from index `i` on:
      an empty field is skipped, a number is assigned, anything else raises `ValueError`, and
      a missing field raises `IndexError`; assignments made before an error stay. */
  function InputFields(parse: Parser, fields: seq<string>, targets: seq<real>, i: nat): (r: Partial<seq<real>, SettingsError>)
    requires |targets| == 3 && i <= 3
    ensures |r.state| == 3
    ensures r.error.None? <==> forall j :: i <= j < 3 ==> FieldOk(parse, fields, j)
    ensures r.error == Some(IndexError) ==> |fields| < 3
    ensures r.error.Some? ==> r.error == Some(IndexError) || r.error == Some(ValueError)
    ensures forall j :: 0 <= j < 3 ==>
              r.state[j] == if i <= j < |fields| && fields[j] != "" && parse(fields[j]).Some?
                               && (forall k :: i <= k < j ==> FieldOk(parse, fields, k))
                            then parse(fields[j]).value else targets[j]
    decreases 3 - i
  {
    if i == 3 then Partial(targets, None)
    else if i >= |fields| then assert !FieldOk(parse, fields, i); Partial(targets, Some(IndexError))
    else if fields[i] == "" then InputFields(parse, fields, targets, i + 1)
    else match parse(fields[i])
      case None => assert !FieldOk(parse, fields, i); Partial(targets, Some(ValueError))
      case Some(v) => InputFields(parse, fields, targets[i := v], i + 1)
  }

  /** `input_position`: if the dialog is accepted, its text is split at `;` and fields 0, 1
      and 2 set the offset's x, the offset's y and the zoom. */
  function InputPosition(parse: Parser, w: Widget, accepted: bool, text: string): (r: Partial<Widget, SettingsError>)
    requires WellFormed(w.settings)
    ensures WellFormed(r.state.settings) && Phi(r.state.settings) == Phi(w.settings)
    ensures r.state.settings.Keys == w.settings.Keys
    ensures r.state.(settings := w.settings) == w
    ensures !accepted ==> r == Partial(w, None)
    ensures accepted && Occurrences(text, ';') < 2 ==> r.error.Some?
    ensures accepted && r.error.None? ==>
              var fields := Split(text, ';');
              && (fields[0] != "" ==> parse(fields[0]) == Some(Offset(r.state.settings).x))
              && (fields[1] != "" ==> parse(fields[1]) == Some(Offset(r.state.settings).y))
              && (fields[2] != "" ==> parse(fields[2]) == Some(Zoom(r.state.settings)))
              && (fields[0] == "" ==> Offset(r.state.settings).x == Offset(w.settings).x)
              && (fields[1] == "" ==> Offset(r.state.settings).y == Offset(w.settings).y)
              && (fields[2] == "" ==> Zoom(r.state.settings) == Zoom(w.settings))
  {
    if !accepted then Partial(w, None)
    else
      var o := Offset(w.settings);
      var got := InputFields(parse, Split(text, ';'), [o.x, o.y, Zoom(w.settings)], 0);
      var s := w.settings[OffsetName := Numbers([got.state[0], got.state[1]])][ZoomName := Num(got.state[2])];
      Partial(w.(settings := s), got.error)
  }

  /** A text of separators only, like `;;`, changes nothing and raises nothing. */
  lemma EmptyFieldsChangeNothing(parse: Parser, w: Widget)
    requires WellFormed(w.settings)
    ensures InputPosition(parse, w, true, ";;") == Partial(w, None)
  {
    var fields := Split(";;", ';');
    assert fields == ["", "", ""];
    var r := InputPosition(parse, w, true, ";;");
    assert r.state.settings[OffsetName] == w.settings[OffsetName];
    assert r.state.settings[ZoomName] == w.settings[ZoomName];
    assert r.state.settings == w.settings;
  }
}

=== FILE: legacyfractals.dfy ===
/** The fractal classes of `Fractals.py`, built on the settings dictionary of `Legacy2D`:
    each class's `animation_params`, the reference orbit of its 2D Mandelbrot, the parameter C
    of its Julia sets, and its Mandelbox with a fly camera kept in the settings (`PHI` the
    heading, `THETA` the pitch, `SPEED`, a three-entry `OFFSET`) and a dictionary of direction
    flags. The camera entries are modelled as the fields of `Camera.Camera`, which assumes
    they hold numbers, as the defaults have them. */
module LegacyFractals {
  import opened Basics
  import opened RealMath
  import opened Geometry
  import opened Legacy2D
  import Fractal2D
  import Camera
  import Orbit
  import Julia2D
  import Julia3D

  const ThetaName: string := "THETA"
  const ArgCName: string := "ARG_C"
  const AbsCName: string := "ABS_C"
  const ArgxCName: string := "ARGX_C"
  const ArgyCName: string := "ARGY_C"
  const OutRadName: string := "OUT_RAD"
  const InRadName: string := "IN_RAD"
  const FoldingName: string := "FOLDING"
  const ScaleName: string := "SCALE"
  const MaxIterName: string := "MAX_ITER"
  const PerturbationName: string := "PERTURBATION"
  const LinesName: string := "LINES"
  const ColorName: string := "COLOR"
  const PowerName: string := "POWER"
  const AaName: string := "AA"

  // ---------------------------------------------------------------------------------------
  // animation_params

  /** `lambda x, sp: x*(1.01**sp)`: the zoom grows by 1% per unit of speed. */
  function ZoomTimes(pow: PowFn): StepFn {
    (x: real, sp: real) => x * pow(1.01, sp)
  }

  /** `lambda x, sp: x**(1.01**sp)`: the Julia zoom is raised to a power instead. */
  function JuliaZoom(pow: PowFn): StepFn {
    (x: real, sp: real) => pow(x, pow(1.01, sp))
  }

  /** `BurningShip2D` and `Mandelbrot2D`: the zoom and the rotation. */
  function PlaneParams(pow: PowFn): (r: AnimParams)
    ensures r.Keys == {ZoomName, PhiName}
  {
    map[ZoomName := ZoomTimes(pow), PhiName := Additive(0.001)]
  }

  /** `Julia2D`: its own zoom, the rotation, and both polar components of C. */
  function JuliaParams(pow: PowFn): (r: AnimParams)
    ensures r.Keys == {ZoomName, PhiName, ArgCName, AbsCName}
  {
    map[ZoomName := JuliaZoom(pow), PhiName := Additive(0.001), ArgCName := Additive(0.02), AbsCName := Additive(0.02)]
  }

  /** `Mandelbrot3D` and `Mandelbrot4D`: the two camera angles. */
  function SpaceParams(): (r: AnimParams)
    ensures r.Keys == {PhiName, ThetaName}
  {
    map[PhiName := Additive(0.05), ThetaName := Additive(0.05)]
  }

  /** `Julia3D` and `Julia4D`: the two camera angles and the three spherical components of C. */
  function Julia3Params(): (r: AnimParams)
    ensures r.Keys == {PhiName, ThetaName, AbsCName, ArgxCName, ArgyCName}
  {
    map[PhiName := Additive(0.05), ThetaName := Additive(0.05),
        AbsCName := Additive(0.1), ArgxCName := Additive(0.1), ArgyCName := Additive(0.1)]
  }

  /** `Mandelbox`: the two radii, the folding and the scale. */
  function BoxParams(): (r: AnimParams)
    ensures r.Keys == {OutRadName, InRadName, FoldingName, ScaleName}
  {
    map[OutRadName := Additive(0.02), InRadName := Additive(0.02), FoldingName := Additive(0.02), ScaleName := Additive(0.02)]
  }

  /** The speed summed over `n` steps. */
  function Travel(n: nat, speed: real): real {
    n as real * speed
  }

  /** The zoom step is geometric: `n` steps multiply by `1.01 ** (n * sp)`. */
  lemma {:induction false} ZoomIterate(pow: PowFn, x: real, speed: real, n: nat)
    requires PowLaws(pow)
    ensures Iterate(ZoomTimes(pow), x, speed, n) == x * pow(1.01, Travel(n, speed))
    decreases n
  {
    if n == 0 {
      PowZero(pow, 1.01);
    } else {
      ZoomIterate(pow, x, speed, n - 1);
      assert Travel(n - 1, speed) + speed == Travel(n, speed);
      PowScaleTwice(pow, x, 1.01, Travel(n - 1, speed), speed, Travel(n, speed));
    }
  }

  /** The Julia zoom step raises to `1.01 ** sp` each time: `n` steps from a positive value
      raise it to `1.01 ** (n * sp)`. */
  lemma {:induction false} JuliaZoomIterate(pow: PowFn, x: real, speed: real, n: nat)
    requires PowLaws(pow) && 0.0 < x
    ensures Iterate(JuliaZoom(pow), x, speed, n) == pow(x, pow(1.01, Travel(n, speed)))
    decreases n
  {
    if n == 0 {
      PowZero(pow, 1.01);
    } else {
      JuliaZoomIterate(pow, x, speed, n - 1);
      var a := pow(1.01, Travel(n - 1, speed));
      assert Iterate(JuliaZoom(pow), x, speed, n) == pow(pow(x, a), pow(1.01, speed));
      PowAdd(pow, 1.01, Travel(n - 1, speed), speed);
      assert Travel(n - 1, speed) + speed == Travel(n, speed);
      PowPow(pow, x, a, pow(1.01, speed), pow(1.01, Travel(n, speed)));
    }
  }

  /** 1 is a fixed point of the Julia zoom step: one raised to any power stays one. */
  lemma {:induction false} JuliaZoomFixedPoint(pow: PowFn, speed: real, n: nat)
    requires PowLaws(pow)
    ensures Iterate(JuliaZoom(pow), 1.0, speed, n) == 1.0
    decreases n
  {
    if n > 0 {
      JuliaZoomFixedPoint(pow, speed, n - 1);
      PowOfOne(pow, pow(1.01, speed));
    }
  }

  /** Every other animated parameter of the 2D classes walks in a straight line, at the rate
      its lambda names. */
  lemma PlaneRates(pow: PowFn, x: real, speed: real, n: nat)
    ensures Iterate(PlaneParams(pow)[PhiName], x, speed, n) == x + n as real * 0.001 * speed
    ensures Iterate(JuliaParams(pow)[PhiName], x, speed, n) == x + n as real * 0.001 * speed
    ensures Iterate(JuliaParams(pow)[ArgCName], x, speed, n) == x + n as real * 0.02 * speed
    ensures Iterate(JuliaParams(pow)[AbsCName], x, speed, n) == x + n as real * 0.02 * speed
  {
    assert PlaneParams(pow)[PhiName] == JuliaParams(pow)[PhiName] == Additive(0.001);
    assert JuliaParams(pow)[ArgCName] == JuliaParams(pow)[AbsCName] == Additive(0.02);
    AdditiveIterate(0.001, x, speed, n);
    AdditiveIterate(0.02, x, speed, n);
  }

  /** Every animated parameter of the 3D classes walks in a straight line: the camera angles
      at 0.05 per unit of speed, the components of the 3D Julia C at 0.1. */
  lemma SpaceRates(x: real, speed: real, n: nat)
    ensures Iterate(SpaceParams()[PhiName], x, speed, n) == x + n as real * 0.05 * speed
    ensures Iterate(SpaceParams()[ThetaName], x, speed, n) == x + n as real * 0.05 * speed
    ensures Iterate(Julia3Params()[PhiName], x, speed, n) == x + n as real * 0.05 * speed
    ensures Iterate(Julia3Params()[ThetaName], x, speed, n) == x + n as real * 0.05 * speed
    ensures Iterate(Julia3Params()[AbsCName], x, speed, n) == x + n as real * 0.1 * speed
    ensures Iterate(Julia3Params()[ArgxCName], x, speed, n) == x + n as real * 0.1 * speed
    ensures Iterate(Julia3Params()[ArgyCName], x, speed, n) == x + n as real * 0.1 * speed
  {
    assert SpaceParams()[PhiName] == SpaceParams()[ThetaName] == Additive(0.05);
    assert Julia3Params()[PhiName] == Julia3Params()[ThetaName] == Additive(0.05);
    assert Julia3Params()[AbsCName] == Julia3Params()[ArgxCName] == Julia3Params()[ArgyCName] == Additive(0.1);
    AdditiveIterate(0.05, x, speed, n);
    AdditiveIterate(0.1, x, speed, n);
  }

  /** The Mandelbox's radii, folding and scale all walk at 0.02 per unit of speed; at its
      default speed of 0 its default animation stands still. */
  lemma BoxRates(x: real, speed: real, n: nat)
    ensures Iterate(BoxParams()[OutRadName], x, speed, n) == x + n as real * 0.02 * speed
    ensures Iterate(BoxParams()[InRadName], x, speed, n) == x + n as real * 0.02 * speed
    ensures Iterate(BoxParams()[FoldingName], x, speed, n) == x + n as real * 0.02 * speed
    ensures Iterate(BoxParams()[ScaleName], x, speed, n) == x + n as real * 0.02 * speed
    ensures Iterate(BoxParams()[OutRadName], x, 0.0, n) == x
  {
    assert BoxParams()[OutRadName] == BoxParams()[InRadName] == Additive(0.02);
    assert BoxParams()[FoldingName] == BoxParams()[ScaleName] == Additive(0.02);
    AdditiveIterate(0.02, x, speed, n);
    AdditiveIterate(0.02, x, 0.0, n);
  }

  /** The defaults of `Julia2D`: colours and offsets (tuples and lists) as lists of numbers. */
  function JuliaDefaults(): (s: Settings)
    ensures WellFormed(s) && Offset(s) == Origin && Zoom(s) == 1.0 && Phi(s) == 0.0
    ensures AnimParamName in s && s[AnimParamName] == Text(ZoomName)
    ensures AnimSpeedName in s && s[AnimSpeedName] == Num(1.0)
    ensures AnimationName in s && !Truthy(s[AnimationName])
  {
    map["MAX_ITER" := Num(100.0), OffsetName := Numbers([0.0, 0.0]), ZoomName := Num(1.0),
        "COLOR" := Numbers([1.0, 1.0, 1.0, 1.0]), "LINES" := Flag(false), "AA" := Flag(false),
        ArgCName := Num(Pi), AbsCName := Num(0.7), PhiName := Num(0.0), "POWER" := Num(2.0),
        AnimationName := Flag(false), AnimParamName := Text(ZoomName), AnimSpeedName := Num(1.0),
        "HIGH_SCR_QUALITY" := Flag(false), "HIGH_VIDEO_QUALITY" := Flag(false),
        "SHADER_SRC" := Text("src/shaders/julia2d.frag")]
  }

  /** The default animation of the Julia set changes nothing: it animates the zoom, which
      starts at 1, the fixed point of its step, so any number of `animate` calls leaves the
      settings as they were. */
  lemma JuliaDefaultAnimationStill(pow: PowFn, w: Widget, n: nat)
    requires PowLaws(pow)
    requires w.settings == JuliaDefaults()
    ensures AnimateTimes(w, JuliaParams(pow), n).error.None?
    ensures AnimateTimes(w, JuliaParams(pow), n).state.settings == w.settings
  {
    var params := JuliaParams(pow);
    var s := w.settings;
    assert ZoomName in params && ZoomName in s;
    assert Select(s, params) == Ok(Selection(ZoomName, JuliaZoom(pow), 1.0, 1.0));
    AnimateTimesMeaning(w, params, n);
    JuliaZoomFixedPoint(pow, 1.0, n);
    var r := AnimateTimes(w, params, n).state.settings;
    if n > 0 {
      assert r[ZoomName] == s[ZoomName];
      assert s[ZoomName := s[ZoomName]] == s;
    }
  }

  /** The 3D classes select the zoom by default, which their parameter maps cannot animate:
      animating with these settings raises `KeyError('ZOOM')`. */
  lemma SpaceZoomNotAnimated(s: Settings)
    requires AnimParamName in s && s[AnimParamName] == Text(ZoomName)
    ensures Select(s, SpaceParams()) == Err(KeyError(Text(ZoomName)))
    ensures Select(s, Julia3Params()) == Err(KeyError(Text(ZoomName)))
  {
  }

  // ---------------------------------------------------------------------------------------
  // get_perturbation_values

  /** `c = OFFSET` read as `c[1]` and then `c[0]`: a list of at least two numbers; a shorter
      list or text raises `IndexError`, a longer text or a number `TypeError`. */
  function PairOf(v: SValue): (r: Result<Point, SettingsError>)
    ensures r.Ok? <==> v.Numbers? && 2 <= |v.xs|
    ensures r.Ok? ==> r.value == Point(v.xs[0], v.xs[1])
    ensures r.Err? ==> r.error == IndexError || r.error == TypeError
  {
    match v
    case Numbers(xs) => if |xs| < 2 then Err(IndexError) else Ok(Point(xs[0], xs[1]))
    case Text(t) => if |t| < 2 then Err(IndexError) else Err(TypeError)
    case Num(_) => Err(TypeError)
    case Flag(_) => Err(TypeError)
  }

  predicate AllMarkers(orbit: seq<real>) {
    forall k :: 0 <= k < |orbit| ==> orbit[k] == Orbit.Marker
  }

  /** `get_perturbation_values`: the same orbit as `Orbit.UpdateOrbit`, read from the
      settings. `MAX_ITER` is read before the array is filled, `OFFSET` after; the loop
      `while i < n` runs `ceil(n)` times for a numeric `n` and compares a text or a list with
      an integer (`TypeError`); the offset is indexed only once the loop runs. `previous` is
      the shared array as the last call left it. */
  method GetPerturbationValues(s: Settings, previous: seq<real>) returns (orbit: seq<real>, error: Option<SettingsError>)
    ensures MaxIterName !in s ==> orbit == previous && error == Some(KeyError(Text(MaxIterName)))
    ensures MaxIterName in s ==> |orbit| == Orbit.OrbitLength
    ensures MaxIterName in s && (Numeric(s[MaxIterName]).None? || OffsetName !in s) ==> AllMarkers(orbit) && error.Some?
    ensures MaxIterName in s && OffsetName !in s ==> error == Some(KeyError(Text(OffsetName)))
    ensures MaxIterName in s && OffsetName in s && Numeric(s[MaxIterName]).None? ==> error == Some(TypeError)
    ensures MaxIterName in s && OffsetName in s && Numeric(s[MaxIterName]).Some? ==>
              var n := Ceil(Numeric(s[MaxIterName]).value);
              && (n <= 0 ==> AllMarkers(orbit) && error.None?)
              && (0 < n && PairOf(s[OffsetName]).Err? ==> AllMarkers(orbit) && error == Some(PairOf(s[OffsetName]).error))
              && (0 < n && PairOf(s[OffsetName]).Ok? ==>
                    var c := PairOf(s[OffsetName]).value;
                    && (error.None? <==> Orbit.Count(c, n) <= Orbit.Capacity)
                    && (error.Some? ==> error == Some(IndexError))
                    && forall k :: 0 <= k < Orbit.OrbitLength ==>
                         orbit[k] == Orbit.Entry(c, Min(Orbit.Count(c, n), Orbit.Capacity), k))
  {
    if MaxIterName !in s {
      return previous, Some(KeyError(Text(MaxIterName)));
    }
    var filled := seq(Orbit.OrbitLength, _ => Orbit.Marker);
    if OffsetName !in s {
      return filled, Some(KeyError(Text(OffsetName)));
    }
    match Numeric(s[MaxIterName]) {
      case None =>
        return filled, Some(TypeError);
      case Some(x) =>
        var n := Ceil(x);
        if n <= 0 {
          return filled, None;
        }
        match PairOf(s[OffsetName]) {
          case Err(e) =>
            return filled, Some(e);
          case Ok(c) =>
            var overflow;
            orbit, overflow := Orbit.UpdateOrbit(c, n);
            error := if overflow then Some(IndexError) else None;
        }
    }
  }

  /** The entries `paintGL` reads for its uniforms, in its order, before the drawing gate. */
  const PaintKeys: seq<string> :=
    [MaxIterName, ZoomName, LinesName, PhiName, ColorName, PowerName, PerturbationName, OffsetName, AaName]

  /** The first of `keys` the settings lack, the one a run of `settings[key]` reads raises
      `KeyError` on; `None` when every key is present. */
  function FirstMissing(s: Settings, keys: seq<string>): (r: Option<string>)
    ensures r.None? <==> forall i :: 0 <= i < |keys| ==> keys[i] in s
    ensures r.Some? ==> exists i :: 0 <= i < |keys| && keys[i] == r.value && r.value !in s
                                    && forall j :: 0 <= j < i ==> keys[j] in s
  {
    if |keys| == 0 then None
    else if keys[0] !in s then Some(keys[0])
    else
      var rest := FirstMissing(s, keys[1..]);
      if rest.Some? then
        ghost var i :| 0 <= i < |keys| - 1 && keys[1..][i] == rest.value && rest.value !in s
                       && forall j :: 0 <= j < i ==> keys[1..][j] in s;
        assert keys[i + 1] == rest.value && forall j :: 0 <= j < i + 1 ==> keys[j] in s;
        rest
      else
        assert forall i :: 1 <= i < |keys| ==> keys[i] == keys[1..][i - 1];
        rest
  }

  /** Every entry `paintGL` reads is present. */
  predicate PaintReadable(s: Settings)
    ensures PaintReadable(s) ==> MaxIterName in s && PerturbationName in s && OffsetName in s
  {
    assert PaintKeys[0] == MaxIterName && PaintKeys[6] == PerturbationName && PaintKeys[7] == OffsetName;
    FirstMissing(s, PaintKeys).None?
  }

  /** `paintGL`: the uniform uploads read `MAX_ITER`, `ZOOM`, `LINES`, `PHI`, `COLOR`, `POWER`,
      `PERTURBATION`, `OFFSET` and `AA` in that order, and a missing one raises `KeyError`
      before the array is touched; then the orbit is recomputed only while `PERTURBATION` is
      truthy, and otherwise the shared array keeps what it held. */
  method PaintOrbit(s: Settings, previous: seq<real>) returns (orbit: seq<real>, error: Option<SettingsError>)
    ensures FirstMissing(s, PaintKeys).Some? ==>
              orbit == previous && error == Some(KeyError(Text(FirstMissing(s, PaintKeys).value)))
    ensures MaxIterName !in s ==> orbit == previous && error == Some(KeyError(Text(MaxIterName)))
    ensures PaintReadable(s) && !Truthy(s[PerturbationName]) ==> orbit == previous && error.None?
    ensures PaintReadable(s) && Truthy(s[PerturbationName]) ==>
              && |orbit| == Orbit.OrbitLength
              && (Numeric(s[MaxIterName]).None? ==> AllMarkers(orbit) && error == Some(TypeError))
    ensures PaintReadable(s) && Truthy(s[PerturbationName])
            && Numeric(s[MaxIterName]).Some? && PairOf(s[OffsetName]).Ok? ==>
              var c := PairOf(s[OffsetName]).value;
              var n := Ceil(Numeric(s[MaxIterName]).value);
              && (error.None? <==> n <= 0 || Orbit.Count(c, n) <= Orbit.Capacity)
              && (error.None? ==> forall k :: 0 <= k < Orbit.OrbitLength ==> orbit[k] == Orbit.Entry(c, Orbit.Count(c, n), k))
  {
    var missing := FirstMissing(s, PaintKeys);
    if missing.Some? {
      return previous, Some(KeyError(Text(missing.value)));
    }
    assert PaintReadable(s);
    if !Truthy(s[PerturbationName]) {
      return previous, None;
    }
    orbit, error := GetPerturbationValues(s, previous);
    if Numeric(s[MaxIterName]).Some? && PairOf(s[OffsetName]).Ok? && error.None? {
      var c := PairOf(s[OffsetName]).value;
      var n := Ceil(Numeric(s[MaxIterName]).value);
      if n <= 0 {
        forall k | 0 <= k < Orbit.OrbitLength
          ensures orbit[k] == Orbit.Entry(c, Orbit.Count(c, n), k)
        {
          Orbit.NothingWritten(c, n, k);
        }
      }
    }
  }

  // ---------------------------------------------------------------------------------------
  // The parameter C of the Julia sets

  /** `__get_c_value` of `Julia2D`: `(ABS_C * cos(ARG_C), ABS_C * sin(ARG_C))`, read in that
      order; a missing entry raises `KeyError`, a non-number `TypeError`. */
  function JuliaC(t: Trig, s: Settings): (r: Result<Point, SettingsError>)
    ensures r.Ok? <==> ArgCName in s && AbsCName in s && Numeric(s[ArgCName]).Some? && Numeric(s[AbsCName]).Some?
    ensures r.Ok? ==> r.value == Julia2D.CartesianC(t, Point(Numeric(s[ArgCName]).value, Numeric(s[AbsCName]).value))
    ensures ArgCName !in s ==> r == Err(KeyError(Text(ArgCName)))
    ensures ArgCName in s && AbsCName !in s ==> r == Err(KeyError(Text(AbsCName)))
  {
    if ArgCName !in s then Err(KeyError(Text(ArgCName)))
    else if AbsCName !in s then Err(KeyError(Text(AbsCName)))
    else match (Numeric(s[ArgCName]), Numeric(s[AbsCName]))
      case (Some(a), Some(m)) => Ok(Point(m * t.cos(a), m * t.sin(a)))
      case _ => Err(TypeError)
  }

  /** C's modulus is `ABS_C`, as for the newer widget. */
  lemma JuliaCModulus(t: Trig, s: Settings)
    requires TrigLaws(t)
    requires JuliaC(t, s).Ok?
    ensures JuliaC(t, s).value.NormSquared() == Numeric(s[AbsCName]).value * Numeric(s[AbsCName]).value
  {
    Julia2D.CartesianModulus(t, Point(Numeric(s[ArgCName]).value, Numeric(s[AbsCName]).value));
  }

  /** `__getC` of `Julia3D`: `(r cos a cos b, r sin a cos b, r sin b)` with `a`, `b`, `r` read
      from `ARGX_C`, `ARGY_C` and `ABS_C` in that order. */
  function Julia3C(t: Trig, s: Settings): (r: Result<Vec3, SettingsError>)
    ensures r.Ok? <==> && ArgxCName in s && ArgyCName in s && AbsCName in s
                       && Numeric(s[ArgxCName]).Some? && Numeric(s[ArgyCName]).Some? && Numeric(s[AbsCName]).Some?
    ensures ArgxCName !in s ==> r == Err(KeyError(Text(ArgxCName)))
    ensures ArgxCName in s && ArgyCName !in s ==> r == Err(KeyError(Text(ArgyCName)))
    ensures ArgxCName in s && ArgyCName in s && AbsCName !in s ==> r == Err(KeyError(Text(AbsCName)))
  {
    if ArgxCName !in s then Err(KeyError(Text(ArgxCName)))
    else if ArgyCName !in s then Err(KeyError(Text(ArgyCName)))
    else if AbsCName !in s then Err(KeyError(Text(AbsCName)))
    else match (Numeric(s[ArgxCName]), Numeric(s[ArgyCName]), Numeric(s[AbsCName]))
      case (Some(a), Some(b), Some(m)) =>
        Ok(SphericalPoint(t, m, a, b))
      case _ => Err(TypeError)
  }

  /** The point at length `m`, azimuth `a` and elevation `b`. */
  function SphericalPoint(t: Trig, m: real, a: real, b: real): Vec3 {
    Vec3(m * t.cos(a) * t.cos(b), m * t.sin(a) * t.cos(b), m * t.sin(b))
  }

  /** The spherical point's length is `m`. */
  lemma SphericalPointNorm(t: Trig, m: real, a: real, b: real)
    requires TrigLaws(t)
    ensures SphericalPoint(t, m, a, b).NormSquared() == m * m
  {
    var ca, sa, cb, sb := t.cos(a), t.sin(a), t.cos(b), t.sin(b);
    assert ca * ca + sa * sa == 1.0 && cb * cb + sb * sb == 1.0;
    Julia3D.SphericalNorm(m, ca, sa, cb, sb);
  }

  /** C's length is `ABS_C`. */
  lemma Julia3CNorm(t: Trig, s: Settings)
    requires TrigLaws(t)
    requires Julia3C(t, s).Ok?
    ensures Julia3C(t, s).value.NormSquared() == Numeric(s[AbsCName]).value * Numeric(s[AbsCName]).value
  {
    var a, b, m := Numeric(s[ArgxCName]).value, Numeric(s[ArgyCName]).value, Numeric(s[AbsCName]).value;
    assert Julia3C(t, s).value == SphericalPoint(t, m, a, b);
    SphericalPointNorm(t, m, a, b);
  }

  /** C is the newer widget's `_get_c` of the same three values. */
  lemma Julia3CIsGetC(t: Trig, s: Settings, j: Julia3D.Julia3)
    requires Julia3C(t, s).Ok?
    requires j.absC == Numeric(s[AbsCName]).value && j.argxC == Numeric(s[ArgxCName]).value
    requires j.argyC == Numeric(s[ArgyCName]).value
    ensures Julia3C(t, s).value == Julia3D.GetC(t, j)
  {
    assert Julia3C(t, s).value == SphericalPoint(t, j.absC, j.argxC, j.argyC);
  }

  // ---------------------------------------------------------------------------------------
  // The Mandelbox

  /** The Mandelbox: its camera (the settings' `OFFSET`, `PHI`, `THETA`, `SPEED`, the
      direction flags, `is_moving` and `mouse_position`) and the redraw flag. */
  datatype Box = Box(camera: Camera.Camera, draw: bool)

  /** The defaults: speed 0.1, both angles 0, offset (0, 0, 50), no flag, not moving; the
      same camera as the newer widget's at angles 0, and a valid one. */
  function InitCamera(cursor: Point): (c: Camera.Camera)
    ensures c == Camera.Init(0.0, 0.0, cursor) && Camera.Valid(c)
    ensures c.speed == 0.1 && c.hAngle == 0.0 && c.vAngle == 0.0 && c.offset == Vec3(0.0, 0.0, 50.0)
  {
    Camera.Camera(Vec3(0.0, 0.0, 50.0), 0.0, 0.0, 0.1, {}, false, cursor)
  }

  /** The direction a key stands for here: Space is up, and Shift is no key at all. */
  function KeyDirection(k: Camera.KeyCode): (d: Option<Camera.Direction>)
    ensures k != Camera.KeySpace && k != Camera.KeyShift ==> d == Camera.KeyDirection(k)
    ensures k == Camera.KeySpace ==> d == Some(Camera.Up)
    ensures k == Camera.KeyShift ==> d.None?
  {
    match k
    case KeyW => Some(Camera.Forward)
    case KeyS => Some(Camera.Back)
    case KeyA => Some(Camera.Left)
    case KeyD => Some(Camera.Right)
    case KeySpace => Some(Camera.Up)
    case KeyControl => Some(Camera.Down)
    case _ => None
  }

  /** A key press, in either mode: the redraw flag goes up, and the key's direction flag is
      raised if it is down. */
  function KeyPress(b: Box, k: Camera.KeyCode): (r: Box)
    ensures r.draw && r.camera.(moving := b.camera.moving) == b.camera
    ensures KeyDirection(k).Some? ==> r.camera.moving == b.camera.moving + {KeyDirection(k).value}
    ensures KeyDirection(k).None? ==> r.camera == b.camera
  {
    match KeyDirection(k)
    case Some(d) => if d !in b.camera.moving then Box(b.camera.(moving := b.camera.moving + {d}), true) else b.(draw := true)
    case None => b.(draw := true)
  }

  /** Pressing a key twice is pressing it once. Apart from Space and Shift it raises the same
      flag as the newer widget's key press. */
  lemma KeyPressIdempotent(b: Box, k: Camera.KeyCode)
    ensures KeyPress(KeyPress(b, k), k) == KeyPress(b, k)
    ensures k != Camera.KeySpace && k != Camera.KeyShift ==> KeyPress(b, k).camera == Camera.KeyPress(b.camera, k)
  {
  }

  /** A key release lowers the key's flag in either mode; Escape while moving lowers every
      flag and leaves moving mode, and Escape otherwise opens the quit dialog, which changes
      nothing here. */
  function KeyRelease(b: Box, k: Camera.KeyCode): (r: Box)
    ensures r.draw == b.draw
    ensures KeyDirection(k).Some? ==> r == b.(camera := b.camera.(moving := b.camera.moving - {KeyDirection(k).value}))
    ensures k == Camera.KeyEscape && b.camera.isMoving ==> r == b.(camera := b.camera.(isMoving := false, moving := {}))
    ensures (k != Camera.KeyEscape && KeyDirection(k).None?) || (k == Camera.KeyEscape && !b.camera.isMoving) ==> r == b
  {
    match KeyDirection(k)
    case Some(d) => if d in b.camera.moving then b.(camera := b.camera.(moving := b.camera.moving - {d})) else b
    case None =>
      if k == Camera.KeyEscape && b.camera.isMoving then b.(camera := b.camera.(isMoving := false, moving := {}))
      else b
  }

  /** Pressing a key whose flag is down and releasing it restores the camera, in either mode.
      Unlike the newer widget, a release outside moving mode still lowers the flag. */
  lemma PressReleaseRoundTrip(b: Box, k: Camera.KeyCode)
    requires KeyDirection(k).Some? ==> KeyDirection(k).value !in b.camera.moving
    requires k != Camera.KeyEscape
    ensures KeyRelease(KeyPress(b, k), k).camera == b.camera
    ensures !b.camera.isMoving && KeyDirection(k).Some? && Camera.KeyDirection(k).Some? ==>
              KeyRelease(KeyPress(b, k), k).camera != Camera.KeyRelease(KeyPress(b, k).camera, k)
  {
    if !b.camera.isMoving && KeyDirection(k).Some? && Camera.KeyDirection(k).Some? {
      var d := KeyDirection(k).value;
      assert d in KeyPress(b, k).camera.moving;
      assert d !in KeyRelease(KeyPress(b, k), k).camera.moving;
    }
  }

  /** A mouse press, any button: outside moving mode it enters it and asks for a redraw; in
      either mode the displacement is measured from the recentred cursor from now on. From
      outside moving mode this is the newer widget's left press. */
  function MousePress(b: Box, centred: Point): (r: Box)
    ensures r.camera.isMoving && r.camera.mouse == centred
    ensures r.camera.(isMoving := b.camera.isMoving, mouse := b.camera.mouse) == b.camera
    ensures r.draw == (b.draw || !b.camera.isMoving)
    ensures !b.camera.isMoving ==> r.camera == Camera.MousePress(b.camera, Fractal2D.LeftButton, centred)
  {
    if !b.camera.isMoving then Box(b.camera.(isMoving := true, mouse := centred), true)
    else b.(camera := b.camera.(mouse := centred))
  }

  /** A mouse move turns the camera as the newer widget's does and asks for a redraw while
      moving; outside moving mode nothing changes. */
  function MouseMove(b: Box, cursor: Point): (r: Box)
    ensures r.camera == Camera.MouseMove(b.camera, cursor)
    ensures r.draw == (b.draw || b.camera.isMoving)
    ensures Camera.Valid(b.camera) ==> Camera.Valid(r.camera)
  {
    if b.camera.isMoving then Box(Camera.MouseMove(b.camera, cursor), true) else b
  }

  /** The wheel changes `SPEED` by the delta over 100000 unless that leaves it non-positive,
      as in the newer widget; it asks for no redraw. */
  function Wheel(b: Box, delta: int): (r: Box)
    ensures r.draw == b.draw && r.camera == Camera.Wheel(b.camera, delta)
    ensures Camera.Valid(b.camera) ==> Camera.Valid(r.camera)
  {
    b.(camera := Camera.Wheel(b.camera, delta))
  }

  /** `check_move`: the six `if`s add their direction's step to `OFFSET` exactly as the newer
      `do_move` does, and any raised flag asks for a redraw; with no flag raised nothing
      changes. */
  function CheckMove(t: Trig, b: Box): (r: Box)
    ensures r.camera == Camera.DoMove(t, b.camera)
    ensures r.draw == (b.draw || b.camera.moving != {})
    ensures b.camera.moving == {} ==> r == b
  {
    Box(Camera.DoMove(t, b.camera), b.draw || b.camera.moving != {})
  }

  /** Raising a direction together with its opposite moves the camera as raising neither,
      and the camera keeps its speed, angles and flags. */
  lemma CheckMovePairsCancel(t: Trig, b: Box, d: Camera.Direction)
    ensures var both := b.(camera := b.camera.(moving := b.camera.moving + {d, Camera.Opposite(d)}));
            var neither := b.(camera := b.camera.(moving := b.camera.moving - {d, Camera.Opposite(d)}));
            CheckMove(t, both).camera.offset == CheckMove(t, neither).camera.offset
    ensures CheckMove(t, b).camera.(offset := b.camera.offset) == b.camera
  {
    Camera.PairCancels(t, b.camera, d);
  }

  /** The events `eventFilter` reacts to, and a frame (`update_frame` calls `check_move`). */
  datatype Event =
    | Press(centred: Point)
    | Move(cursor: Point)
    | Scroll(delta: int)
    | KeyDown(key: Camera.KeyCode)
    | KeyUp(key: Camera.KeyCode)
    | Frame

  function Handle(t: Trig, b: Box, e: Event): Box {
    match e
    case Press(p) => MousePress(b, p)
    case Move(p) => MouseMove(b, p)
    case Scroll(d) => Wheel(b, d)
    case KeyDown(k) => KeyPress(b, k)
    case KeyUp(k) => KeyRelease(b, k)
    case Frame => CheckMove(t, b)
  }

  function HandleAll(t: Trig, b: Box, es: seq<Event>): Box
    decreases |es|
  {
    if |es| == 0 then b else HandleAll(t, Handle(t, b, es[0]), es[1..])
  }

  /** No sequence of events makes `SPEED` non-positive or takes `THETA` out of
      (-pi/2, pi/2). */
  lemma {:induction false} HandleAllValid(t: Trig, b: Box, es: seq<Event>)
    requires Camera.Valid(b.camera)
    ensures Camera.Valid(HandleAll(t, b, es).camera)
    decreases |es|
  {
    if |es| > 0 {
      var next := Handle(t, b, es[0]);
      assert Camera.Valid(next.camera);
      HandleAllValid(t, next, es[1..]);
    }
  }

  /** `input_position`: if the dialog is accepted, fields 0, 1 and 2 of the text split at `;`
      set the offset's x, y and z; empty fields are skipped, and a missing or malformed field
      raises after the earlier ones were set. Nothing but the offset changes. */
  function InputPosition(parse: Parser, b: Box, accepted: bool, text: string): (r: Partial<Box, SettingsError>)
    ensures r.state == b.(camera := b.camera.(offset := r.state.camera.offset))
    ensures !accepted ==> r == Partial(b, None)
    ensures accepted && Occurrences(text, ';') < 2 ==> r.error.Some?
    ensures accepted && r.error.None? ==>
              var fields := Split(text, ';');
              var o, p := b.camera.offset, r.state.camera.offset;
              && (if fields[0] == "" then p.x == o.x else parse(fields[0]) == Some(p.x))
              && (if fields[1] == "" then p.y == o.y else parse(fields[1]) == Some(p.y))
              && (if fields[2] == "" then p.z == o.z else parse(fields[2]) == Some(p.z))
  {
    if !accepted then Partial(b, None)
    else
      var o := b.camera.offset;
      var got := InputFields(parse, Split(text, ';'), [o.x, o.y, o.z], 0);
      Partial(b.(camera := b.camera.(offset := Vec3(got.state[0], got.state[1], got.state[2]))), got.error)
  }
}

=== FILE: mandelbox.dfy ===
/** `fractals/mandelbox.py`: the Mandelbox. Its fly camera is the `Camera` module; here are the
    rest of its parameters, their setters, and the panel sliders that set them. Its offset is a
    point in space held by the camera, which replaces the plane offset of the view. */
module Mandelbox {
  import opened Geometry
  import opened Fractal2D
  import Fractal3D
  import Camera
  import Sliders

  datatype Mandelbox = Mandelbox(
    view: View,
    bgColor: Color,
    camera: Camera.Camera,
    depth: int,
    ao: int,
    folding: real,
    scale: real,
    outRad: real,
    inRad: real,
    shadows: bool)

  /** `__init__`: 20 iterations (the iterable base assigns its limit after the 3D base
      assigned 100), depth 300, ambient occlusion 250, folding 4.245, scale 2.051, outer radius
      5, inner radius 3.238, no shadows, and the camera's defaults. */
  function Init(cursor: Point, hAngle: real, vAngle: real): (r: Mandelbox)
    ensures r.view == Fractal3D.Init3D(cursor).(maxIter := 20) && r.bgColor == DefaultBackground
    ensures r.camera == Camera.Init(hAngle, vAngle, cursor)
    ensures r.depth == 300 && r.ao == 250 && !r.shadows
    ensures r.folding == 4.245 && r.scale == 2.051 && r.outRad == 5.0 && r.inRad == 3.238
  {
    Mandelbox(Fractal3D.Init3D(cursor).(maxIter := 20), DefaultBackground, Camera.Init(hAngle, vAngle, cursor),
              300, 250, 4.245, 2.051, 5.0, 3.238, false)
  }

  /** The properties with a setter besides the camera's offset and speed. */
  datatype Param = Depth | Ao | Folding | Scale | OutRad | InRad | Shadows

  predicate Fits(p: Param, x: FieldValue) {
    match p
    case Depth | Ao => x.IntValue?
    case Folding | Scale | OutRad | InRad => x.RealValue?
    case Shadows => x.BoolValue?
  }

  /** The property getter. */
  function Get(s: Mandelbox, p: Param): (x: FieldValue)
    ensures Fits(p, x)
  {
    match p
    case Depth => IntValue(s.depth)
    case Ao => IntValue(s.ao)
    case Folding => RealValue(s.folding)
    case Scale => RealValue(s.scale)
    case OutRad => RealValue(s.outRad)
    case InRad => RealValue(s.inRad)
    case Shadows => BoolValue(s.shadows)
  }

  /** The property setter: it writes its own property and nothing else. */
  function Set(s: Mandelbox, p: Param, x: FieldValue): (r: Mandelbox)
    requires Fits(p, x)
    ensures Get(r, p) == x
    ensures forall q :: q != p ==> Get(r, q) == Get(s, q)
    ensures r.view == s.view && r.bgColor == s.bgColor && r.camera == s.camera
  {
    match p
    case Depth => s.(depth := x.i)
    case Ao => s.(ao := x.i)
    case Folding => s.(folding := x.r)
    case Scale => s.(scale := x.r)
    case OutRad => s.(outRad := x.r)
    case InRad => s.(inRad := x.r)
    case Shadows => s.(shadows := x.b)
  }

  /** The getters see all of the state beyond the view, the background and the camera, so
      `Set`'s frame leaves nothing out. */
  lemma StatesAgreeOnParams(s: Mandelbox, t: Mandelbox)
    requires s.view == t.view && s.bgColor == t.bgColor && s.camera == t.camera
    requires forall p :: Get(s, p) == Get(t, p)
    ensures s == t
  {
    assert s.depth == t.depth by { assert Get(s, Depth) == Get(t, Depth); }
    assert s.ao == t.ao by { assert Get(s, Ao) == Get(t, Ao); }
    assert s.folding == t.folding by { assert Get(s, Folding) == Get(t, Folding); }
    assert s.scale == t.scale by { assert Get(s, Scale) == Get(t, Scale); }
    assert s.outRad == t.outRad by { assert Get(s, OutRad) == Get(t, OutRad); }
    assert s.inRad == t.inRad by { assert Get(s, InRad) == Get(t, InRad); }
    assert s.shadows == t.shadows by { assert Get(s, Shadows) == Get(t, Shadows); }
  }

  /** The `offset` and `speed` setters write the camera's fields and nothing else. Unlike the
      wheel, the speed setter takes any value. */
  function SetOffset(s: Mandelbox, offset: Vec3): (r: Mandelbox)
    ensures r.camera.offset == offset && r == s.(camera := r.camera)
    ensures r.camera.(offset := s.camera.offset) == s.camera
  {
    s.(camera := s.camera.(offset := offset))
  }

  function SetSpeed(s: Mandelbox, speed: real): (r: Mandelbox)
    ensures r.camera.speed == speed && r == s.(camera := r.camera)
    ensures r.camera.(speed := s.camera.speed) == s.camera
    ensures Camera.Valid(r.camera) <==> 0.0 < speed && Camera.PitchInRange(s.camera.vAngle)
  {
    s.(camera := s.camera.(speed := speed))
  }

  /** The panel: the ambient occlusion mirrored around 600 and the four shape parameters in
      1000ths undo their initial conversions, and every slider starts inside its scope for the
      defaults (20 iterations in 0..30, depth 300 in 1..400, ambient occlusion at 350 in
      100..500, folding, scale and both radii at 4245, 2051, 5000 and 3238 in 1..5000). */
  lemma PanelSliders(ao: real, shape: real, cursor: Point, hAngle: real, vAngle: real)
    ensures Sliders.Mirror(Sliders.AoMirror, Sliders.Mirror(Sliders.AoMirror, ao)) == ao
    ensures Sliders.ToValue(Sliders.Thousandths, Sliders.ToPosition(Sliders.Thousandths, shape)) == shape
    ensures var s := Init(cursor, hAngle, vAngle);
            && 0 <= s.view.maxIter <= 30 && 1 <= s.depth <= 400
            && Sliders.Mirror(Sliders.AoMirror, s.ao as real) == 350.0
            && Sliders.ToPosition(Sliders.Thousandths, s.folding) == 4245.0
            && Sliders.ToPosition(Sliders.Thousandths, s.scale) == 2051.0
            && Sliders.ToPosition(Sliders.Thousandths, s.outRad) == 5000.0
            && Sliders.ToPosition(Sliders.Thousandths, s.inRad) == 3238.0
  {
    Sliders.PanelScalesInvertible();
    Sliders.ScaleRoundTrip(Sliders.Thousandths, 0.0, shape);
    Sliders.MirrorInvolution(Sliders.AoMirror, ao, 100.0, 500.0);
  }
}

=== FILE: mandelbrot2d.dfy ===
/** `fractals/mandelbrot_2d.py`: the 2D Mandelbrot set. On top of the navigable view it holds
    the power, the perturbation switch and the reference-orbit array; it saves and loads the
    view and the power, and recomputes the orbit before drawing only while perturbation is on.
    The older `fractals/mandelbrot2d.py` has the same fields, defaults, setters, orbit and
    drawing gate, without saving and loading; its `name()` is `LegacyName`. */
module Mandelbrot2D {
  import opened Basics
  import opened Geometry
  import opened Fractal2D
  import opened Json
  import opened Records2D
  import opened Orbit

  const LegacyName: string := "Mandelbrot 2D"

  datatype Mandelbrot = Mandelbrot(view: View, power: real, perturbation: bool, orbit: seq<real>)

  /** `__init__`: the view's defaults, power 2, perturbation off, and an array of 100000
      zeros. */
  function Init(cursor: Point): (r: Mandelbrot)
    ensures r.view == Fractal2D.Init(cursor) && r.power == 2.0 && !r.perturbation
    ensures |r.orbit| == OrbitLength && forall k :: 0 <= k < |r.orbit| ==> r.orbit[k] == 0.0
  {
    Mandelbrot(Fractal2D.Init(cursor), 2.0, false, seq(OrbitLength, _ => 0.0))
  }

  /** The `power` setter. */
  function SetPower(s: Mandelbrot, p: real): (r: Mandelbrot)
    ensures r.power == p && r.view == s.view && r.perturbation == s.perturbation && r.orbit == s.orbit
  {
    s.(power := p)
  }

  /** The `perturbation` setter. */
  function SetPerturbation(s: Mandelbrot, on: bool): (r: Mandelbrot)
    ensures r.perturbation == on && r.view == s.view && r.power == s.power && r.orbit == s.orbit
  {
    s.(perturbation := on)
  }

  /** The two setters write disjoint fields: they commute. */
  lemma SettersCommute(s: Mandelbrot, p: real, on: bool)
    ensures SetPower(SetPerturbation(s, on), p) == SetPerturbation(SetPower(s, p), on)
  {
  }

  /** `_save_state`: the view's entries and the power. */
  function Save(s: Mandelbrot): (j: Value)
    ensures j.JObject? && j.fields.Keys == ViewEntries(s.view, s.power).Keys
    ensures j.fields[PowerKey] == JReal(s.power) && j.fields[MaxIterKey] == JInt(s.view.maxIter)
  {
    JObject(ViewEntries(s.view, s.power))
  }

  /** `_load_state`: the view's entries and the power, each assigned as soon as it is read.
      The perturbation switch and the orbit are not part of the record. */
  function Load(s: Mandelbrot, j: Value): (r: Partial<Mandelbrot, LoadError>)
    ensures r.state.perturbation == s.perturbation && r.state.orbit == s.orbit
    ensures r.state.view.lastMouse == s.view.lastMouse
  {
    var loaded := LoadView(ViewAndPower(s.view, s.power), j);
    Partial(s.(view := loaded.state.view, power := loaded.state.power), loaded.error)
  }

  /** Loading a saved record restores the view and the power, and leaves the perturbation
      switch, the orbit and the recorded cursor as they were. */
  lemma SaveLoadRoundTrip(s: Mandelbrot, t: Mandelbrot)
    ensures Load(t, Save(s)) == Partial(t.(view := s.view.(lastMouse := t.view.lastMouse), power := s.power), None)
  {
    assert ViewEntries(s.view, s.power) + map[] == ViewEntries(s.view, s.power);
    LoadViewRoundTrip(ViewAndPower(s.view, s.power), ViewAndPower(t.view, t.power), map[]);
  }

  /** The load is not atomic: a record without `power` raises `KeyError` after the iteration
      limit, zoom, central lines, rotation and colour have been assigned; the power, offset and
      antialiasing keep their values. */
  lemma LoadWithoutPower(s: Mandelbrot, t: Mandelbrot)
    ensures var v := t.view.(maxIter := s.view.maxIter, zoom := s.view.zoom, centralLines := s.view.centralLines,
                             rotation := s.view.rotation, color := s.view.color);
            Load(t, JObject(ViewEntries(s.view, s.power) - {PowerKey}))
              == Partial(t.(view := v), Some(MissingKey(PowerKey)))
  {
    LoadViewWithoutPower(ViewAndPower(s.view, s.power), ViewAndPower(t.view, t.power));
  }

  /** The orbit part of `paintGL`: with perturbation on, the orbit of the offset is recomputed
      (raising `IndexError` if it outgrows the array); with it off the array is left alone. */
  method Paint(s: Mandelbrot) returns (r: Mandelbrot, overflow: bool)
    ensures r.view == s.view && r.power == s.power && r.perturbation == s.perturbation
    ensures !s.perturbation ==> r.orbit == s.orbit && !overflow
    ensures s.perturbation ==> (overflow <==> Capacity < Count(s.view.offset, s.view.maxIter))
    ensures s.perturbation ==> |r.orbit| == OrbitLength
    ensures s.perturbation ==> forall k :: 0 <= k < OrbitLength ==>
              r.orbit[k] == Entry(s.view.offset, Min(Count(s.view.offset, s.view.maxIter), Capacity), k)
  {
    r, overflow := s, false;
    if s.perturbation {
      var orbit;
      orbit, overflow := UpdateOrbit(s.view.offset, s.view.maxIter);
      r := s.(orbit := orbit);
    }
  }
}

=== FILE: mandelbrot3d.dfy ===
/** `fractals/mandelbrot_3d.py`: the 3D Mandelbulb. On top of the 3D base view it holds the
    power, a fixed black background, a rotation about the z axis, the rendering switches and
    depths. It is not saved or loaded; like the quaternion Julia set it draws with camera angles
    `h_angle` and `v_angle` that none of its base classes define, kept as plain fields here. */
module Mandelbrot3D {
  import opened RealMath
  import opened Geometry
  import opened Fractal2D
  import Fractal3D
  import Sliders

  /** `name()`. */
  const Name: string := "Mandelbrot 3D Polar"

  datatype Mandelbulb = Mandelbulb(
    view: View,
    hAngle: real,
    vAngle: real,
    power: real,
    bgColor: Color,
    zAngle: real,
    cut: bool,
    shadows: bool,
    depth: int,
    ao: int)

  /** `QColor(0, 0, 0)`: opaque black. */
  const Black := Color(0.0, 0.0, 0.0, 1.0)

  /** `__init__`: 10 iterations (the iterable base assigns its limit after the 3D base assigned
      100), power 9, black background, no z rotation, no cut, shadows, depth 400 and ambient
      occlusion 150. The camera angles are given. */
  function Init(cursor: Point, hAngle: real, vAngle: real): (r: Mandelbulb)
    ensures r.view == Fractal3D.Init3D(cursor).(maxIter := 10)
    ensures r.power == 9.0 && r.bgColor == Black && r.zAngle == 0.0
    ensures !r.cut && r.shadows && r.depth == 400 && r.ao == 150
    ensures r.hAngle == hAngle && r.vAngle == vAngle
  {
    Mandelbulb(Fractal3D.Init3D(cursor).(maxIter := 10), hAngle, vAngle, 9.0, Black, 0.0, false, true, 400, 150)
  }

  /** The properties with setters; the background has none. */
  datatype Param = Power | ZAngle | Cut | Shadows | Depth | Ao

  predicate Fits(p: Param, x: FieldValue) {
    match p
    case Power | ZAngle => x.RealValue?
    case Cut | Shadows => x.BoolValue?
    case Depth | Ao => x.IntValue?
  }

  /** The property getter. */
  function Get(s: Mandelbulb, p: Param): (x: FieldValue)
    ensures Fits(p, x)
  {
    match p
    case Power => RealValue(s.power)
    case ZAngle => RealValue(s.zAngle)
    case Cut => BoolValue(s.cut)
    case Shadows => BoolValue(s.shadows)
    case Depth => IntValue(s.depth)
    case Ao => IntValue(s.ao)
  }

  /** The property setter: it writes its own property and nothing else; the view, the camera
      angles and the background are never written. */
  function Set(s: Mandelbulb, p: Param, x: FieldValue): (r: Mandelbulb)
    requires Fits(p, x)
    ensures Get(r, p) == x
    ensures forall q :: q != p ==> Get(r, q) == Get(s, q)
    ensures r.view == s.view && r.hAngle == s.hAngle && r.vAngle == s.vAngle && r.bgColor == s.bgColor
  {
    match p
    case Power => s.(power := x.r)
    case ZAngle => s.(zAngle := x.r)
    case Cut => s.(cut := x.b)
    case Shadows => s.(shadows := x.b)
    case Depth => s.(depth := x.i)
    case Ao => s.(ao := x.i)
  }

  /** The getters see all of the state beyond the view, the camera and the background, so
      `Set`'s frame leaves nothing out. */
  lemma StatesAgreeOnParams(s: Mandelbulb, t: Mandelbulb)
    requires s.view == t.view && s.hAngle == t.hAngle && s.vAngle == t.vAngle && s.bgColor == t.bgColor
    requires forall p :: Get(s, p) == Get(t, p)
    ensures s == t
  {
    assert s.power == t.power by { assert Get(s, Power) == Get(t, Power); }
    assert s.zAngle == t.zAngle by { assert Get(s, ZAngle) == Get(t, ZAngle); }
    assert s.cut == t.cut by { assert Get(s, Cut) == Get(t, Cut); }
    assert s.shadows == t.shadows by { assert Get(s, Shadows) == Get(t, Shadows); }
    assert s.depth == t.depth by { assert Get(s, Depth) == Get(t, Depth); }
    assert s.ao == t.ao by { assert Get(s, Ao) == Get(t, Ao); }
  }

  /** The panel: `Z-Rotation` in 10000ths of a turn and the ambient occlusion mirrored around
      600 undo their initial conversions, and every slider starts inside its scope for the
      defaults (power 9 in 2..10, rotation 0 in 0..10000, depth 400 in 1..400, ambient
      occlusion at 450 in 100..500). */
  lemma PanelSliders(zAngle: real, ao: real, cursor: Point, hAngle: real, vAngle: real)
    ensures Sliders.ToValue(Sliders.FullTurns, Sliders.ToPosition(Sliders.FullTurns, zAngle)) == zAngle
    ensures Sliders.Mirror(Sliders.AoMirror, Sliders.Mirror(Sliders.AoMirror, ao)) == ao
    ensures var s := Init(cursor, hAngle, vAngle);
            && 2.0 <= s.power <= 10.0 && 1 <= s.depth <= 400
            && Sliders.ToPosition(Sliders.FullTurns, s.zAngle) == 0.0
            && Sliders.Mirror(Sliders.AoMirror, s.ao as real) == 450.0
  {
    Sliders.PanelScalesInvertible();
    Sliders.ScaleRoundTrip(Sliders.FullTurns, 0.0, zAngle);
    Sliders.MirrorInvolution(Sliders.AoMirror, ao, 100.0, 500.0);
  }
}

=== FILE: orbit.dfy ===
/** The reference orbit of perturbation rendering, `_update_perturbation_values` of
    `fractals/mandelbrot_2d.py` (repeated in the older `fractals/mandelbrot2d.py` and as
    `get_perturbation_values` in `Fractals.py`). A float array of 100000 entries is filled with
    the marker 5; then the iterates z(1), z(2), ... of z -> z*z + c, starting from z(0) = 0 with
    c the view's offset, are written pairwise (real part at 2i, imaginary part at 2i + 1), for
    at most `max_iter` points, stopping right after the first point with |z|^2 >= 512. A write
    past the end of the array raises `IndexError`, leaving what was written so far. */
module Orbit {
  import opened Basics
  import opened Geometry

  const OrbitLength: nat := 100000
  /** The number of points the array has room for. */
  const Capacity: nat := OrbitLength / 2
  /** What every entry holds before the orbit is written. */
  const Marker: real := 5.0
  const EscapeNormSquared: real := 512.0

  /** `zsqr`: the square of a complex number. */
  function Square(z: Point): (r: Point)
    ensures r.x == z.x * z.x - z.y * z.y && r.y == 2.0 * z.x * z.y
  {
    Point(z.x * z.x - z.y * z.y, 2.0 * z.x * z.y)
  }

  /** Squaring a complex number squares its modulus: (x^2 - y^2)^2 + (2xy)^2 == (x^2 + y^2)^2. */
  lemma SquareSquaresModulus(z: Point)
    ensures Square(z).NormSquared() == z.NormSquared() * z.NormSquared()
  {
    var a, b := z.x * z.x, z.y * z.y;
    calc {
      Square(z).NormSquared();
      (a - b) * (a - b) + (2.0 * z.x * z.y) * (2.0 * z.x * z.y);
      (a - b) * (a - b) + 4.0 * (a * b);
      (a + b) * (a + b);
    }
  }

  /** z(k): the k-th iterate of z -> z*z + c from 0. */
  function Iterate(c: Point, k: nat): Point {
    if k == 0 then Origin else Square(Iterate(c, k - 1)).Plus(c)
  }

  predicate Escaped(z: Point) {
    z.NormSquared() >= EscapeNormSquared
  }

  /** The number of points the loop computes when it has written `i` without escaping: it
      goes on while fewer than `n` are written and the last one has not escaped. */
  function CountFrom(c: Point, n: int, i: nat): (r: nat)
    decreases n - i
  {
    if n <= i then i
    else if Escaped(Iterate(c, i + 1)) then i + 1
    else CountFrom(c, n, i + 1)
  }

  /** The number of points the loop computes (and writes, if the array has room). */
  function Count(c: Point, n: int): nat {
    CountFrom(c, n, 0)
  }

  /** What `CountFrom` counts: the first escaping iterate after `i`, or `n` if none escapes
      before it. */
  lemma {:induction false} CountFromMeaning(c: Point, n: int, i: nat)
    ensures var r := CountFrom(c, n, i);
            && i <= r && (i < n ==> i < r <= n)
            && (forall j :: i < j < r ==> !Escaped(Iterate(c, j)))
            && (i < r < n ==> Escaped(Iterate(c, r)))
    decreases n - i
  {
    if i < n && !Escaped(Iterate(c, i + 1)) {
      CountFromMeaning(c, n, i + 1);
    }
  }

  /** The count is the position of the first escaping iterate among z(1) .. z(n), or `n`
      when none escapes; no iterate before it escapes. With `max_iter` 0 or less nothing is
      computed. */
  lemma CountMeaning(c: Point, n: int)
    ensures var r := Count(c, n);
            && r <= Max(n, 0) && (0 < n ==> 1 <= r)
            && (forall j :: 0 < j < r ==> !Escaped(Iterate(c, j)))
            && (r < n ==> Escaped(Iterate(c, r)))
  {
    CountFromMeaning(c, n, 0);
  }

  /** The first point written is c itself, and the second is c*c + c. */
  lemma FirstPoints(c: Point)
    ensures Iterate(c, 1) == c
    ensures Iterate(c, 2) == Square(c).Plus(c)
  {
    assert Iterate(c, 0) == Origin;
    assert Square(Origin) == Origin;
    assert Iterate(c, 1) == Origin.Plus(c) == c;
  }

  /** Entry `k` of the array once `w` points are written: a coordinate of point `k / 2`, or
      the marker. */
  function Entry(c: Point, w: nat, k: nat): real {
    if k / 2 < w then (if k % 2 == 0 then Iterate(c, k / 2 + 1).x else Iterate(c, k / 2 + 1).y)
    else Marker
  }

  /** The two assignments that write a point as entries `2i` and `2i + 1`. */
  function Put(orbit: seq<real>, i: nat, z: Point): (r: seq<real>)
    requires 2 * i + 1 < |orbit|
    ensures |r| == |orbit|
  {
    orbit[2 * i := z.x][2 * i + 1 := z.y]
  }

  /** Writing point `i + 1` at entries `2i` and `2i + 1` turns the array holding `i` points
      into the one holding `i + 1`. */
  lemma WriteNextPoint(orbit: seq<real>, c: Point, i: nat, z: Point, next: nat)
    requires 2 * i + 1 < |orbit|
    requires next == i + 1 && z == Iterate(c, next)
    requires forall k :: 0 <= k < |orbit| ==> orbit[k] == Entry(c, i, k)
    ensures forall k :: 0 <= k < |orbit| ==> Put(orbit, i, z)[k] == Entry(c, next, k)
  {
    forall k | 0 <= k < |orbit|
      ensures Put(orbit, i, z)[k] == Entry(c, next, k)
    {
      if k == 2 * i {
        assert k / 2 == i && k % 2 == 0;
      } else if k == 2 * i + 1 {
        assert k / 2 == i && k % 2 == 1;
      } else {
        assert k / 2 != i;
      }
    }
  }

  /** The array `_update_perturbation_values` leaves, and whether it raised `IndexError`. */
  method UpdateOrbit(c: Point, n: int) returns (orbit: seq<real>, overflow: bool)
    ensures |orbit| == OrbitLength
    ensures overflow <==> Capacity < Count(c, n)
    ensures forall k :: 0 <= k < OrbitLength ==> orbit[k] == Entry(c, Min(Count(c, n), Capacity), k)
  {
    orbit := seq(OrbitLength, _ => Marker);
    var z := Origin;
    var i: nat := 0;
    var stop := false;
    overflow := false;
    while i < n && !stop
      invariant i <= Capacity
      invariant !overflow ==> z == Iterate(c, i)
      invariant |orbit| == OrbitLength
      invariant forall k :: 0 <= k < OrbitLength ==> orbit[k] == Entry(c, i, k)
      invariant !stop ==> Count(c, n) == CountFrom(c, n, i)
      invariant stop && !overflow ==> Count(c, n) == i
      invariant overflow ==> stop && i == Capacity && Capacity < Count(c, n)
      decreases n - i, if stop then 0 else 1
    {
      z := Square(z).Plus(c);
      if 2 * i >= OrbitLength {
        CountFromMeaning(c, n, i);
        overflow := true;
        stop := true;
      } else {
        WriteNextPoint(orbit, c, i, z, i + 1);
        orbit := Put(orbit, i, z);
        i := i + 1;
        if Escaped(z) {
          stop := true;
        }
      }
    }
  }

  /** With `max_iter` at most 0 the array holds only the marker. */
  lemma NothingWritten(c: Point, n: int, k: nat)
    requires n <= 0
    ensures Count(c, n) == 0 && Entry(c, Min(Count(c, n), Capacity), k) == Marker
  {
  }

  /** The array has room for the whole orbit whenever `max_iter` is at most 50000, as it is
      on the panel's slider (scope 0 to 500). */
  lemma NoOverflowWithinCapacity(c: Point, n: int)
    requires n <= Capacity
    ensures Count(c, n) <= Capacity
  {
    CountMeaning(c, n);
  }

  /** A point that never leaves the disc (c = 0) is written `max_iter` times and stays 0. */
  lemma ZeroOrbit(n: int)
    requires 0 < n <= Capacity
    ensures Count(Origin, n) == n
    ensures forall j: nat :: Iterate(Origin, j) == Origin
  {
    forall j: nat ensures Iterate(Origin, j) == Origin {
      ZeroIterates(j);
    }
    ZeroCountFrom(n, 0);
  }

  lemma {:induction false} ZeroIterates(j: nat)
    ensures Iterate(Origin, j) == Origin
  {
    if j > 0 {
      ZeroIterates(j - 1);
    }
  }

  lemma ZeroStaysInside(j: nat)
    ensures !Escaped(Iterate(Origin, j))
  {
    ZeroIterates(j);
  }

  lemma {:induction false} ZeroCountFrom(n: int, i: nat)
    requires i <= n
    ensures CountFrom(Origin, n, i) == n
    decreases n - i
  {
    if i < n {
      ZeroStaysInside(i + 1);
      ZeroCountFrom(n, i + 1);
    }
  }
}

=== FILE: realmath.dfy ===
/** Real-number stand-ins for Python's `math` module.

    The program calls `sin`, `cos`, `pow`/`**` and `exp` on floats. The model works over
    `real` and cannot define these transcendental functions, so every operation that needs
    one takes it as a parameter; the laws a proof relies on are stated once, here, as ghost
    predicates and appear as preconditions of the lemmas that use them. Floating-point
    rounding is not modelled. */
module RealMath {

  /** `math.pi` as the Python runtime prints it. */
  const Pi: real := 3.141592653589793

  /** The pair of trigonometric functions a computation is allowed to call. */
  datatype Trig = Trig(sin: real -> real, cos: real -> real)

  /** The facts about sine and cosine used anywhere in the model: the Pythagorean identity
      and the values at 0 and at pi. */
  ghost predicate TrigLaws(t: Trig) {
    && (forall x :: t.sin(x) * t.sin(x) + t.cos(x) * t.cos(x) == 1.0)
    && t.sin(0.0) == 0.0 && t.cos(0.0) == 1.0
    && t.sin(Pi) == 0.0 && t.cos(Pi) == -1.0
  }

  /** The laws are consistent: a (crude) pair of functions satisfies all of them. */
  lemma TrigLawsSatisfiable()
    ensures exists t :: TrigLaws(t)
  {
    var t := Trig(x => 0.0, x => if x == Pi then -1.0 else 1.0);
    assert TrigLaws(t);
  }

  /** `pow(b, x)` / `b ** x` on a positive base. */
  type PowFn = (real, real) -> real

  /** Exponent laws for positive bases: positivity, `b^1 == b`, `b^(x+y) == b^x * b^y` and
      `(b^x)^y == b^(x*y)`. The last two fire only on the marker terms below, which the lemmas
      `PowAdd` and `PowPow` introduce; left to fire on every `pow` term they make even small
      proofs expensive. */
  ghost predicate PowLaws(pow: PowFn) {
    && (forall b, x :: 0.0 < b ==> 0.0 < pow(b, x))
    && (forall b :: 0.0 < b ==> pow(b, 1.0) == b)
    && (forall b, x, y {:trigger ExponentSum(pow, b, x, y)} ::
          0.0 < b ==> pow(b, x + y) == pow(b, x) * pow(b, y))
    && (forall b, x, y {:trigger ExponentProduct(pow, b, x, y)} ::
          0.0 < b ==> pow(pow(b, x), y) == pow(b, x * y))
  }

  /** Marker terms that let a proof ask for one instance of a law. */
  ghost function ExponentSum(pow: PowFn, b: real, x: real, y: real): bool { true }
  ghost function ExponentProduct(pow: PowFn, b: real, x: real, y: real): bool { true }

  /** `math.exp`: the only fact used is that it is positive. */
  type ExpFn = real -> real

  ghost predicate ExpLaws(exp: ExpFn) {
    forall x :: 0.0 < exp(x)
  }

  /** A zero exponent gives 1, for any positive base. */
  lemma PowZero(pow: PowFn, b: real)
    requires PowLaws(pow)
    requires 0.0 < b
    ensures pow(b, 0.0) == 1.0
  {
    var p := pow(b, 0.0);
    var q := pow(b, 1.0);
    assert ExponentSum(pow, b, 1.0, 0.0);
    assert 1.0 + 0.0 == 1.0;
    assert q == b && q == b * p;
    assert b * (p - 1.0) == 0.0;
  }

  /** 1 raised to any power is 1. */
  lemma PowOfOne(pow: PowFn, y: real)
    requires PowLaws(pow)
    ensures pow(1.0, y) == 1.0
  {
    PowZero(pow, 1.0);
    assert ExponentProduct(pow, 1.0, 0.0, y);
  }

  /** `b^x * b^y == b^(x+y)`, spelled so that callers need not introduce the terms. */
  lemma PowAdd(pow: PowFn, b: real, x: real, y: real)
    requires PowLaws(pow)
    requires 0.0 < b
    ensures pow(b, x) * pow(b, y) == pow(b, x + y)
  {
    assert ExponentSum(pow, b, x, y);
  }

  /** Scaling by `b^x` and then by `b^y` is scaling by `b^(x+y)`. */
  lemma PowScaleTwice(pow: PowFn, z: real, b: real, x: real, y: real, sum: real)
    requires PowLaws(pow)
    requires 0.0 < b
    requires x + y == sum
    ensures z * pow(b, x) * pow(b, y) == z * pow(b, sum)
  {
    PowAdd(pow, b, x, y);
    var px, py := pow(b, x), pow(b, y);
    assert z * px * py == z * (px * py);
  }

  /** `(b^x)^y == b^(x*y)`. */
  lemma PowPow(pow: PowFn, b: real, x: real, y: real, product: real)
    requires PowLaws(pow)
    requires 0.0 < b
    requires x * y == product
    ensures pow(pow(b, x), y) == pow(b, product)
  {
    assert ExponentProduct(pow, b, x, y);
  }

  /** `math.ceil` on a real. */
  function Ceil(x: real): (c: int)
    ensures (c - 1) as real < x <= c as real
  {
    if x == x.Floor as real then x.Floor else x.Floor + 1
  }

  /** The ceiling of a value is the value itself exactly when the value is integral. */
  lemma CeilExact(x: real)
    ensures Ceil(x) as real == x <==> x == x.Floor as real
  {
  }
}

=== FILE: records2d.dfy ===
/** The part of the saved state the 2D fractals of `fractals/julia_2d.py` and
    `fractals/mandelbrot_2d.py` share: both `_save_state` functions write the same eleven
    entries for the view and the power, and both `_load_state` functions read them back in the
    same order, assigning each property as soon as it is read. */
module Records2D {
  import opened Basics
  import opened Geometry
  import opened Fractal2D
  import opened Json

  /** The view fields and the power of a 2D fractal, as `_save_state` lays them out. */
  function ViewEntries(v: View, power: real): (m: map<Key, Value>)
    ensures m.Keys == {MaxIterKey, ZoomFactorKey, CentralLinesKey, RotationAngleKey, ColorKey,
                       PowerKey, OffsetKey, AntialiasingKey}
  {
    map[
      MaxIterKey := JInt(v.maxIter),
      ZoomFactorKey := JReal(v.zoom),
      CentralLinesKey := JBool(v.centralLines),
      RotationAngleKey := JReal(v.rotation),
      ColorKey := JObject(map[RedKey := JReal(v.color.red), GreenKey := JReal(v.color.green),
                              BlueKey := JReal(v.color.blue), AlphaKey := JReal(v.color.alpha)]),
      PowerKey := JReal(power),
      OffsetKey := JObject(map[XKey := JReal(v.offset.x), YKey := JReal(v.offset.y)]),
      AntialiasingKey := JBool(v.antialiasing)
    ]
  }

  /** What the loaders assign before the fractal-specific entries: the view and the power. */
  datatype ViewAndPower = ViewAndPower(view: View, power: real)

  /** The first eleven assignments of `_load_state`, in program order. The first lookup that
      raises stops the load; everything assigned before it stays assigned. */
  function LoadView(s: ViewAndPower, j: Value): (r: Partial<ViewAndPower, LoadError>)
    ensures r.state.view.lastMouse == s.view.lastMouse
  {
    match GetInt(j, [MaxIterKey])
    case Err(e) => Partial(s, Some(e))
    case Ok(maxIter) =>
      var s1 := s.(view := s.view.(maxIter := maxIter));
      match GetReal(j, [ZoomFactorKey])
      case Err(e) => Partial(s1, Some(e))
      case Ok(zoom) =>
        var s2 := s1.(view := s1.view.(zoom := zoom));
        match GetBool(j, [CentralLinesKey])
        case Err(e) => Partial(s2, Some(e))
        case Ok(lines) =>
          var s3 := s2.(view := s2.view.(centralLines := lines));
          match GetReal(j, [RotationAngleKey])
          case Err(e) => Partial(s3, Some(e))
          case Ok(angle) =>
            var s4 := s3.(view := s3.view.(rotation := angle));
            LoadColorAndRest(s4, j)
  }

  /** The four colour channels, then the power, the offset and antialiasing. */
  function LoadColorAndRest(s: ViewAndPower, j: Value): (r: Partial<ViewAndPower, LoadError>)
    ensures r.state.view.lastMouse == s.view.lastMouse
  {
    match GetReal(j, [ColorKey, RedKey])
    case Err(e) => Partial(s, Some(e))
    case Ok(red) =>
      var s1 := s.(view := s.view.(color := s.view.color.(red := red)));
      match GetReal(j, [ColorKey, GreenKey])
      case Err(e) => Partial(s1, Some(e))
      case Ok(green) =>
        var s2 := s1.(view := s1.view.(color := s1.view.color.(green := green)));
        match GetReal(j, [ColorKey, BlueKey])
        case Err(e) => Partial(s2, Some(e))
        case Ok(blue) =>
          var s3 := s2.(view := s2.view.(color := s2.view.color.(blue := blue)));
          match GetReal(j, [ColorKey, AlphaKey])
          case Err(e) => Partial(s3, Some(e))
          case Ok(alpha) =>
            var s4 := s3.(view := s3.view.(color := s3.view.color.(alpha := alpha)));
            match GetReal(j, [PowerKey])
            case Err(e) => Partial(s4, Some(e))
            case Ok(power) =>
              var s5 := s4.(power := power);
              match GetReal(j, [OffsetKey, XKey])
              case Err(e) => Partial(s5, Some(e))
              case Ok(x) =>
                match GetReal(j, [OffsetKey, YKey])
                case Err(e) => Partial(s5, Some(e))
                case Ok(y) =>
                  var s6 := s5.(view := s5.view.(offset := Point(x, y)));
                  match GetBool(j, [AntialiasingKey])
                  case Err(e) => Partial(s6, Some(e))
                  case Ok(aa) => Partial(s6.(view := s6.view.(antialiasing := aa)), None)
  }

  /** Every entry `ViewEntries` writes reads back as the value it was written from. */
  lemma ViewEntriesReadBack(v: View, power: real, extra: map<Key, Value>)
    requires extra.Keys !! ViewEntries(v, power).Keys
    ensures var j := JObject(ViewEntries(v, power) + extra);
            && GetInt(j, [MaxIterKey]) == Ok(v.maxIter)
            && GetReal(j, [ZoomFactorKey]) == Ok(v.zoom)
            && GetBool(j, [CentralLinesKey]) == Ok(v.centralLines)
            && GetReal(j, [RotationAngleKey]) == Ok(v.rotation)
            && GetReal(j, [ColorKey, RedKey]) == Ok(v.color.red)
            && GetReal(j, [ColorKey, GreenKey]) == Ok(v.color.green)
            && GetReal(j, [ColorKey, BlueKey]) == Ok(v.color.blue)
            && GetReal(j, [ColorKey, AlphaKey]) == Ok(v.color.alpha)
            && GetReal(j, [PowerKey]) == Ok(power)
            && GetReal(j, [OffsetKey, XKey]) == Ok(v.offset.x)
            && GetReal(j, [OffsetKey, YKey]) == Ok(v.offset.y)
            && GetBool(j, [AntialiasingKey]) == Ok(v.antialiasing)
  {
    ColorEntriesReadBack(v, power, extra);
    var m := ViewEntries(v, power) + extra;
    assert m[OffsetKey] == ViewEntries(v, power)[OffsetKey];
    ReadBack(m, OffsetKey, XKey);
    ReadBack(m, OffsetKey, YKey);
  }

  /** The colour channels read back from the nested `color` object. */
  lemma ColorEntriesReadBack(v: View, power: real, extra: map<Key, Value>)
    requires extra.Keys !! ViewEntries(v, power).Keys
    ensures var j := JObject(ViewEntries(v, power) + extra);
            && GetReal(j, [ColorKey, RedKey]) == Ok(v.color.red)
            && GetReal(j, [ColorKey, GreenKey]) == Ok(v.color.green)
            && GetReal(j, [ColorKey, BlueKey]) == Ok(v.color.blue)
            && GetReal(j, [ColorKey, AlphaKey]) == Ok(v.color.alpha)
  {
    var m := ViewEntries(v, power) + extra;
    assert m[ColorKey] == ViewEntries(v, power)[ColorKey];
    ReadBack(m, ColorKey, RedKey);
    ReadBack(m, ColorKey, GreenKey);
    ReadBack(m, ColorKey, BlueKey);
    ReadBack(m, ColorKey, AlphaKey);
  }

  /** Loading what was saved restores the view and the power: every property the record holds
      is assigned from it, and only the recorded cursor, which is not saved, stays. */
  lemma LoadViewRoundTrip(s: ViewAndPower, t: ViewAndPower, extra: map<Key, Value>)
    requires extra.Keys !! ViewEntries(s.view, s.power).Keys
    ensures LoadView(t, JObject(ViewEntries(s.view, s.power) + extra))
         == Partial(s.(view := s.view.(lastMouse := t.view.lastMouse)), None)
  {
    ViewEntriesReadBack(s.view, s.power, extra);
  }

  /** The load is not atomic: a record without `power` raises `KeyError` only after the
      iteration limit, zoom, central lines, rotation and colour have been assigned, and leaves
      the power, the offset and antialiasing as they were. */
  lemma LoadViewWithoutPower(s: ViewAndPower, t: ViewAndPower)
    ensures var j := JObject(ViewEntries(s.view, s.power) - {PowerKey});
            var v := t.view.(maxIter := s.view.maxIter, zoom := s.view.zoom,
                             centralLines := s.view.centralLines, rotation := s.view.rotation,
                             color := s.view.color);
            LoadView(t, j) == Partial(t.(view := v), Some(MissingKey(PowerKey)))
  {
    var m := ViewEntries(s.view, s.power) - {PowerKey};
    ReadBack(m, MaxIterKey, MaxIterKey);
    ReadBack(m, ZoomFactorKey, ZoomFactorKey);
    ReadBack(m, CentralLinesKey, CentralLinesKey);
    ReadBack(m, RotationAngleKey, RotationAngleKey);
    var v4 := t.view.(maxIter := s.view.maxIter, zoom := s.view.zoom,
                      centralLines := s.view.centralLines, rotation := s.view.rotation);
    ColorThenNoPower(t.(view := v4), s.view, s.power);
  }

  /** Past the first four entries, a record without `power` yields the colour and then
      `KeyError`. */
  lemma ColorThenNoPower(s: ViewAndPower, v: View, power: real)
    ensures LoadColorAndRest(s, JObject(ViewEntries(v, power) - {PowerKey}))
         == Partial(s.(view := s.view.(color := v.color)), Some(MissingKey(PowerKey)))
  {
    var m := ViewEntries(v, power) - {PowerKey};
    assert m[ColorKey] == ViewEntries(v, power)[ColorKey];
    ReadBack(m, ColorKey, RedKey);
    ReadBack(m, ColorKey, GreenKey);
    ReadBack(m, ColorKey, BlueKey);
    ReadBack(m, ColorKey, AlphaKey);
  }
}

=== FILE: registry.dfy ===
/** The fractal registry of `frontend/main_window.py`: the fractals sit in a combo box as items
    labelled with their names, in the order they were added. Registering a fractal whose name
    is already there raises `RuntimeError`; otherwise it is appended. */
module Registry {
  import opened Basics

  /** A combo-box item: the label and the fractal it carries. */
  datatype Item<F> = Item(name: string, fractal: F)

  datatype RegisterError = AlreadyRegistered(name: string)

  /** The labels of the items, in order. */
  function Names<F>(items: seq<Item<F>>): (r: seq<string>)
    ensures |r| == |items| && forall i :: 0 <= i < |items| ==> r[i] == items[i].name
  {
    seq(|items|, i requires 0 <= i < |items| => items[i].name)
  }

  predicate Distinct(names: seq<string>) {
    forall i, j :: 0 <= i < j < |names| ==> names[i] != names[j]
  }

  /** `_get_registered_fractals`: the fractals of the items, in index order. */
  function Registered<F>(items: seq<Item<F>>): (r: seq<F>)
    ensures |r| == |items| && forall i :: 0 <= i < |items| ==> r[i] == items[i].fractal
  {
    seq(|items|, i requires 0 <= i < |items| => items[i].fractal)
  }

  /** `register_fractal`: an error if the name is taken, leaving the items as they are;
      otherwise the items with the new one appended. */
  function Register<F>(items: seq<Item<F>>, name: string, fractal: F): (r: Result<seq<Item<F>>, RegisterError>)
    ensures r.Err? <==> name in Names(items)
    ensures r.Err? ==> r.error == AlreadyRegistered(name)
    ensures r.Ok? ==> r.value == items + [Item(name, fractal)]
    ensures r.Ok? ==> Registered(r.value) == Registered(items) + [fractal]
  {
    if name in Names(items) then Err(AlreadyRegistered(name)) else Ok(items + [Item(name, fractal)])
  }

  /** A successful registration keeps the names pairwise distinct. */
  lemma RegisterKeepsDistinct<F>(items: seq<Item<F>>, name: string, fractal: F)
    requires Distinct(Names(items))
    requires Register(items, name, fractal).Ok?
    ensures Distinct(Names(Register(items, name, fractal).value))
  {
    var after := Names(items + [Item(name, fractal)]);
    forall i, j | 0 <= i < j < |after|
      ensures after[i] != after[j]
    {
      if j == |items| {
        assert after[i] == Names(items)[i];
      } else {
        assert after[i] == Names(items)[i] && after[j] == Names(items)[j];
      }
    }
  }

  /** Registering a list of fractals in turn, stopping at the first error. */
  function RegisterAll<F>(items: seq<Item<F>>, news: seq<Item<F>>): Result<seq<Item<F>>, RegisterError>
    decreases |news|
  {
    if |news| == 0 then Ok(items)
    else match Register(items, news[0].name, news[0].fractal)
      case Err(e) => Err(e)
      case Ok(next) => RegisterAll(next, news[1..])
  }

  /** Starting from distinct names, registering a list succeeds exactly when all the names,
      old and new, are distinct, and then the new items follow the old ones in order. */
  lemma {:induction false} RegisterAllMeaning<F>(items: seq<Item<F>>, news: seq<Item<F>>)
    requires Distinct(Names(items))
    ensures RegisterAll(items, news).Ok? <==> Distinct(Names(items + news))
    ensures RegisterAll(items, news).Ok? ==> RegisterAll(items, news).value == items + news
    decreases |news|
  {
    if |news| == 0 {
      assert items + news == items;
    } else {
      var first := news[0];
      var all := Names(items + news);
      assert all[|items|] == first.name;
      if first.name in Names(items) {
        var i :| 0 <= i < |Names(items)| && Names(items)[i] == first.name;
        assert all[i] == first.name;
      } else {
        var next := items + [first];
        RegisterKeepsDistinct(items, first.name, first.fractal);
        RegisterAllMeaning(next, news[1..]);
        assert next + news[1..] == items + news;
      }
    }
  }
}

=== FILE: sliders.dfy ===
/** The slider conversions of the fractal control panels. A `NamedSlider` holds an integer
    position inside its scope; its handler turns the position into a parameter value, and the
    panel is built with an initial position computed from the current value. Two shapes occur:
    a linear scale `value == position / den * num` (with initial position `value * den / num`),
    and a mirror `value == c - position` (with initial position `c - value`). Qt's conversion of
    a fractional initial position to an integer (`SliderPosition`) is applied only to the
    rotation slider. */
module Sliders {
  import opened RealMath

  /** A linear conversion: position `p` stands for `p / den * num`. */
  datatype Scale = Scale(num: real, den: real)

  predicate Invertible(s: Scale) {
    s.num != 0.0 && s.den != 0.0
  }

  /** The handler: the value a position stands for. */
  function ToValue(s: Scale, p: real): real
    requires s.den != 0.0
  {
    p / s.den * s.num
  }

  /** The initial position the panel gives the slider for a value. */
  function ToPosition(s: Scale, v: real): real
    requires s.num != 0.0
  {
    v * s.den / s.num
  }

  /** The two conversions are mutually inverse. */
  lemma ScaleRoundTrip(s: Scale, p: real, v: real)
    requires Invertible(s)
    ensures ToPosition(s, ToValue(s, p)) == p
    ensures ToValue(s, ToPosition(s, v)) == v
  {
    var a := p / s.den;
    assert a * s.den == p;
    assert ToValue(s, p) * s.den / s.num == a * s.num * s.den / s.num == a * s.den;
    var b := v * s.den;
    assert b / s.den == v;
    assert ToValue(s, ToPosition(s, v)) == b / s.num / s.den * s.num == b / s.den;
  }

  /** With a positive scale, a scope `[lo, hi]` of positions maps onto the values between
      `lo / den * num` and `hi / den * num`, in order. */
  lemma ScaleMonotone(s: Scale, p: real, q: real)
    requires 0.0 < s.num && 0.0 < s.den
    requires p <= q
    ensures ToValue(s, p) <= ToValue(s, q)
  {
    var k := s.num / s.den;
    assert ToValue(s, p) == p * k && ToValue(s, q) == q * k;
    assert 0.0 < k;
    assert (q - p) * k >= 0.0;
  }

  /** A mirrored conversion around `c`: position `p` stands for `c - p`. */
  function Mirror(c: real, p: real): (v: real)
    ensures v + p == c
  {
    c - p
  }

  /** The mirror is its own inverse, and maps a scope symmetric about `c / 2` onto itself. */
  lemma MirrorInvolution(c: real, p: real, lo: real, hi: real)
    ensures Mirror(c, Mirror(c, p)) == p
    ensures lo + hi == c && lo <= p <= hi ==> lo <= Mirror(c, p) <= hi
  {
  }

  /** The panel scales that occur. */
  const Thousandths := Scale(1.0, 1000.0)
  const FiveThousandths := Scale(1.0, 5000.0)
  const HalfTurns := Scale(Pi, 5000.0)
  const FullTurns := Scale(2.0 * Pi, 10000.0)

  /** The scales are invertible. */
  lemma PanelScalesInvertible()
    ensures Invertible(Thousandths) && Invertible(FiveThousandths)
    ensures Invertible(HalfTurns) && Invertible(FullTurns)
  {
  }

  /** The `Arg(C)` slider of the 2D Julia set: positions 0 to 10000 stand for angles 0 to 2*pi. */
  lemma HalfTurnsRange(p: real)
    requires 0.0 <= p <= 10000.0
    ensures 0.0 <= ToValue(HalfTurns, p) <= 2.0 * Pi
    ensures ToValue(HalfTurns, 0.0) == 0.0 && ToValue(HalfTurns, 10000.0) == 2.0 * Pi
  {
    ScaleMonotone(HalfTurns, 0.0, p);
    ScaleMonotone(HalfTurns, p, 10000.0);
  }

  /** The rotation sliders of the 3D fractals: positions 0 to 10000 stand for one full turn. */
  lemma FullTurnsRange(p: real)
    requires 0.0 <= p <= 10000.0
    ensures 0.0 <= ToValue(FullTurns, p) <= 2.0 * Pi
    ensures ToValue(FullTurns, 0.0) == 0.0 && ToValue(FullTurns, 10000.0) == 2.0 * Pi
  {
    ScaleMonotone(FullTurns, 0.0, p);
    ScaleMonotone(FullTurns, p, 10000.0);
  }

  /** The ambient-occlusion sliders: positions 100 to 500 stand for 500 down to 100. */
  const AoMirror: real := 600.0

  lemma AoRange(p: real)
    requires 100.0 <= p <= 500.0
    ensures 100.0 <= Mirror(AoMirror, p) <= 500.0
    ensures Mirror(AoMirror, Mirror(AoMirror, p)) == p
  {
    MirrorInvolution(AoMirror, p, 100.0, 500.0);
  }

  /** The scope of the rotation slider of the 2D and 3D views. */
  const RotationLow: real := -5000.0
  const RotationHigh: real := 5000.0

  /** The rotation slider as the panel builds it: its handler sets `rotation_angle` to
      `position / 5000`, but its initial position is the angle itself, not the angle times
      5000. */
  function RotationPositionAsWritten(angle: real): (p: real)
    ensures ToValue(FiveThousandths, p) == angle / 5000.0
  {
    angle
  }

  /** The integer position a slider takes when it is given a fractional one: the fraction is
      dropped, toward zero. */
  function SliderPosition(p: real): (q: int)
    ensures 0.0 <= p ==> q as real <= p < q as real + 1.0
    ensures p < 0.0 ==> q as real - 1.0 < p <= q as real
  {
    if 0.0 <= p then p.Floor else -((-p).Floor)
  }

  /** Rebuilding the panel while the view is rotated puts the slider where the handler reads a
      different angle: at rotation 0.5 (the angle counts half turns, so a quarter turn) the
      initial position is 0.5 itself, which the handler would read as 0.0001; the slider drops
      the fraction, so it stands at position 0, that is for 0.0. */
  lemma RotationPositionMisplaced()
    ensures ToValue(FiveThousandths, RotationPositionAsWritten(0.5)) == 0.0001
    ensures ToValue(FiveThousandths, RotationPositionAsWritten(0.5)) != 0.5
    ensures SliderPosition(RotationPositionAsWritten(0.5)) == 0
    ensures ToValue(FiveThousandths, SliderPosition(RotationPositionAsWritten(0.5)) as real) == 0.0
  {
  }

  /** For every rotation strictly between -1 and 1 half turns, the slider as built stands at
      position 0, so it shows no rotation at all; only a rotation of 0 is shown correctly. */
  lemma RotationSliderShowsZero(angle: real)
    requires -1.0 < angle < 1.0
    ensures SliderPosition(RotationPositionAsWritten(angle)) == 0
    ensures ToValue(FiveThousandths, SliderPosition(RotationPositionAsWritten(angle)) as real) == 0.0
    ensures ToValue(FiveThousandths, SliderPosition(RotationPositionAsWritten(angle)) as real) == angle <==> angle == 0.0
  {
  }

  /** The initial position the handler's conversion calls for. */
  function RotationPosition(angle: real): (p: real)
    ensures p == ToPosition(FiveThousandths, angle)
    ensures ToValue(FiveThousandths, p) == angle
    ensures -1.0 <= angle <= 1.0 ==> RotationLow <= p <= RotationHigh
  {
    angle * 5000.0
  }
}
